=== FILE: README.md ===
# ONNX Runtime C-API Python binding: a Dafny model

This project models the binding layer between Python and the ONNX Runtime C
API. The binding exists in two variants: a nanobind one (`Ortpy`) and an
earlier pybind11 one (`Pyort`). The model also covers the two build scripts
that choose the runtime package to download (`get_onnxruntime.py`) and stamp
the wheel version (`get_version.py`).

The native runtime does not appear as code. Every answer it can give is a
parameter of the model: a status pointer (`Status.StatusPtr`), including
those of `CreateCpuMemoryInfo` in every `MemoryInfo` and of the first
`GetAllocatorWithDefaultOptions`, the handle a creation writes, the tensor `OrtApi::Run` produces (`Session.Runtime`), the
key/value table a query returns. The same goes for the host side: the
selection callback (`Delegate.Callback`), the platform's C data model
(`NumpyTypes.DataModel`), the git tags at HEAD and the decoded GitHub
response. Errors are values: a C++ `throw` becomes an `Err` of
`Errors.Error`, and `What` gives the text the model assigns to its
`what()`. For the binding's own `std::runtime_error`s that is the
message the code writes. A Python `raise`
becomes an `Err` of `ScriptErrors.ScriptError`.

Modules, in dependency order:

- `Wrappers`, `PyStrings`, `Errors`, `ScriptErrors`: `Result`/`Option`, the
  Python `str` operations the scripts use, and the two exception vocabularies.
- `ElementTypes`: the nanobind tables. These are ONNX element tags, DLPack
  dtypes and their key order, dtype names and element widths.
- `NumpyTypes`: the pybind11 tables, keyed by numpy type kinds, on both C
  data models.
- `ByteSize`, `Tensors`: `Value::GetSize` (width times dimensions in a
  wrapping `size_t`) and the four tensor queries.
- `Status`, `KeyValue`, `Devices`, `Environment`: status checking, native
  key/value tables, device snapshots, and the lazily created API table,
  allocator and environment.
- `Ownership`: `OrtTypeWrapper`, the move-only owner of a native handle.
- `NbValue`, `ValueLifetime`, `PyValue`: the two `Value` classes, and the
  lifetime of the nanobind `Value::State` block.
- `Delegate`: the execution-provider selection callback and its native
  trampoline.
- `Session`: input/output descriptions and `Run`, for both bindings.
- `GetOnnxruntime`, `GetVersion`: the two scripts.

Behaviour of the code that its declarations or names do not suggest; the
model follows the code:

- A null device descriptor throws `std::runtime_error`
  (src/cpp/Ortpy.cpp:95, 112; src/cpp/Pyort.cpp:88, 105), not
  `std::invalid_argument`.
- The nanobind `Value(const NpArray&)` (src/cpp/Ortpy.cpp:635-656) does not
  keep the array. Converting such a value back to an array fails with "Value
  does not hold a numpy array" (src/cpp/Ortpy.cpp:686,
  `NbValue.HostValueIsNotConvertible`).
- The nanobind `Value(shape, type)` (src/cpp/Ortpy.cpp:658-680) asks the
  runtime to allocate before it checks the element type. A failed allocation therefore takes precedence
  over an unsupported type (`NbValue.FromShape`).
- `src/cpp/Ortpy.h:221-223` declares `Session::Run` with a run-options
  argument. The definition at `src/cpp/Ortpy.cpp:550-599` has none, so the
  model has none.
- `src/cpp/Pyort.h:167-171` declares the pybind11 `TensorInfo` without
  symbolic dimensions. The constructor at `src/cpp/Pyort.cpp:534-559` fills
  them in, so `Session.PyTensorInfo` has them.
- `src/cpp/Pyort.h:182-183` declares the pybind11 `Run` without run options.
  The definition at `src/cpp/Pyort.cpp:712-714` takes optional ones. The
  model leaves them out (see below).

## Model

| member | source | states |
|---|---|---|
| ElementTypes.LessIsStrictTotalOrder | src/cpp/Ortpy.cpp:33-38 | The dtype `operator<` is irreflexive, transitive, asymmetric and total. The equivalence `std::map` derives from it is plain equality, so a dtype-keyed table finds exactly the dtype it is given. |
| ElementTypes.NpTypeToOrtType | src/cpp/Ortpy.cpp:805-829 | Succeeds exactly on the twelve supported DLPack dtypes and yields a supported tag. Any other dtype throws an error naming its (code, bits, lanes) triple. |
| ElementTypes.OrtTypeToNpType | src/cpp/Ortpy.cpp:831-860 | Succeeds exactly on the twelve supported tags and yields a one-lane supported dtype that maps back to the same tag. Any other tag throws an error naming it. |
| ElementTypes.HostRoundTrip | src/cpp/Ortpy.cpp:805-860 | The other direction: a supported dtype survives host to native to host unchanged, so the two tables are mutually inverse. |
| ElementTypes.NpTypeToOrtTypeInjective | src/cpp/Ortpy.cpp:805-829 | Distinct supported dtypes map to distinct tags. |
| ElementTypes.NpTypeToName | src/cpp/Ortpy.cpp:862-886 | Names exactly the dtypes the tag table accepts, and fails with the same error on the rest. |
| ElementTypes.NpTypeToNameInjective | src/cpp/Ortpy.cpp:862-886 | The twelve names are pairwise distinct. |
| ElementTypes.NameOfSupportedTag | src/cpp/Ortpy.cpp:831-886 | Naming the dtype of any supported tag never throws, which is what a `TensorInfo.dtype` needs. |
| ElementTypes.GetSizeOfOrtType | src/cpp/Ortpy.cpp:888-917 | Width is 1, 2, 4 or 8 bytes by tag group, and always equals the bit width of the tag's dtype divided by 8. Unsupported tags throw. |
| NumpyTypes.NpTypeToOrtType | src/cpp/Pyort.cpp:938-969 | Accepts every named numpy kind and rejects any other type number with an error naming it. Both `int` and `long` map to INT32, and both `uint` and `ulong` to UINT32. |
| NumpyTypes.OrtTypeToNpType | src/cpp/Pyort.cpp:971-1001 | Defined on exactly the twelve supported tags, on either data model. It never yields an unnamed kind. |
| NumpyTypes.NativeRoundTripOnWindows | src/cpp/Pyort.cpp:938-1001 | On LLP64, native to host to native is the identity on all twelve tags. |
| NumpyTypes.HostRoundTripNotIdentity | src/cpp/Pyort.cpp:951-956 | Host to native to host is not the identity: `int` and `long` share a tag, and a C `int` array comes back as `long`. |
| NumpyTypes.Lp64RoundTripFails | src/cpp/Pyort.cpp:951-956 | As written, on LP64 an INT64 output maps to numpy `long`, which maps back to INT32. The same happens for UINT64. |
| NumpyTypes.WrittenRoundTripExactly | src/cpp/Pyort.cpp:938-1001 | As written, native to host to native is the identity exactly on Windows, or for tags other than INT64 and UINT64. On LP64 those two come back as INT32 and UINT32. |
| NumpyTypes.HostToNative | src/cpp/Pyort.cpp:938-969 | The corrected table, in which `long` and `ulong` map by their platform width. It agrees with the written table on LLP64. |
| NumpyTypes.NativeRoundTripFor | src/cpp/Pyort.cpp:938-1001 | With the corrected table, native to host to native is the identity on every supported tag and both data models. |
| NumpyTypes.HostToNativeKeepsWidth | src/cpp/Pyort.cpp:938-969 | The corrected table preserves the element byte width of every kind. The written one tags an 8-byte LP64 `long` as a 4-byte type. |
| ByteSize.ComputeSize | src/cpp/Ortpy.cpp:729-788 | The `GetSize` loop yields the reference byte count. An unsupported tag is reported first. Next comes the first negative dimension, with its value. Otherwise the result is width times the product of dimensions, modulo 2^64. |
| ByteSize.ScalarSize | src/cpp/Ortpy.cpp:778-787 | A rank-0 tensor has the size of one element. |
| ByteSize.ExactWhenSmall | src/cpp/Ortpy.cpp:778-787 | When the true byte count fits in `size_t`, no wrap-around happens. |
| ByteSize.ZeroDimensionGivesZero | src/cpp/Ortpy.cpp:778-787 | Any zero dimension makes the byte size zero. |
| Tensors.GetSize | src/cpp/Ortpy.cpp:729-788 | An empty value throws. Otherwise the result is the byte count, which is the buffer length for a tensor the runtime builds. |
| Tensors.QueriesAgree | src/cpp/Ortpy.cpp:696-803 | The four tensor queries describe one tensor consistently. On an empty value each throws "Value is empty". Otherwise type and shape always answer, and the byte size is computed from exactly what they report: the buffer length for a well-formed tensor. The data query then throws only "Failed to get data from OrtValue.", and only for a null data pointer. |
| Status.Check | src/cpp/Ortpy.cpp:131-156 | Throws exactly when the status is non-null with a non-OK code. The exception text is the native message. |
| Status.FailStatusRoundTrip | src/cpp/Ortpy.cpp:413-416 | A message put in an `ORT_FAIL` status and checked again surfaces with the same text. |
| KeyValue.KeyValuePairsToMapSpec | src/cpp/Ortpy.cpp:68-86 | The map's keys are the keys of rows whose key and value are both non-null. Each key is bound to the value of its last such row. |
| KeyValue.FoldSpec | src/cpp/Ortpy.cpp:79-85 | Loop invariant of the conversion, for any start map: keys are added by valid rows, later rows overwrite, and other keys are untouched. |
| KeyValue.InvalidRowsIgnored | src/cpp/Ortpy.cpp:81-84 | A row with a null key or value changes nothing. |
| Devices.HardwareSnapshot | src/cpp/Ortpy.cpp:91-104 | A null descriptor is refused. Otherwise the snapshot's numbers and vendor are the descriptor's, and a null vendor reads as "". A metadata key is present exactly when the native table has a row for it with non-null key and value, and it is bound to the last such row's value. |
| Devices.EpSnapshot | src/cpp/Ortpy.cpp:108-122 | A snapshot exists exactly when the descriptor has a hardware device. Its names are the descriptor's. Its metadata, options and device metadata read the native tables, keeping the last valid row per key. Converting it back gives the descriptor's own address. |
| Devices.EpDevicePointerRoundTrip | src/cpp/Pyort.cpp:101-120 | Wrapping a descriptor and converting back gives the same native address. |
| Devices.DefaultEpDeviceIsNull | src/cpp/Ortpy.h:85-97 | A default-constructed `EpDevice` converts to null. |
| Environment.GetOrCreate | src/cpp/Ortpy.cpp:165-181 | A filled slot is returned unchanged. An empty slot is filled only by a successful creation, and the call returns what the creation gave. |
| Environment.GetApiStable | src/cpp/Ortpy.cpp:42-54 | Over any run of `GetApi` calls, every call before the loader's first non-null table throws "Failed to get ONNX Runtime API". Every later call returns that first table. |
| Environment.CheckedSingletonStable | src/cpp/Ortpy.cpp:56-65 | Over any run of `GetAllocator` (or `Env::GetSingleton`) calls, every call before the first successful creation throws that call's native message. Every later call returns the first created handle. |
| Environment.SingletonIsStable | src/cpp/Ortpy.cpp:165-181 | Starting empty, each call before the first successful creation fails with its own error. Every later call returns that one instance. |
| Environment.FilledSlotIsStable | src/cpp/Pyort.cpp:160-176 | Once the slot is filled, creation is never attempted again. |
| Ownership.StepPreservesInv | src/cpp/Ortpy.h:24-55 | Construction, destruction, move construction and move assignment keep the invariant: every created handle is owned by exactly one live wrapper or has been released, never both. |
| Ownership.ReplayPreservesInv | src/cpp/Ortpy.h:21-62 | The invariant holds after any run of wrapper operations. |
| Ownership.ReleasedExactlyOnce | src/cpp/Ortpy.h:21-62 | No handle is released twice. Once every wrapper is gone, each created handle has been released exactly once. |
| Ownership.MoveConstructTransfers | src/cpp/Ortpy.h:38-42 | A move construction leaves the source null, gives the destination the source's handle and releases nothing. The only new wrapper is the destination, and every other wrapper keeps its pointer. |
| Ownership.MoveAssignReleasesOld | src/cpp/Ortpy.h:43-55 | A move assignment releases exactly what the destination held and takes the source's handle, which differs from it, and leaves the source null. The set of live wrappers is unchanged, and every wrapper other than the two keeps its pointer. Self-assignment changes nothing. |
| Ownership.DestroyNullReleasesNothing | src/cpp/Ortpy.h:28-35 | Destroying a moved-from wrapper releases nothing. |
| Ownership.Borrow | src/cpp/Ortpy.h:56-59 | The pointer a live wrapper lends out was never released. |
| NbValue.ToSizeShape | src/cpp/Ortpy.cpp:617-632 | Each `int64_t` dimension cast to `size_t`. A dimension in `size_t` range is kept, and a negative one becomes its two's-complement reading, 2^64 plus the value. |
| NbValue.ToSizeShapeKeepsValidDims | src/cpp/Ortpy.cpp:617-632 | The cast keeps every dimension a real tensor can have. |
| NbValue.ViewOf | src/cpp/Ortpy.cpp:617-632 | A view exists exactly for a supported tag with non-null data. It has the dtype mapping back to the tag, the cast shape, and the same address and contents. |
| NbValue.FromOrtValue | src/cpp/Ortpy.cpp:611-633 | Null makes an empty value. Otherwise the value owns the tensor and holds its view, or throws the view's error. |
| NbValue.FromHostArray | src/cpp/Ortpy.cpp:635-656 | The dtype check comes first, then the `MemoryInfo` status (src/cpp/Ortpy.cpp:921-926), then the creation status; each failed status throws its own message. On success the tensor is made over the array's own buffer with the mapped tag, and no view is kept. |
| NbValue.FromShape | src/cpp/Ortpy.cpp:658-680 | The status of `GetAllocator()` comes first (src/cpp/Ortpy.cpp:57-66, non-null only on the call that fills the cached allocator), then the creation status, then the tag check, then the data check. On success the value owns the created tensor. |
| NbValue.ConstructedValuesConvert | src/cpp/Ortpy.cpp:611-694 | Every constructor's value converts to the handle the runtime created. A value over a native tensor, including one made from a shape, converts to the view of that very tensor. The view's dtype maps to the requested tag, and it has the cast shape and the same address and contents. A value made from an array has no view, so converting it throws. |
| NbValue.NativeValueViewAgrees | src/cpp/Ortpy.cpp:611-633 | For a value made from a native tensor, the array's dtype maps to the tensor's tag, and the shape and address agree with the queries. |
| NbValue.HostValueIsNotConvertible | src/cpp/Ortpy.cpp:635-689 | A value made from an array hands the runtime that buffer, shape and dtype, but cannot be converted back to an array. |
| NbValue.EmptyValueRefuses | src/cpp/Ortpy.cpp:682-803 | Every query of an empty value throws, and its handle is null. |
| ValueLifetime.IntendedReleasesAtLastDrop | src/cpp/Ortpy.h:245-264 | With the intended `State` lifetime, the native value is released once, exactly when the last `Value` and the last exported array are gone. |
| ValueLifetime.IntendedValueIsReleased | src/cpp/Ortpy.cpp:603-633 | The same from creation onward: never released early, never twice, always in the end. |
| ValueLifetime.AsWrittenNeverReleases | src/cpp/Ortpy.cpp:611-633 | As written, the stored view's capsule keeps its own `State` alive, so no sequence of copies, drops and exports ever releases the native value. |
| ValueLifetime.OutputLeaks | src/cpp/Ortpy.cpp:586-598 | Concrete run: export one array, drop the `Value`, drop the array. As written nothing refers to the State yet it is never destroyed. The intended design releases it. |
| PyValue.ToArray | src/cpp/Pyort.cpp:812-827 | Returns the cached array if any. Otherwise an empty value throws and a negative dimension is refused. Otherwise the result is a new array of the mapped kind and shape holding a copy of `GetSize()` bytes, which becomes the cache. |
| PyValue.ToArrayIdempotent | src/cpp/Pyort.cpp:812-827 | A second conversion returns the same array object and changes nothing. |
| PyValue.ToArrayCopiesContents | src/cpp/Pyort.cpp:818-826 | For a runtime-built tensor the copy is the whole buffer, and the array's element width equals the tag's on every platform. |
| PyValue.FromArray | src/cpp/Pyort.cpp:766-787 | An unnamed numpy kind throws first. Next a failed `MemoryInfo` (src/cpp/Pyort.cpp:1005-1010) throws its message, then `mutable_data()` refuses a read-only array with "array is not writeable", then a failed creation throws. On success the tensor is made over the array's buffer (its address and contents) and shape, tagged by the as-written table, and the array becomes the cache. |
| PyValue.WrittenOutputRoundTrip | src/cpp/Pyort.cpp:766-827 | As written, an output array (a new array, so writeable) fed back as an input gets its output's tag back exactly on Windows, or for tags other than the 64-bit integers. |
| PyValue.LongArrayMislabelled | src/cpp/Pyort.cpp:769 | On LP64, a one-element 8-byte `long` array becomes an INT32 tensor whose byte size disagrees with its buffer. The corrected constructor makes it a well-formed INT64 tensor. |
| PyValue.FromArrayIntended | src/cpp/Pyort.cpp:766-787 | The corrected constructor succeeds in the same cases, including the read-only refusal, and agrees with the written one on Windows. The element width of its tag always equals the width of the array's kind. |
| PyValue.IntendedOutputRoundTrip | src/cpp/Pyort.cpp:766-827 | With the corrected constructor, an output array fed back as an input always gets its output's tag back. |
| PyValue.ArrayRoundTrip | src/cpp/Pyort.cpp:766-827 | Host to value to host gives back the very same array object. |
| PyValue.FromShape | src/cpp/Pyort.cpp:789-805 | The tag check comes first, then numpy's shape check, then the `MemoryInfo` status, then the creation status. On success the tensor wraps the new array's buffer and the array becomes the cache. |
| PyValue.FromShapeSharesBuffer | src/cpp/Pyort.cpp:789-827 | The host gets the very array the runtime writes into, at the tensor's buffer address and with its contents. Its kind maps back to the tensor's tag through the as-written table, except for 64-bit integers on LP64. |
| Delegate.ConvertDevices | src/cpp/Ortpy.cpp:389-394 | Wraps every descriptor in order. The first null descriptor, or null hardware device, throws its error. |
| Delegate.Decide | src/cpp/Pyort.cpp:475-484 | A returned list is the selection itself, in the callback's order, unless it has more devices than `max_selected`, which throws. An answer that is not a device list fails to convert, and a raised exception propagates. A `None` answer selects nothing under pybind11 and fails to convert under nanobind. |
| Delegate.Select | src/cpp/Ortpy.cpp:384-405 | A wrapping failure comes before the call. Calling a cleared callback throws `bad_function_call`. Otherwise, under either binding, the stored callback is called with the wrapped devices and both metadata maps, and its answer is decided as above. Any result is within `max_selected`. |
| Delegate.Trampoline | src/cpp/Ortpy.cpp:375-421 | On success it returns a null status, writes exactly the chosen devices' addresses in order, sets the count and leaves the rest of the buffer untouched. On failure it returns an `ORT_FAIL` status with the exception's text (or the fixed unknown-error text) and writes nothing. |
| Delegate.SelectionRoundTrip | src/cpp/Pyort.cpp:466-489 | Devices the host picks from those it was given come back to the runtime as the very descriptors it offered, in the host's order. |
| Delegate.FailureMessageSurvives | src/cpp/Ortpy.cpp:413-420 | The host's exception text survives the trip through the runtime's status. |
| Delegate.SetDelegateThenSelect | src/cpp/Ortpy.cpp:368-428 | Once a callback is set, the runtime's selection request calls exactly that callback on the wrapped devices and converted metadata, even if the runtime refused the registration. Setting an empty callback leaves the previously stored one in charge. |
| Delegate.TpClear | src/cpp/Ortpy.cpp:317-330 | Clearing drops the stored callback and keeps the options object. |
| Delegate.TrampolineAfterClear | src/cpp/Ortpy.cpp:384-420 | A selection request after clearing fails cleanly with `bad_function_call` and writes nothing. |
| Session.MakeTensorInfo | src/cpp/Ortpy.cpp:455-480 | Succeeds exactly for a supported element type. It copies sizes and symbolic names (null reads as "") per dimension, and its dtype maps back to the tag. |
| Session.MakePyTensorInfo | src/cpp/Pyort.cpp:534-559 | Succeeds exactly when the nanobind description does, with the same shape and names. The numpy kind maps back to the tag through the as-written table, except for 64-bit integers on LP64. |
| Session.CollectInfo | src/cpp/Ortpy.cpp:502-548 | Succeeds exactly when every entry's description can be built. |
| Session.CollectInfoSpec | src/cpp/Ortpy.cpp:502-548 | The map's keys are exactly the entries' names. Each is bound to the description of the first entry with that name (`emplace` keeps the first). |
| Session.GetIoInfoSpec | src/cpp/Ortpy.cpp:502-548 | The same for `GetInputInfo` and `GetOutputInfo` themselves. |
| Session.BindingsDescribeAlike | src/cpp/Pyort.cpp:664-710 | Both bindings report the same names, shapes and symbolic dimensions for a session's inputs and outputs. |
| Session.NbInputs | src/cpp/Ortpy.cpp:560-567 | One `Value` per input in order, made from that input's array with its own `MemoryInfo` and creation statuses. The first array that cannot be wrapped throws. |
| Session.NbWrapAll | src/cpp/Ortpy.cpp:587-591 | Wraps every output slot in order, succeeding exactly when every slot can be wrapped. |
| Session.NbToArrays | src/cpp/Ortpy.cpp:592-597 | Converts each wrapped output to its stored view, succeeding exactly when each has one. |
| Session.NbOutputs | src/cpp/Ortpy.cpp:586-597 | Every output comes back as the view of the tensor in its slot, succeeding exactly when each slot holds a viewable tensor. |
| Session.Zip | src/cpp/Ortpy.cpp:592-597 | Pairs each output name with its array, with no other keys. |
| Session.NbRun | src/cpp/Ortpy.cpp:550-599 | Errors come in source order: inputs, then output descriptions, then the run status, then output wrapping. Once inputs and descriptions succeed, a failed run throws its native message. A successful run gives a result exactly when every output slot holds a viewable tensor. On success the keys are exactly the output names, and each maps to the view of the tensor the runtime produced for it. |
| Session.NbWrapReleases | src/cpp/Ortpy.cpp:586-591 | With the intended `State` lifetime, unwinding from a failed wrap releases only slots up to and including the failing one. |
| Session.FirstUnwrappable | src/cpp/Ortpy.cpp:586-591 | The first slot the wrap loop fails on. Every earlier slot wraps. |
| Session.NbLeaksLaterOutputs | src/cpp/Ortpy.cpp:586-591 | As written, an output after the first unwrappable one is never released. |
| Session.NbLeakExample | src/cpp/Ortpy.cpp:586-591 | Concrete case: two float outputs, the first with a null data pointer. Only the first is released. |
| Session.WrapFirstReleases | src/cpp/Pyort.cpp:749-754 | The intended order, wrapping every raw value before anything can throw. Unwinding releases one wrapper per slot. |
| Session.WrapFirstReleasesEverything | src/cpp/Pyort.cpp:749-754 | With wrapping first, every output handle is released on failure. |
| Session.WrapFirstUnwindReleasesAll | src/cpp/Pyort.cpp:749-754 | The pybind11 order as a run of wrapper operations: one construction per output slot, then one destruction each when a conversion throws. The run is valid, leaves no live wrapper, and releases each handle it created exactly once, one per non-null slot. This follows from the ownership invariant. |
| Session.PyInputs | src/cpp/Pyort.cpp:723-730 | Succeeds exactly when every input's kind is a named one, its `MemoryInfo` succeeds, it is writeable and its creation succeeds. Then there is one tensor per input, in order, over that input's buffer address, contents and shape, tagged by the as-written table. |
| Session.PyOutputs | src/cpp/Pyort.cpp:749-761 | Every slot is wrapped first. The conversion succeeds exactly when every slot holds a tensor of supported type and non-negative shape with data, and each output is that slot's copy. |
| Session.PyOutput | src/cpp/Pyort.cpp:812-827 | A slot's copy is a new array with its own identity and buffer address, the slot's shape and the numpy kind of its tag. It holds the tensor's bytes, all of them for a well-formed tensor. Its kind maps back to the tag as written except for 64-bit integers on LP64. |
| Session.PyRun | src/cpp/Pyort.cpp:712-762 | Errors come in source order, as in the nanobind `Run`. Once inputs and descriptions succeed, a failed run throws its native message. A successful run gives a result exactly when every slot can be copied. On success the keys are exactly the output names, each bound to its slot's copy with the slot's shape and, for a well-formed tensor, its bytes. |
| PyStrings.Split | get_onnxruntime.py:63 | `str.split` on one character: at least one piece, no piece contains the separator, and joining the pieces gives the text back. There are at least two pieces exactly when the separator occurs. |
| PyStrings.SplitJoin | get_onnxruntime.py:63-66 | Splitting the joined text of separator-free pieces gives the pieces back. |
| PyStrings.SplitMajorMinor | get_version.py:33-35 | `major.minor` followed by further segments splits into `major` and `minor` first. |
| PyStrings.LStrip | get_onnxruntime.py:62 | `str.lstrip`: the result is a suffix with no leading stripped character, and everything dropped was a stripped character. |
| PyStrings.LStripPrefix | get_onnxruntime.py:62 | Stripping removes exactly a leading run of stripped characters. |
| GetOnnxruntime.StrFieldOfUpdate | get_onnxruntime.py:25-30 | A field just stored as a string reads back as that string, and storing one field leaves every other field's reading unchanged. A non-string value raises `ValueError`, and a missing key raises `KeyError`. |
| GetOnnxruntime.AssetFromDict | get_onnxruntime.py:21-31 | A non-dict raises first. Otherwise the result is an asset with the dict's name and URL exactly when both are strings. |
| GetOnnxruntime.AssetsFromList | get_onnxruntime.py:48 | Parses every asset in order. The result is the first failing item's error. |
| GetOnnxruntime.ReleaseFromDict | get_onnxruntime.py:38-48 | A non-dict raises first. Otherwise the result is a release with the tag name and parsed assets exactly when the fields have the right types. |
| GetOnnxruntime.ParseReleases | get_onnxruntime.py:80-83 | A response that is not a list raises "Unexpected response from GitHub API.". Otherwise every item is parsed in order. |
| GetOnnxruntime.ReleasesFromList | get_onnxruntime.py:83 | Parses every release in order, succeeding exactly when each item parses. A failure carries the error of the first item that fails. |
| GetOnnxruntime.ReleaseRoundTrip | get_onnxruntime.py:38-48 | Parsing the JSON form of a release gives that release back. |
| GetOnnxruntime.TagsAt | get_onnxruntime.py:53 | Exactly the tags pointing at HEAD. |
| GetOnnxruntime.TryGetGitTag | get_onnxruntime.py:51-58 | No tag at HEAD gives none. Exactly one gives its name. More than one raises with all their names joined by ", ". |
| GetOnnxruntime.GitTagToVersionHint | get_onnxruntime.py:60-66 | Succeeds exactly when the tag, stripped of leading `v`/`V`, contains a dot, and then the hint is non-empty. Otherwise it raises naming the tag. |
| GetOnnxruntime.VersionHintOfTag | get_onnxruntime.py:60-66 | For `v…` + major + "." + minor + more segments, the hint is major + "." + minor. |
| GetOnnxruntime.ValidateVersionHint | get_onnxruntime.py:68-73 | Accepts at least two segments, all non-empty and all digits. Otherwise it raises naming the hint. |
| GetOnnxruntime.DigitPiecesChars | get_onnxruntime.py:69-73 | Split-level acceptance equals character-level acceptance: digits and dots, with no empty segment. |
| GetOnnxruntime.ValidateVersionHintChars | get_onnxruntime.py:68-73 | A hint is accepted exactly when it is digits and dots, with at least one dot and no empty segment. |
| GetOnnxruntime.FindReleaseFrom | get_onnxruntime.py:89-102 | The loop from a position on: the result is the first release there that matches the hint and has both required packages. Otherwise it raises "No valid package found.". |
| GetOnnxruntime.FindRelease | get_onnxruntime.py:85-102 | The first qualifying release in the order given. It raises exactly when none qualifies. |
| GetOnnxruntime.EmptyHintIsNoHint | get_onnxruntime.py:86-91 | An empty hint selects exactly what no hint selects. |
| GetOnnxruntime.HintIsTextPrefix | get_onnxruntime.py:90-91 | Any release whose tag is `v` + hint + anything qualifies, so hint `1.2` selects `v1.22.0`: the hint is matched as text, not by segments. |
| GetOnnxruntime.HostArchitecture | get_onnxruntime.py:124-134 | A system other than Windows raises `KeyError` first. Then an unknown machine raises. Otherwise the result is one of the two required architectures, x64 exactly for `AMD64`/`x86_64`. |
| GetOnnxruntime.FindHostAsset | get_onnxruntime.py:136-141 | The first asset whose name starts with the host's package prefix. Otherwise it raises naming the architecture and release. |
| GetOnnxruntime.ChosenReleaseServesHost | get_onnxruntime.py:94-101 | A release `find_release` picks always has a package for any supported host. |
| GetOnnxruntime.ResolveHint | get_onnxruntime.py:169-175 | An explicit version wins and must validate. Without one, an error from reading the HEAD tag propagates, and no tag leaves the hint unset. A tag supplies `git_tag_to_version_hint` of itself, whose error propagates, and that hint must validate. Whatever hint is used is a valid hint. |
| GetOnnxruntime.TagAtHeadGivesHint | get_onnxruntime.py:51-73 | With no `--version`, a single tag `v…major.minor…` at HEAD, with digit segments, yields the hint `major.minor`. |
| GetOnnxruntime.TwoDigitSegmentsValid | get_onnxruntime.py:68-73 | `major.minor` with digit segments passes validation. |
| GetOnnxruntime.SelectAsset | get_onnxruntime.py:169-179 | A hint error propagates. The asset is the host's asset of the first release in the parsed response that qualifies for the hint. Extraction succeeds exactly when the hint resolves, the response parses, a release qualifies and the host is supported. |
| GetVersion.MajorMinor | get_version.py:47-48 | The first two segments, joined by a dot, exist exactly when the version has a dot. Otherwise indexing raises `IndexError`. |
| GetVersion.MajorMinorOf | get_version.py:47-48 | The major.minor of `major.minor…` is `major.minor`. |
| GetVersion.GetVersion | get_version.py:30-50 | A tag with two segments is the version if its major.minor matches the library's. A mismatch raises naming both. Without such a tag, a missing commit raises, else the result is `major.minor.dev0+commit`. |
| GetVersion.VersionKeepsMajorMinor | get_version.py:30-50 | Every version produced carries the library's major.minor. |
| GetVersion.VersionIgnoresPatch | get_version.py:30-60 | Only the library's first two segments affect the version and the dependency string. |
| GetVersion.GetDependencyString | get_version.py:56-60 | The result is `pyort_lib~=` + the library's major.minor + `.0`. It raises `IndexError` when there is no dot. |
| GetVersion.DependencyOfVersion | get_version.py:56-60 | For a library `major.minor…` the pin is `pyort_lib~=major.minor.0`. |
| GetVersion.TagConventionsDisagree | get_version.py:33-40 | A tag `v1.22…` is a valid hint for the download script, yet the version script rejects it against library 1.22…, because it compares `v1` with `1`. |

## Left out

- GIL handling, threads and nanobind/pybind11 object conversion: the model is sequential, and a Python object is its value.
- Tensors.GetType, Tensors.GetShape, Session.MakeTensorInfo, Session.CollectInfo: the bindings check the status of each native query these make (`src/cpp/Ortpy.cpp:459-478`, `505-519`, `531-545`, `703-707`, `718-725`). The model takes those queries as succeeding and does not model their failure paths. Only `GetData` (`src/cpp/Ortpy.cpp:790-803`) ignores a status.
- Tensors.GetType, Tensors.GetShape: the `OrtTensorTypeAndShapeInfo` they obtain is never released, a leak the model does not track.
- PyValue.ToArray: the code stores the new array in `_npArray` before `GetData()` can throw, so after that error the cache stays set and a second conversion returns the array. The model returns only the error and drops the updated value.
- GetOnnxruntime.ValidateVersionHint: Python's `str.isdigit` also accepts non-ASCII digits such as '²' or Arabic-Indic digits. The model accepts ASCII digits only, so it rejects hints the script accepts.
- GetOnnxruntime.ValidateVersionHintChars: the same ASCII-only restriction as `ValidateVersionHint`.
- Errors.What: the text of `std::bad_function_call::what()` is implementation-defined. pybind11's `cast_error` reads "Unable to cast …", and numpy's negative-dimension error is a `ValueError` whose text depends on the numpy version. The model gives these three fixed stand-in texts.
- The nanobind capsule deleter's cast to the wrong pointer type: the model only counts references, not what the deleter does with them.
- `DisableTelemetryEvents` and its ignored status, and the pybind11 trampoline's borrowed reference to the callback: they are lifetime hazards outside the modelled state.
- Run options and the other `SessionOptions`/`RunOptions`/`ModelCompilationOptions` setters, `GetEpDevices` and the `Register*`/`Unregister*` calls: they forward to the runtime and check its status, which `Status.Check` covers.
- `LibraryHandle` and `StringToWString`: dynamic loading and wide-string conversion are platform calls.
- Tensor memory beyond a list of byte values: no aliasing, no writes by the runtime after the call.
- NbValue.FromHostArray: nanobind converts the argument to `NpArray` (src/cpp/Ortpy.h:14: CPU, C-contiguous, and, as no read-only flag is given, writeable) before the constructor runs, and refuses any other array at that Python call boundary. The model's `HostArray` is an argument that has already been converted.
- Network, JSON decoding, zip extraction, git and file I/O in the scripts: their results are parameters (the decoded response, tags at HEAD, commit id, library version).
- `argparse`, `--out-dir`, `--max-releases` and the printed progress messages of the download script.
- `get_version.py` calls `_get_commit_id` twice; the model uses one commit id for both calls.
- Iteration order of `std::unordered_map`: taken as the order of the given sequence, and `Run`'s outputs as the order of the output descriptions.
- Actual numpy type numbers: `NumpyTypes.NpyType` names the kinds, and any other number is `NpyOther`.
- Session.NbRun: requires the session's output names to be distinct, which the runtime guarantees for a loaded model.
- Session.PyRun: requires distinct output names, as `NbRun` does, and has no run-options argument. The definition takes optional run options; they only forward to the runtime.
- Environment.CheckedAttempt: `GetAllocator` also copies the allocator pointer into the slot; the model tracks only the handle.
- PyStrings.Split: models splitting on a single character only, the only form the scripts use.

## Findings

| source | as written | input that shows it | evidently intended | confidence | as-written member | corrected member |
|---|---|---|---|---|---|---|
| src/cpp/Pyort.cpp:951-956 | `NPY_LONG` maps to INT32 and `NPY_ULONG` to UINT32 on every platform | on 64-bit Linux or macOS, an `int64` array (numpy `long`) is tagged INT32; an INT64 output maps to `long` and back to INT32 | `long` maps by its platform width: INT64/UINT64 where it is 64 bits | medium, not executed | PyValue.LongArrayMislabelled | PyValue.IntendedOutputRoundTrip |
| src/cpp/Ortpy.cpp:611-633 | the view stored in `State::npArray` has a capsule holding a `shared_ptr` to that same `State` | any `Value` made from a native tensor, e.g. a `Run` output exported once, then the `Value` and the array both dropped | the State is released when the last `Value` and the last exported array are gone | medium, not executed | ValueLifetime.AsWrittenNeverReleases | ValueLifetime.IntendedValueIsReleased |
| src/cpp/Ortpy.cpp:586-591 | output slots are wrapped by the throwing `Value(OrtValue*)` constructor one by one, so a throw at slot k leaves later raw outputs unowned | two float outputs, the first an empty tensor whose data pointer is null: slot 2 is never released | every raw output is owned before anything can throw, as in the pybind11 variant | low, not executed | Session.NbLeaksLaterOutputs | Session.WrapFirstUnwindReleasesAll |

=== FILE: byte_size.dfy ===
/** `Value::GetSize`: the byte size of a tensor, computed as the element width
    times every dimension, in a 64-bit `size_t` that wraps around. Both bindings
    carry the same code. */
module ByteSize {
  import opened Wrappers
  import opened Errors
  import opened ElementTypes

  /** `size_t` is 64 bits wide: arithmetic on it is modulo 2^64. */
  const SizeModulus: nat := 0x1_0000_0000_0000_0000

  /** The mathematical product of the dimensions, multiplied left to right. */
  function Product(dims: seq<int>): int
    decreases |dims|
  {
    if |dims| == 0 then 1 else Product(dims[..|dims| - 1]) * dims[|dims| - 1]
  }

  predicate AllNonNegative(dims: seq<int>) {
    forall i :: 0 <= i < |dims| ==> dims[i] >= 0
  }

  /** Index of the first negative dimension: the one the loop reports. */
  function FirstNegative(dims: seq<int>): (i: nat)
    requires !AllNonNegative(dims)
    ensures i < |dims| && dims[i] < 0
    ensures AllNonNegative(dims[..i])
    decreases |dims|
  {
    if dims[0] < 0 then 0
    else
      var k := FirstNegative(dims[1..]);
      assert dims[..k + 1] == [dims[0]] + dims[1..][..k];
      k + 1
  }

  /** Reference definition of what `GetSize` returns for a non-empty value of
      tag `t` and shape `shape`: the tag error first, then the first negative
      dimension, else width times the product, reduced modulo 2^64. */
  function ByteCount(t: ElementType, shape: seq<int>): Result<nat, Error> {
    if t !in SupportedElementTypes then Err(UnsupportedElementType(t))
    else if !AllNonNegative(shape) then Err(InvalidDimension(shape[FirstNegative(shape)]))
    else Ok((GetSizeOfOrtType(t).value * Product(shape)) % SizeModulus)
  }

  /** The loop of `GetSize`: start at the element width, multiply in each
      dimension in `size_t`, throw on the first negative one. */
  method ComputeSize(t: ElementType, shape: seq<int>) returns (r: Result<nat, Error>)
    ensures r == ByteCount(t, shape)
    ensures r.Ok? ==> r.value < SizeModulus
  {
    var width := GetSizeOfOrtType(t);
    if width.Err? {
      return Err(width.error);
    }
    var size: nat := width.value;
    var i := 0;
    while i < |shape|
      invariant 0 <= i <= |shape|
      invariant AllNonNegative(shape[..i])
      invariant size < SizeModulus
      invariant size == (width.value * Product(shape[..i])) % SizeModulus
    {
      var dim := shape[i];
      if dim < 0 {
        assert FirstNegative(shape) == i by {
          FirstNegativeIsFirst(shape, i);
        }
        return Err(InvalidDimension(dim));
      }
      SizeStep(width.value, shape, i, size);
      size := (size * dim) % SizeModulus;
      i := i + 1;
    }
    assert shape[..i] == shape;
    return Ok(size);
  }

  /** One turn of the `GetSize` loop keeps the running size equal to the
      reduced product of the dimensions seen so far. */
  lemma SizeStep(width: nat, dims: seq<int>, i: nat, size: nat)
    requires i < |dims| && dims[i] >= 0 && AllNonNegative(dims[..i])
    requires size == (width * Product(dims[..i])) % SizeModulus
    ensures AllNonNegative(dims[..i + 1])
    ensures (size * dims[i]) % SizeModulus == (width * Product(dims[..i + 1])) % SizeModulus
  {
    var front := dims[..i];
    assert dims[..i + 1][..i] == front;
    var p := Product(front);
    assert Product(dims[..i + 1]) == p * dims[i];
    ProductNonNegative(front);
    MulMod(width * p, dims[i], SizeModulus);
    assert width * (p * dims[i]) == (width * p) * dims[i];
  }

  /** A negative dimension preceded only by non-negative ones is the first. */
  lemma {:induction false} FirstNegativeIsFirst(dims: seq<int>, i: nat)
    requires i < |dims| && dims[i] < 0 && AllNonNegative(dims[..i])
    ensures !AllNonNegative(dims) && FirstNegative(dims) == i
    decreases i
  {
    if i > 0 {
      assert dims[0] == dims[..i][0];
      assert dims[1..][..i - 1] == dims[..i][1..];
      FirstNegativeIsFirst(dims[1..], i - 1);
    }
  }

  /** Reducing a factor first does not change a product modulo m. */
  lemma MulMod(a: int, b: nat, m: nat)
    requires a >= 0 && m > 0
    ensures ((a % m) * b) % m == (a * b) % m
  {
    var q := a / m;
    var r := a % m;
    assert a == q * m + r;
    assert a * b == (q * b) * m + r * b;
    ModAddMultiple(r * b, q * b, m);
  }

  lemma {:induction false} ModAddMultiple(x: int, k: nat, m: nat)
    requires x >= 0 && m > 0
    ensures (k * m + x) % m == x % m
    decreases k
  {
    if k > 0 {
      var y := (k - 1) * m + x;
      ModAddMultiple(x, k - 1, m);
      assert k * m + x == y + m;
      ModAddModulus(y, m);
    }
  }

  lemma ModAddModulus(y: int, m: nat)
    requires y >= 0 && m > 0
    ensures (y + m) % m == y % m
  {
    var q := y / m;
    assert y + m == (q + 1) * m + y % m;
    ModUnique(y + m, q + 1, y % m, m);
  }

  /** Euclidean division has a unique remainder. */
  lemma ModUnique(z: int, q: int, r: int, m: nat)
    requires m > 0 && 0 <= r < m && z == q * m + r
    ensures z % m == r
  {
    var q2 := z / m;
    var r2 := z % m;
    assert (q - q2) * m == r2 - r;
    if q - q2 >= 1 {
      assert false;
    } else if q - q2 <= -1 {
      assert false;
    }
  }

  /** A scalar (empty shape) has the size of one element. */
  lemma ScalarSize(t: ElementType)
    requires t in SupportedElementTypes
    ensures ByteCount(t, []) == GetSizeOfOrtType(t)
  {
  }

  /** When the true byte count fits in `size_t` no wrap-around happens. */
  lemma ExactWhenSmall(t: ElementType, shape: seq<int>)
    requires t in SupportedElementTypes && AllNonNegative(shape)
    requires GetSizeOfOrtType(t).value * Product(shape) < SizeModulus
    ensures ByteCount(t, shape) == Ok(GetSizeOfOrtType(t).value * Product(shape))
  {
    ProductNonNegative(shape);
  }

  lemma {:induction false} ProductNonNegative(dims: seq<int>)
    requires AllNonNegative(dims)
    ensures Product(dims) >= 0
    decreases |dims|
  {
    if |dims| > 0 {
      ProductNonNegative(dims[..|dims| - 1]);
    }
  }

  /** Any zero dimension makes the size zero. */
  lemma {:induction false} ZeroDimensionGivesZero(t: ElementType, shape: seq<int>, i: nat)
    requires t in SupportedElementTypes && AllNonNegative(shape)
    requires i < |shape| && shape[i] == 0
    ensures ByteCount(t, shape) == Ok(0)
  {
    ProductHasZero(shape, i);
  }

  lemma {:induction false} ProductHasZero(dims: seq<int>, i: nat)
    requires i < |dims| && dims[i] == 0
    ensures Product(dims) == 0
    decreases |dims|
  {
    if i < |dims| - 1 {
      ProductHasZero(dims[..|dims| - 1], i);
    }
  }
}

=== FILE: delegate.dfy ===
/** Execution-provider selection through a host callback: registering the
    callback on the session options, and the native trampoline the runtime
    calls, which wraps the device descriptors, calls the host, validates the
    answer and writes the selected device pointers into the runtime's buffer.
    Both bindings carry a trampoline; they differ in how a `None` answer is
    treated. */
module Delegate {
  import opened Wrappers
  import opened Errors
  import opened KeyValue
  import opened Devices
  import opened Status

  datatype Binding = Nanobind | Pybind

  /** What the host callback does when called. */
  datatype Answer =
    | Selected(devices: seq<EpDevice>)  // returns a list of devices
    | NoneAnswer                        // returns `None`
    | NotAList                          // returns something not convertible to a device list
    | Raised(e: Error)                  // raises

  /** The callback: devices, model metadata, runtime metadata, `max_selected`. */
  type Callback = (seq<EpDevice>, map<string, string>, map<string, string>, nat) -> Answer

  const UnknownError := "Unknown error in EpSelectionDelegate"

  /** Wraps each native descriptor in order; the first null one (or one with
      a null hardware device) throws. */
  function ConvertDevices(eps: seq<Option<RawEpDevice>>): (r: Result<seq<EpDevice>, Error>)
    ensures r.Ok? <==> forall i :: 0 <= i < |eps| ==> MakeEpDevice(eps[i]).Ok?
    ensures r.Ok? ==> |r.value| == |eps|
    ensures r.Ok? ==> forall i :: 0 <= i < |eps| ==> Ok(r.value[i]) == MakeEpDevice(eps[i])
    ensures r.Err? ==> exists i :: 0 <= i < |eps| && MakeEpDevice(eps[i]) == Err(r.error)
                                   && forall j :: 0 <= j < i ==> MakeEpDevice(eps[j]).Ok?
    decreases |eps|
  {
    if |eps| == 0 then Ok([])
    else
      var d :- MakeEpDevice(eps[0]);
      var rest := ConvertDevices(eps[1..]);
      if rest.Err? then
        assert forall j :: 1 <= j < |eps| ==> eps[1..][j - 1] == eps[j];
        Err(rest.error)
      else Ok([d] + rest.value)
  }

  /** The message the `catch` clauses put in the failure status. */
  function FailureMessage(e: Error): string {
    if IsStdException(e) then What(e) else UnknownError
  }

  /** The devices the host chose, or the exception the trampoline throws
      before writing anything. A `None` answer selects nothing under pybind11;
      under nanobind it cannot be converted to a device list. */
  function Decide(binding: Binding, answer: Answer, maxSelected: nat): (r: Result<seq<EpDevice>, Error>)
    ensures r.Ok? ==> |r.value| <= maxSelected
    ensures answer.Selected? ==> (r.Ok? <==> |answer.devices| <= maxSelected)
    ensures answer.Selected? && |answer.devices| > maxSelected ==> r == Err(TooManySelected)
    ensures answer.Selected? && r.Ok? ==> r.value == answer.devices
    ensures answer.NoneAnswer? ==> (r.Ok? <==> binding == Pybind)
    ensures answer.NoneAnswer? && r.Ok? ==> r.value == []
    ensures answer.NotAList? ==> r == Err(ResultNotConvertible)
    ensures answer.Raised? ==> r == Err(answer.e)
  {
    match answer
    case Selected(ds) => if |ds| > maxSelected then Err(TooManySelected) else Ok(ds)
    case NoneAnswer => if binding == Pybind then Ok([]) else Err(ResultNotConvertible)
    case NotAList => Err(ResultNotConvertible)
    case Raised(e) => Err(e)
  }

  /** The native side of one trampoline call. */
  datatype Outcome = Outcome(status: StatusPtr, selected: seq<nat>, numSelected: nat)

  /** The trampoline. `callback` is `None` when the stored delegate has been
      cleared (calling an empty `std::function`). `selected` is the runtime's
      buffer of `max_selected` entries and `numSelected` its count slot. */
  method Trampoline(binding: Binding, callback: Option<Callback>,
                    eps: seq<Option<RawEpDevice>>, modelMetadata: RawTable, runtimeMetadata: RawTable,
                    selected: seq<nat>, numSelected: nat)
    returns (o: Outcome)
    ensures |o.selected| == |selected|
    ensures o.status.None? <==> TrampolineSucceeds(binding, callback, eps, modelMetadata, runtimeMetadata, |selected|)
    ensures o.status.None? ==>
              var chosen := Chosen(binding, callback, eps, modelMetadata, runtimeMetadata, |selected|);
              && o.numSelected == |chosen|
              && (forall i :: 0 <= i < |chosen| ==> o.selected[i] == AsPointer(chosen[i]))
              && o.selected[|chosen|..] == selected[|chosen|..]
    ensures o.status.Some? ==>
              && o.selected == selected && o.numSelected == numSelected
              && o.status == FailStatus(FailureMessage(
                   TrampolineError(binding, callback, eps, modelMetadata, runtimeMetadata, |selected|)))
  {
    var result := Select(binding, callback, eps, modelMetadata, runtimeMetadata, |selected|);
    if result.Err? {
      return Outcome(FailStatus(FailureMessage(result.error)), selected, numSelected);
    }
    var chosen := result.value;
    var out := selected;
    var i := 0;
    while i < |chosen|
      invariant 0 <= i <= |chosen| <= |selected|
      invariant |out| == |selected|
      invariant forall j :: 0 <= j < i ==> out[j] == AsPointer(chosen[j])
      invariant out[i..] == selected[i..]
    {
      out := out[i := AsPointer(chosen[i])];
      i := i + 1;
    }
    return Outcome(None, out, |chosen|);
  }

  /** Everything up to the writes: wrap the devices and the metadata, call
      the host, validate its answer. */
  function Select(binding: Binding, callback: Option<Callback>,
                  eps: seq<Option<RawEpDevice>>, modelMetadata: RawTable, runtimeMetadata: RawTable,
                  maxSelected: nat): (r: Result<seq<EpDevice>, Error>)
    ensures ConvertDevices(eps).Err? ==> r == Err(ConvertDevices(eps).error)
    ensures ConvertDevices(eps).Ok? && callback.None? ==> r == Err(BadFunctionCall)
    ensures ConvertDevices(eps).Ok? && callback.Some? ==>
              r == Decide(binding, callback.value(ConvertDevices(eps).value, KeyValuePairsToMap(modelMetadata),
                                                  KeyValuePairsToMap(runtimeMetadata), maxSelected), maxSelected)
    ensures r.Ok? ==> |r.value| <= maxSelected
  {
    var devices :- ConvertDevices(eps);
    if callback.None? then Err(BadFunctionCall)
    else
      var answer := callback.value(devices, KeyValuePairsToMap(modelMetadata),
                                   KeyValuePairsToMap(runtimeMetadata), maxSelected);
      Decide(binding, answer, maxSelected)
  }

  predicate TrampolineSucceeds(binding: Binding, callback: Option<Callback>,
                               eps: seq<Option<RawEpDevice>>, modelMetadata: RawTable,
                               runtimeMetadata: RawTable, maxSelected: nat) {
    Select(binding, callback, eps, modelMetadata, runtimeMetadata, maxSelected).Ok?
  }

  function Chosen(binding: Binding, callback: Option<Callback>,
                  eps: seq<Option<RawEpDevice>>, modelMetadata: RawTable, runtimeMetadata: RawTable,
                  maxSelected: nat): seq<EpDevice>
    requires TrampolineSucceeds(binding, callback, eps, modelMetadata, runtimeMetadata, maxSelected)
  {
    Select(binding, callback, eps, modelMetadata, runtimeMetadata, maxSelected).value
  }

  function TrampolineError(binding: Binding, callback: Option<Callback>,
                           eps: seq<Option<RawEpDevice>>, modelMetadata: RawTable,
                           runtimeMetadata: RawTable, maxSelected: nat): Error
    requires !TrampolineSucceeds(binding, callback, eps, modelMetadata, runtimeMetadata, maxSelected)
  {
    Select(binding, callback, eps, modelMetadata, runtimeMetadata, maxSelected).error
  }

  /** When the host picks devices from the list it was given, the runtime
      gets back exactly the native descriptors it offered, in the host's order. */
  lemma SelectionRoundTrip(eps: seq<Option<RawEpDevice>>, picks: seq<nat>)
    requires ConvertDevices(eps).Ok?
    requires forall k :: 0 <= k < |picks| ==> picks[k] < |eps|
    ensures var devices := ConvertDevices(eps).value;
            forall k :: 0 <= k < |picks| ==>
              eps[picks[k]].Some? && AsPointer(devices[picks[k]]) == eps[picks[k]].value.address
  {
    var devices := ConvertDevices(eps).value;
    forall k | 0 <= k < |picks|
      ensures eps[picks[k]].Some? && AsPointer(devices[picks[k]]) == eps[picks[k]].value.address
    {
      assert Ok(devices[picks[k]]) == MakeEpDevice(eps[picks[k]]);
    }
  }

  /** A failed status raised on the host side brings back the host's own
      message: the callback's exception survives the trip through the runtime. */
  lemma FailureMessageSurvives(e: Error)
    requires IsStdException(e)
    ensures What(Check(FailStatus(FailureMessage(e))).error) == What(e)
  {
  }

  // ---------------------------------------------------------------------
  // Registering the callback (nanobind `SessionOptions`)

  /** The session options object and the callback it stores (`_delegate`),
      `None` when empty. */
  datatype SessionOptions = SessionOptions(handle: nat, delegate: Option<Callback>)

  /** `SetEpSelectionPolicyDelegate`: an empty callback is refused and the
      options are untouched; otherwise the callback is stored before the
      runtime is told, so it stays stored even if the runtime refuses. */
  function SetDelegate(o: SessionOptions, callback: Option<Callback>, registerStatus: StatusPtr)
    : (r: (SessionOptions, Result<Unit, Error>))
    ensures callback.None? ==> r == (o, Err(NullDelegate))
    ensures callback.Some? ==> r.0 == o.(delegate := callback) && r.1 == Check(registerStatus)
  {
    if callback.None? then (o, Err(NullDelegate))
    else (o.(delegate := callback), Check(registerStatus))
  }

  /** What registration means for later selections: once a callback is set,
      the runtime's selection request calls exactly that callback on the
      wrapped devices and converted metadata, whether or not the runtime
      accepted the registration; an empty callback leaves whatever was stored
      before in charge. */
  lemma SetDelegateThenSelect(o: SessionOptions, callback: Option<Callback>, registerStatus: StatusPtr,
                              eps: seq<Option<RawEpDevice>>, modelMetadata: RawTable, runtimeMetadata: RawTable,
                              maxSelected: nat)
    requires ConvertDevices(eps).Ok?
    ensures var stored := SetDelegate(o, callback, registerStatus).0.delegate;
            callback.Some? ==>
              Select(Nanobind, stored, eps, modelMetadata, runtimeMetadata, maxSelected)
              == Decide(Nanobind, callback.value(ConvertDevices(eps).value, KeyValuePairsToMap(modelMetadata),
                                                 KeyValuePairsToMap(runtimeMetadata), maxSelected), maxSelected)
    ensures var stored := SetDelegate(o, callback, registerStatus).0.delegate;
            callback.None? ==>
              Select(Nanobind, stored, eps, modelMetadata, runtimeMetadata, maxSelected)
              == Select(Nanobind, o.delegate, eps, modelMetadata, runtimeMetadata, maxSelected)
  {
  }

  /** `TpClear`: drops the stored callback to break the reference cycle
      between the options object and the Python callable. */
  function TpClear(o: SessionOptions): (r: SessionOptions)
    ensures r.delegate.None? && r.handle == o.handle
  {
    o.(delegate := None)
  }

  /** After `TpClear`, a selection request the runtime still makes fails
      cleanly (calling the empty callback throws) and writes nothing. */
  method TrampolineAfterClear(o: SessionOptions, eps: seq<Option<RawEpDevice>>, selected: seq<nat>, numSelected: nat)
    returns (out: Outcome)
    requires ConvertDevices(eps).Ok?
    ensures out.status == FailStatus(What(BadFunctionCall))
    ensures out.selected == selected && out.numSelected == numSelected
  {
    out := Trampoline(Nanobind, TpClear(o).delegate, eps, None, None, selected, numSelected);
  }
}

=== FILE: devices.dfy ===
/** `HardwareDevice` and `EpDevice`: host-side snapshots of native device
    descriptors, taken when the descriptor is wrapped. */
module Devices {
  import opened Wrappers
  import opened Errors
  import opened KeyValue

  /** The native `OrtHardwareDevice` as the accessor functions report it; the
      vendor string may be null. */
  datatype RawHardwareDevice = RawHardwareDevice(
    kind: int, vendorId: nat, vendor: Option<string>, deviceId: nat, metadata: RawTable)

  /** The native `OrtEpDevice`, with its address (never 0 for a live one). */
  datatype RawEpDevice = RawEpDevice(
    address: nat, epName: string, epVendor: string,
    epMetadata: RawTable, epOptions: RawTable, device: Option<RawHardwareDevice>)

  datatype HardwareDevice = HardwareDevice(
    kind: int, vendorId: nat, vendor: string, deviceId: nat, metadata: map<string, string>)

  /** `ptr` is the native address the snapshot keeps; 0 is null. */
  datatype EpDevice = EpDevice(
    epName: string, epVendor: string, epMetadata: map<string, string>,
    epOptions: map<string, string>, device: HardwareDevice, ptr: nat)

  /** `HardwareDevice()` with no argument. */
  const DefaultHardwareDevice := HardwareDevice(0, 0, "", 0, map[])

  /** `EpDevice()` with no argument: converting it back yields null. */
  const DefaultEpDevice := EpDevice("", "", map[], map[], DefaultHardwareDevice, 0)

  /** `HardwareDevice(const OrtHardwareDevice*)`. */
  function MakeHardwareDevice(p: Option<RawHardwareDevice>): (r: Result<HardwareDevice, Error>)
    ensures r.Err? <==> p.None?
    ensures r.Err? ==> r.error == NullHardwareDevice
    ensures r.Ok? ==> r.value.kind == p.value.kind && r.value.vendorId == p.value.vendorId
                      && r.value.deviceId == p.value.deviceId
    ensures r.Ok? ==> r.value.vendor == (if p.value.vendor.Some? then p.value.vendor.value else "")
    ensures r.Ok? ==> r.value.metadata == KeyValuePairsToMap(p.value.metadata)
  {
    if p.None? then Err(NullHardwareDevice)
    else
      var d := p.value;
      Ok(HardwareDevice(d.kind, d.vendorId, if d.vendor.Some? then d.vendor.value else "",
                        d.deviceId, KeyValuePairsToMap(d.metadata)))
  }

  /** `EpDevice(const OrtEpDevice*)`: null is refused first; a null hardware
      device inside it is refused by the nested constructor. */
  function MakeEpDevice(p: Option<RawEpDevice>): (r: Result<EpDevice, Error>)
    ensures p.None? ==> r == Err(NullEpDevice)
    ensures p.Some? && p.value.device.None? ==> r == Err(NullHardwareDevice)
    ensures r.Ok? <==> p.Some? && p.value.device.Some?
    ensures r.Ok? ==> r.value.ptr == p.value.address && r.value.epName == p.value.epName
                      && r.value.epVendor == p.value.epVendor
    ensures r.Ok? ==> r.value.epMetadata == KeyValuePairsToMap(p.value.epMetadata)
                      && r.value.epOptions == KeyValuePairsToMap(p.value.epOptions)
    ensures r.Ok? ==> Ok(r.value.device) == MakeHardwareDevice(p.value.device)
  {
    if p.None? then Err(NullEpDevice)
    else
      var d := p.value;
      var hw :- MakeHardwareDevice(d.device);
      Ok(EpDevice(d.epName, d.epVendor, KeyValuePairsToMap(d.epMetadata),
                  KeyValuePairsToMap(d.epOptions), hw, d.address))
  }

  /** `operator const OrtEpDevice*`: the address the snapshot was taken from. */
  function AsPointer(e: EpDevice): nat {
    e.ptr
  }

  /** Wrapping a descriptor and converting back gives the same native address,
      which is what lets a selection callback return devices it was given. */
  lemma EpDevicePointerRoundTrip(p: RawEpDevice)
    requires p.device.Some?
    ensures MakeEpDevice(Some(p)).Ok?
    ensures AsPointer(MakeEpDevice(Some(p)).value) == p.address
  {
  }

  /** A default-constructed device converts to null. */
  lemma DefaultEpDeviceIsNull()
    ensures AsPointer(DefaultEpDevice) == 0
  {
  }

  /** `m` holds key `k` exactly when the native table has a row with that key
      and a non-null value, bound to the last such row's value. */
  predicate Reads(table: RawTable, m: map<string, string>, k: string) {
    && (k in m <==> table.Some? && HasValidRow(table.value, k))
    && (k in m ==> table.Some? && HasValidRow(table.value, k) && m[k] == LastValue(table.value, k))
  }

  /** What a hardware-device snapshot says about its descriptor: a null one is
      refused; otherwise the numbers and vendor are the descriptor's (a null
      vendor reads as empty) and the metadata reads the native table. */
  lemma HardwareSnapshot(p: Option<RawHardwareDevice>, k: string)
    ensures MakeHardwareDevice(p).Ok? <==> p.Some?
    ensures p.Some? ==>
              var hw := MakeHardwareDevice(p).value;
              && hw.kind == p.value.kind && hw.vendorId == p.value.vendorId && hw.deviceId == p.value.deviceId
              && (p.value.vendor.Some? ==> hw.vendor == p.value.vendor.value)
              && (p.value.vendor.None? ==> hw.vendor == "")
              && Reads(p.value.metadata, hw.metadata, k)
  {
    if p.Some? && p.value.metadata.Some? {
      KeyValuePairsToMapSpec(p.value.metadata.value, k);
    }
  }

  /** What an EP-device snapshot says about its descriptor: it exists exactly
      for a non-null descriptor with a hardware device; its names are the
      descriptor's, its metadata and options read the native tables, its
      device is the hardware snapshot, and converting it back gives the
      descriptor's own address. */
  lemma EpSnapshot(p: RawEpDevice, k: string)
    ensures MakeEpDevice(Some(p)).Ok? <==> p.device.Some?
    ensures p.device.Some? ==>
              var e := MakeEpDevice(Some(p)).value;
              && AsPointer(e) == p.address && e.epName == p.epName && e.epVendor == p.epVendor
              && Reads(p.epMetadata, e.epMetadata, k) && Reads(p.epOptions, e.epOptions, k)
              && Reads(p.device.value.metadata, e.device.metadata, k)
  {
    if p.device.Some? {
      HardwareSnapshot(p.device, k);
      if p.epMetadata.Some? {
        KeyValuePairsToMapSpec(p.epMetadata.value, k);
      }
      if p.epOptions.Some? {
        KeyValuePairsToMapSpec(p.epOptions.value, k);
      }
    }
  }
}


=== FILE: element_types.dfy ===
/** Element-type tables of the nanobind binding: native ONNX element tags,
    DLPack dtypes `(code, bits, lanes)` used on the host side, the dtype key
    order, the dtype names and the element byte widths. */
module ElementTypes {
  import opened Wrappers
  import opened Errors

  /** A native `ONNXTensorElementDataType` value. A C enum can carry any
      integer, so the type is `int` and the switch's default branch is real. */
  type ElementType = int

  const ElemFloat: ElementType := 1
  const ElemUint8: ElementType := 2
  const ElemInt8: ElementType := 3
  const ElemUint16: ElementType := 4
  const ElemInt16: ElementType := 5
  const ElemInt32: ElementType := 6
  const ElemInt64: ElementType := 7
  const ElemString: ElementType := 8
  const ElemBool: ElementType := 9
  const ElemFloat16: ElementType := 10
  const ElemDouble: ElementType := 11
  const ElemUint32: ElementType := 12
  const ElemUint64: ElementType := 13
  const ElemBfloat16: ElementType := 16

  /** The twelve element types the binding can marshal. */
  const SupportedElementTypes: set<ElementType> :=
    {ElemBool, ElemInt8, ElemUint8, ElemInt16, ElemUint16, ElemInt32, ElemUint32,
     ElemInt64, ElemUint64, ElemFloat, ElemDouble, ElemFloat16}

  /** DLPack type codes. */
  const CodeInt: nat := 0
  const CodeUInt: nat := 1
  const CodeFloat: nat := 2
  const CodeBfloat: nat := 4
  const CodeComplex: nat := 5
  const CodeBool: nat := 6

  /** A DLPack dtype: type code, bit width of one lane, number of lanes. */
  datatype DType = DType(code: nat, bits: nat, lanes: nat)

  const BoolDType := DType(CodeBool, 8, 1)
  const Int8DType := DType(CodeInt, 8, 1)
  const Uint8DType := DType(CodeUInt, 8, 1)
  const Int16DType := DType(CodeInt, 16, 1)
  const Uint16DType := DType(CodeUInt, 16, 1)
  const Int32DType := DType(CodeInt, 32, 1)
  const Uint32DType := DType(CodeUInt, 32, 1)
  const Int64DType := DType(CodeInt, 64, 1)
  const Uint64DType := DType(CodeUInt, 64, 1)
  const Float32DType := DType(CodeFloat, 32, 1)
  const Float64DType := DType(CodeFloat, 64, 1)
  const Float16DType := DType(CodeFloat, 16, 1)

  /** The twelve host dtypes the binding can marshal. */
  const SupportedDTypes: set<DType> :=
    {BoolDType, Int8DType, Uint8DType, Int16DType, Uint16DType, Int32DType, Uint32DType,
     Int64DType, Uint64DType, Float32DType, Float64DType, Float16DType}

  // ---------------------------------------------------------------------
  // The dtype key order

  /** `operator<` on dtypes: lexicographic on (code, bits, lanes). */
  predicate Less(a: DType, b: DType) {
    if a.code != b.code then a.code < b.code
    else if a.bits != b.bits then a.bits < b.bits
    else a.lanes < b.lanes
  }

  /** The equivalence `std::map` derives from `operator<` to find a key. */
  predicate Equivalent(a: DType, b: DType) {
    !Less(a, b) && !Less(b, a)
  }

  /** `operator<` is a strict total order, so it is a valid `std::map`
      comparator and map lookup by equivalence is lookup by equality. */
  lemma LessIsStrictTotalOrder(a: DType, b: DType, c: DType)
    ensures !Less(a, a)
    ensures Less(a, b) && Less(b, c) ==> Less(a, c)
    ensures Less(a, b) ==> !Less(b, a)
    ensures a != b ==> Less(a, b) || Less(b, a)
    ensures Equivalent(a, b) <==> a == b
  {
  }

  // ---------------------------------------------------------------------
  // Host dtype <-> native tag

  /** `Value::NpTypeToOrtType`: look the dtype up in the twelve-entry map. */
  function NpTypeToOrtType(dt: DType): (r: Result<ElementType, Error>)
    ensures r.Ok? <==> dt in SupportedDTypes
    ensures r.Ok? ==> r.value in SupportedElementTypes
    ensures r.Err? ==> r.error == UnsupportedDType(dt.code, dt.bits, dt.lanes)
  {
    if dt == BoolDType then Ok(ElemBool)
    else if dt == Int8DType then Ok(ElemInt8)
    else if dt == Uint8DType then Ok(ElemUint8)
    else if dt == Int16DType then Ok(ElemInt16)
    else if dt == Uint16DType then Ok(ElemUint16)
    else if dt == Int32DType then Ok(ElemInt32)
    else if dt == Uint32DType then Ok(ElemUint32)
    else if dt == Int64DType then Ok(ElemInt64)
    else if dt == Uint64DType then Ok(ElemUint64)
    else if dt == Float32DType then Ok(ElemFloat)
    else if dt == Float64DType then Ok(ElemDouble)
    else if dt == Float16DType then Ok(ElemFloat16)
    else Err(UnsupportedDType(dt.code, dt.bits, dt.lanes))
  }

  /** `Value::OrtTypeToNpType`: the switch over the native tag. Its result
      maps back to the same tag, so the two tables are mutually inverse. */
  function OrtTypeToNpType(t: ElementType): (r: Result<DType, Error>)
    ensures r.Ok? <==> t in SupportedElementTypes
    ensures r.Err? ==> r.error == UnsupportedElementType(t)
    ensures r.Ok? ==> r.value in SupportedDTypes && r.value.lanes == 1
    ensures r.Ok? ==> NpTypeToOrtType(r.value) == Ok(t)
  {
    if t == ElemFloat then Ok(Float32DType)
    else if t == ElemUint8 then Ok(Uint8DType)
    else if t == ElemInt8 then Ok(Int8DType)
    else if t == ElemUint16 then Ok(Uint16DType)
    else if t == ElemInt16 then Ok(Int16DType)
    else if t == ElemInt32 then Ok(Int32DType)
    else if t == ElemInt64 then Ok(Int64DType)
    else if t == ElemBool then Ok(BoolDType)
    else if t == ElemFloat16 then Ok(Float16DType)
    else if t == ElemDouble then Ok(Float64DType)
    else if t == ElemUint32 then Ok(Uint32DType)
    else if t == ElemUint64 then Ok(Uint64DType)
    else Err(UnsupportedElementType(t))
  }

  /** The other direction of the bijection: a supported host dtype survives
      host -> native -> host unchanged. */
  lemma HostRoundTrip(dt: DType)
    requires dt in SupportedDTypes
    ensures NpTypeToOrtType(dt).Ok?
    ensures OrtTypeToNpType(NpTypeToOrtType(dt).value) == Ok(dt)
  {
  }

  /** Different supported dtypes map to different native tags. */
  lemma NpTypeToOrtTypeInjective(a: DType, b: DType)
    requires a in SupportedDTypes && b in SupportedDTypes
    ensures NpTypeToOrtType(a) == NpTypeToOrtType(b) ==> a == b
  {
    HostRoundTrip(a);
    HostRoundTrip(b);
  }

  // ---------------------------------------------------------------------
  // Dtype names

  /** `Value::NpTypeToName`: the name `TensorInfo.dtype` reports. */
  function NpTypeToName(dt: DType): (r: Result<string, Error>)
    ensures r.Ok? <==> NpTypeToOrtType(dt).Ok?
    ensures r.Err? ==> r.error == NpTypeToOrtType(dt).error
  {
    if dt == BoolDType then Ok("bool")
    else if dt == Int8DType then Ok("int8")
    else if dt == Uint8DType then Ok("uint8")
    else if dt == Int16DType then Ok("int16")
    else if dt == Uint16DType then Ok("uint16")
    else if dt == Int32DType then Ok("int32")
    else if dt == Uint32DType then Ok("uint32")
    else if dt == Int64DType then Ok("int64")
    else if dt == Uint64DType then Ok("uint64")
    else if dt == Float32DType then Ok("float32")
    else if dt == Float64DType then Ok("float64")
    else if dt == Float16DType then Ok("float16")
    else Err(UnsupportedDType(dt.code, dt.bits, dt.lanes))
  }

  /** The twelve names are pairwise distinct. */
  lemma NpTypeToNameInjective(a: DType, b: DType)
    requires NpTypeToName(a).Ok? && NpTypeToName(b).Ok?
    ensures NpTypeToName(a) == NpTypeToName(b) ==> a == b
  {
  }

  /** Naming the dtype of any supported native tag never throws. */
  lemma NameOfSupportedTag(t: ElementType)
    requires t in SupportedElementTypes
    ensures OrtTypeToNpType(t).Ok? && NpTypeToName(OrtTypeToNpType(t).value).Ok?
  {
  }

  // ---------------------------------------------------------------------
  // Element widths

  /** `Value::GetSizeOfOrtType`: the byte width of one element. */
  function GetSizeOfOrtType(t: ElementType): (r: Result<nat, Error>)
    ensures r.Ok? <==> t in SupportedElementTypes
    ensures r.Err? ==> r.error == UnsupportedElementType(t)
    ensures t in {ElemBool, ElemInt8, ElemUint8} ==> r == Ok(1)
    ensures t in {ElemInt16, ElemUint16, ElemFloat16} ==> r == Ok(2)
    ensures t in {ElemInt32, ElemUint32, ElemFloat} ==> r == Ok(4)
    ensures t in {ElemInt64, ElemUint64, ElemDouble} ==> r == Ok(8)
    ensures r.Ok? ==> r.value * 8 == OrtTypeToNpType(t).value.bits
  {
    if t == ElemFloat then Ok(4)
    else if t == ElemUint8 then Ok(1)
    else if t == ElemInt8 then Ok(1)
    else if t == ElemUint16 then Ok(2)
    else if t == ElemInt16 then Ok(2)
    else if t == ElemInt32 then Ok(4)
    else if t == ElemInt64 then Ok(8)
    else if t == ElemBool then Ok(1)
    else if t == ElemFloat16 then Ok(2)
    else if t == ElemDouble then Ok(8)
    else if t == ElemUint32 then Ok(4)
    else if t == ElemUint64 then Ok(8)
    else Err(UnsupportedElementType(t))
  }
}

=== FILE: environment.dfy ===
/** The process-wide lazily created objects: the API table (`GetApi`), the
    default allocator (`GetAllocator`) and the environment (`Env::GetSingleton`).
    All three follow one pattern: a static slot that starts empty, is filled by
    the first call whose creation succeeds, and is returned unchanged ever after.
    A failed creation leaves the slot empty, so the next call tries again. */
module Environment {
  import opened Wrappers
  import opened Errors
  import opened Status

  /** One call: `attempt` is what creating the object would yield if tried. */
  function GetOrCreate<T>(slot: Option<T>, attempt: Result<T, Error>): (r: (Option<T>, Result<T, Error>))
    ensures slot.Some? ==> r == (slot, Ok(slot.value))
    ensures slot.None? ==> r.1 == attempt
    ensures r.0.Some? <==> slot.Some? || attempt.Ok?
    ensures r.1.Ok? ==> r.0 == Some(r.1.value)
  {
    if slot.Some? then (slot, Ok(slot.value))
    else if attempt.Ok? then (Some(attempt.value), attempt)
    else (None, attempt)
  }

  /** `GetApi`: a null table from the loader is an error, and is retried. */
  function ApiAttempt<T>(table: Option<T>): (r: Result<T, Error>)
    ensures r.Ok? <==> table.Some?
    ensures r.Err? ==> r.error == ApiUnavailable
  {
    if table.Some? then Ok(table.value) else Err(ApiUnavailable)
  }

  /** `Env()` (`CreateEnv`) and the allocator query of `GetAllocator`: a
      native creation and its status check; `created` is the handle the
      runtime writes on success. */
  function CheckedAttempt(createStatus: StatusPtr, created: nat): (r: Result<nat, Error>)
    ensures r.Ok? <==> Succeeded(createStatus)
    ensures r.Ok? ==> r.value == created
    ensures r.Err? ==> r.error == NativeError(createStatus.value.message)
  {
    var _ :- Check(createStatus);
    Ok(created)
  }

  /** A run of calls, each with the creation outcome it would see; returns
      the final slot and every call's result. */
  function Calls<T>(slot: Option<T>, attempts: seq<Result<T, Error>>): (r: (Option<T>, seq<Result<T, Error>>))
    ensures |r.1| == |attempts|
    decreases |attempts|
  {
    if |attempts| == 0 then (slot, [])
    else
      var (s1, first) := GetOrCreate(slot, attempts[0]);
      var (s2, rest) := Calls(s1, attempts[1..]);
      (s2, [first] + rest)
  }

  /** The index of the first successful creation, if any. */
  function FirstOk<T>(attempts: seq<Result<T, Error>>): (k: nat)
    ensures k <= |attempts|
    ensures k < |attempts| ==> attempts[k].Ok?
    ensures forall j :: 0 <= j < k ==> attempts[j].Err?
    decreases |attempts|
  {
    if |attempts| == 0 || attempts[0].Ok? then 0 else 1 + FirstOk(attempts[1..])
  }

  /** Starting empty: every call before the first successful creation fails
      with its own creation error, and every call from then on returns that
      one instance. */
  lemma {:induction false} SingletonIsStable<T>(attempts: seq<Result<T, Error>>)
    ensures var (_, results) := Calls(None, attempts);
            var k := FirstOk(attempts);
            && (forall i :: 0 <= i < k ==> results[i] == attempts[i])
            && (forall i :: k <= i < |attempts| ==> results[i] == Ok(attempts[k].value))
    decreases |attempts|
  {
    if |attempts| > 0 {
      var tail := attempts[1..];
      var results := Calls(None, attempts).1;
      var k := FirstOk(attempts);
      if attempts[0].Ok? {
        var x := attempts[0].value;
        FilledSlotIsStable(x, tail);
        assert results == [attempts[0]] + Calls(Some(x), tail).1;
        forall i | 0 <= i < |attempts|
          ensures results[i] == Ok(x)
        {
          if i > 0 {
            assert results[i] == Calls(Some(x), tail).1[i - 1];
          }
        }
      } else {
        SingletonIsStable(tail);
        var rest := Calls(None, tail).1;
        assert results == [attempts[0]] + rest;
        assert k == 1 + FirstOk(tail);
        forall i | 0 < i < |attempts|
          ensures results[i] == rest[i - 1] && tail[i - 1] == attempts[i]
        {
        }
      }
    }
  }

  /** Once the slot is filled, creation is never attempted again. */
  lemma {:induction false} FilledSlotIsStable<T>(x: T, attempts: seq<Result<T, Error>>)
    ensures Calls(Some(x), attempts).0 == Some(x)
    ensures forall i :: 0 <= i < |attempts| ==> Calls(Some(x), attempts).1[i] == Ok(x)
    decreases |attempts|
  {
    if |attempts| > 0 {
      FilledSlotIsStable(x, attempts[1..]);
    }
  }

  /** `GetApi` over a run of calls, `tables[i]` being what the loader returns
      on call `i`: every call before the first non-null table fails with
      "Failed to get ONNX Runtime API", and every call from then on returns
      that first table. */
  lemma GetApiStable<T>(tables: seq<Option<T>>)
    ensures var attempts := seq(|tables|, i requires 0 <= i < |tables| => ApiAttempt(tables[i]));
            var results := Calls(None, attempts).1;
            var k := FirstOk(attempts);
            && (forall i :: 0 <= i < k ==> tables[i].None? && results[i] == Err(ApiUnavailable))
            && (forall i :: k <= i < |tables| ==> tables[k].Some? && results[i] == Ok(tables[k].value))
  {
    var attempts := seq(|tables|, i requires 0 <= i < |tables| => ApiAttempt(tables[i]));
    SingletonIsStable(attempts);
    var k := FirstOk(attempts);
    forall i | 0 <= i < |tables|
      ensures attempts[i] == ApiAttempt(tables[i])
    {
    }
  }

  /** `Env::GetSingleton` (and the allocator slot) over a run of calls, call
      `i` seeing creation status `statuses[i]` and handle `handles[i]`: every
      call before the first successful creation throws that call's native
      message, and every call from then on returns the first created handle. */
  lemma CheckedSingletonStable(statuses: seq<StatusPtr>, handles: seq<nat>)
    requires |handles| == |statuses|
    ensures var attempts := seq(|statuses|, i requires 0 <= i < |statuses| => CheckedAttempt(statuses[i], handles[i]));
            var results := Calls(None, attempts).1;
            var k := FirstOk(attempts);
            && (forall i :: 0 <= i < k ==>
                  !Succeeded(statuses[i]) && results[i] == Err(NativeError(statuses[i].value.message)))
            && (forall i :: k <= i < |statuses| ==> Succeeded(statuses[k]) && results[i] == Ok(handles[k]))
  {
    var attempts := seq(|statuses|, i requires 0 <= i < |statuses| => CheckedAttempt(statuses[i], handles[i]));
    SingletonIsStable(attempts);
    var k := FirstOk(attempts);
    forall i | 0 <= i < k
      ensures !Succeeded(statuses[i]) && attempts[i] == Err(NativeError(statuses[i].value.message))
    {
      assert attempts[i] == CheckedAttempt(statuses[i], handles[i]) && attempts[i].Err?;
    }
  }
}


=== FILE: errors.dfy ===
/** The exceptions the C++ binding layer throws, one constructor per throw
    site kind, with `What` rendering the exact `what()` text the source builds. */
module Errors {
  import opened PyStrings

  datatype Error =
    | ValueIsEmpty                                       // runtime_error "Value is empty"
    | NoNumpyArray                                       // runtime_error, nanobind `operator NpArray`
    | UnsupportedElementType(elementType: int)           // runtime_error naming the native tag
    | UnsupportedDType(code: nat, bits: nat, lanes: nat) // runtime_error naming the DLPack triple
    | UnsupportedNumpyType(typeNum: int)                 // runtime_error naming the numpy type number
    | InvalidDimension(dim: int)                         // runtime_error from GetSize
    | NoTensorData                                       // runtime_error from GetData on a null data pointer
    | ApiUnavailable                                     // runtime_error from GetApi
    | NegativeArrayDimension                             // numpy refuses to allocate a negative shape
    | ArrayNotWriteable                                  // domain_error from pybind11 `mutable_data()` on a read-only array
    | NullHardwareDevice                                 // runtime_error "HardwareDevice cannot be null"
    | NullEpDevice                                       // runtime_error "EpDevice cannot be null"
    | NullDelegate                                       // invalid_argument "delegate cannot be null"
    | TooManySelected                                    // runtime_error from the selection trampoline
    | BadFunctionCall                                    // calling an empty std::function
    | ResultNotConvertible                               // the callback's result is not a device list
    | NativeError(message: string)                       // Status::Check on a failed native status
    | HostException(what: string)                        // a std::exception escaping host code
    | ForeignException                                   // an exception not derived from std::exception

  /** Whether `catch (const std::exception&)` catches it. */
  predicate IsStdException(e: Error) {
    !e.ForeignException?
  }

  /** `what()` of the exception object. Only meaningful for std exceptions. */
  function What(e: Error): string {
    match e
    case ValueIsEmpty => "Value is empty"
    case NoNumpyArray => "Value does not hold a numpy array"
    case UnsupportedElementType(t) => "Unsupported ONNX tensor element data type: " + DecimalString(t)
    case UnsupportedDType(c, b, l) =>
      "Unsupported NumPy data type: " + DecimalString(c) + ", " + DecimalString(b) + ", " + DecimalString(l)
    case UnsupportedNumpyType(n) => "Unsupported NumPy data type: " + DecimalString(n)
    case InvalidDimension(d) => "Invalid dimension size: " + DecimalString(d)
    case NoTensorData => "Failed to get data from OrtValue."
    case ApiUnavailable => "Failed to get ONNX Runtime API"
    case NegativeArrayDimension => "negative dimensions are not allowed"
    case ArrayNotWriteable => "array is not writeable"
    case NullHardwareDevice => "HardwareDevice cannot be null"
    case NullEpDevice => "EpDevice cannot be null"
    case NullDelegate => "delegate cannot be null"
    case TooManySelected => "The number of selected devices exceeds max_selected"
    case BadFunctionCall => "bad_function_call"
    case ResultNotConvertible => "bad_cast"
    case NativeError(m) => m
    case HostException(w) => w
    case ForeignException => ""
  }
}

=== FILE: get_onnxruntime.dfy ===
/** The download script: parsing the release list the GitHub API returns,
    deriving and validating the version hint, and choosing the release and
    the asset for the host. The network, git and `platform` lookups are
    parameters. */
module GetOnnxruntime {
  import opened Wrappers
  import opened PyStrings
  import opened ScriptErrors

  const RequiredArchitectures: seq<string> := ["win-x64", "win-arm64"]

  /** Decoded JSON, as far as the script looks at it. */
  datatype PyObj =
    | PyStr(s: string)
    | PyList(items: seq<PyObj>)
    | PyDict(fields: map<string, PyObj>)
    | PyOther   // a number, a boolean or null

  datatype GitHubAsset = GitHubAsset(name: string, browserDownloadUrl: string)
  datatype GitHubRelease = GitHubRelease(tagName: string, assets: seq<GitHubAsset>)

  // ---------------------------------------------------------------------
  // Parsing

  /** `data[key]` followed by the string check. */
  function StrField(fields: map<string, PyObj>, key: string, message: string): (r: Result<string, ScriptError>)
    ensures key !in fields ==> r == Err(KeyError(key))
    ensures key in fields ==> (r.Ok? <==> fields[key].PyStr?)
    ensures r.Ok? ==> fields[key] == PyStr(r.value)
    ensures r.Err? && key in fields ==> r == Err(ValueError(message))
  {
    if key !in fields then Err(KeyError(key))
    else if !fields[key].PyStr? then Err(ValueError(message))
    else Ok(fields[key].s)
  }

  /** Reading back a field just stored as a string gives that string, and
      storing one field leaves the reading of every other field unchanged. */
  lemma StrFieldOfUpdate(fields: map<string, PyObj>, key: string, other: string, s: string, message: string)
    ensures StrField(fields[key := PyStr(s)], key, message) == Ok(s)
    ensures other != key ==> StrField(fields[key := PyStr(s)], other, message) == StrField(fields, other, message)
    ensures StrField(fields[key := PyOther], key, message) == Err(ValueError(message))
    ensures StrField(fields - {key}, key, message) == Err(KeyError(key))
  {
  }

  /** `GitHubAsset.from_dict`. */
  function AssetFromDict(data: PyObj): (r: Result<GitHubAsset, ScriptError>)
    ensures !data.PyDict? ==> r == Err(ValueError("Invalid data for GitHubAsset"))
    ensures r.Ok? <==> data.PyDict? && "name" in data.fields && data.fields["name"].PyStr?
                       && "browser_download_url" in data.fields && data.fields["browser_download_url"].PyStr?
    ensures r.Ok? ==> data.fields["name"] == PyStr(r.value.name)
                      && data.fields["browser_download_url"] == PyStr(r.value.browserDownloadUrl)
  {
    if !data.PyDict? then Err(ValueError("Invalid data for GitHubAsset"))
    else
      var name :- StrField(data.fields, "name", "Invalid name in GitHubAsset data");
      var url :- StrField(data.fields, "browser_download_url", "Invalid browser_download_url in GitHubAsset data");
      Ok(GitHubAsset(name, url))
  }

  /** The list comprehension over `from_dict`: the first failure propagates. */
  function AssetsFromList(items: seq<PyObj>): (r: Result<seq<GitHubAsset>, ScriptError>)
    ensures r.Ok? <==> forall i :: 0 <= i < |items| ==> AssetFromDict(items[i]).Ok?
    ensures r.Ok? ==> |r.value| == |items| && forall i :: 0 <= i < |items| ==> Ok(r.value[i]) == AssetFromDict(items[i])
    ensures r.Err? ==> exists i :: 0 <= i < |items| && AssetFromDict(items[i]) == Err(r.error)
                                   && forall j :: 0 <= j < i ==> AssetFromDict(items[j]).Ok?
  {
    MapResult(items, AssetFromDict)
  }

  /** `GitHubRelease.from_dict`. */
  function ReleaseFromDict(data: PyObj): (r: Result<GitHubRelease, ScriptError>)
    ensures !data.PyDict? ==> r == Err(ValueError("Invalid data for Release"))
    ensures r.Ok? <==> data.PyDict? && "tag_name" in data.fields && data.fields["tag_name"].PyStr?
                       && "assets" in data.fields && data.fields["assets"].PyList?
                       && AssetsFromList(data.fields["assets"].items).Ok?
    ensures r.Ok? ==> data.fields["tag_name"] == PyStr(r.value.tagName)
                      && Ok(r.value.assets) == AssetsFromList(data.fields["assets"].items)
  {
    if !data.PyDict? then Err(ValueError("Invalid data for Release"))
    else
      var tag :- StrField(data.fields, "tag_name", "Invalid tag_name in Release data");
      if "assets" !in data.fields then Err(KeyError("assets"))
      else if !data.fields["assets"].PyList? then Err(ValueError("Invalid assets in Release data"))
      else
        var assets :- AssetsFromList(data.fields["assets"].items);
        Ok(GitHubRelease(tag, assets))
  }

  /** The JSON value of `fetch_releases`, decoded. */
  function ParseReleases(data: PyObj): (r: Result<seq<GitHubRelease>, ScriptError>)
    ensures !data.PyList? ==> r == Err(RuntimeError("Unexpected response from GitHub API."))
    ensures r.Ok? ==> data.PyList? && |r.value| == |data.items|
    ensures r.Ok? ==> forall i :: 0 <= i < |data.items| ==> Ok(r.value[i]) == ReleaseFromDict(data.items[i])
    ensures data.PyList? ==> (r.Ok? <==> forall i :: 0 <= i < |data.items| ==> ReleaseFromDict(data.items[i]).Ok?)
  {
    if !data.PyList? then Err(RuntimeError("Unexpected response from GitHub API."))
    else ReleasesFromList(data.items)
  }

  function ReleasesFromList(items: seq<PyObj>): (r: Result<seq<GitHubRelease>, ScriptError>)
    ensures r.Ok? <==> forall i :: 0 <= i < |items| ==> ReleaseFromDict(items[i]).Ok?
    ensures r.Ok? ==> |r.value| == |items| && forall i :: 0 <= i < |items| ==> Ok(r.value[i]) == ReleaseFromDict(items[i])
    ensures r.Err? ==> exists i :: 0 <= i < |items| && ReleaseFromDict(items[i]) == Err(r.error)
                                   && forall j :: 0 <= j < i ==> ReleaseFromDict(items[j]).Ok?
  {
    MapResult(items, ReleaseFromDict)
  }

  /** The JSON the API would send for an asset. */
  function AssetToDict(a: GitHubAsset): PyObj {
    PyDict(map["name" := PyStr(a.name), "browser_download_url" := PyStr(a.browserDownloadUrl)])
  }

  /** The JSON the API would send for a release: parsing it gives the release back. */
  function ReleaseToDict(rel: GitHubRelease): PyObj {
    PyDict(map["tag_name" := PyStr(rel.tagName), "assets" := PyList(AssetsToList(rel.assets))])
  }

  function AssetsToList(assets: seq<GitHubAsset>): (r: seq<PyObj>)
    ensures |r| == |assets| && forall i :: 0 <= i < |assets| ==> r[i] == AssetToDict(assets[i])
  {
    seq(|assets|, i requires 0 <= i < |assets| => AssetToDict(assets[i]))
  }

  lemma AssetRoundTrip(a: GitHubAsset)
    ensures AssetFromDict(AssetToDict(a)) == Ok(a)
  {
  }

  lemma ReleaseRoundTrip(rel: GitHubRelease)
    ensures ReleaseFromDict(ReleaseToDict(rel)) == Ok(rel)
  {
    var items := AssetsToList(rel.assets);
    forall i | 0 <= i < |items|
      ensures AssetFromDict(items[i]) == Ok(rel.assets[i])
    {
      AssetRoundTrip(rel.assets[i]);
    }
    assert AssetsFromList(items).value == rel.assets;
    ReleaseFromFields(rel.tagName, items, rel.assets);
  }

  lemma ReleaseFromFields(tag: string, items: seq<PyObj>, assets: seq<GitHubAsset>)
    requires AssetsFromList(items) == Ok(assets)
    ensures ReleaseFromDict(PyDict(map["tag_name" := PyStr(tag), "assets" := PyList(items)]))
            == Ok(GitHubRelease(tag, assets))
  {
  }

  // ---------------------------------------------------------------------
  // The version hint

  datatype GitTag = GitTag(name: string, commit: nat)

  function TagsAt(tags: seq<GitTag>, head: nat): (r: seq<GitTag>)
    ensures forall t :: t in r <==> t in tags && t.commit == head
    ensures |r| <= |tags|
    decreases |tags|
  {
    if |tags| == 0 then []
    else (if tags[0].commit == head then [tags[0]] else []) + TagsAt(tags[1..], head)
  }

  function Names(tags: seq<GitTag>): (r: seq<string>)
    ensures |r| == |tags| && forall i :: 0 <= i < |tags| ==> r[i] == tags[i].name
  {
    seq(|tags|, i requires 0 <= i < |tags| => tags[i].name)
  }

  /** `try_get_git_tag`, over the repository's tags and its HEAD commit. */
  function TryGetGitTag(tags: seq<GitTag>, head: nat): (r: Result<Option<string>, ScriptError>)
    ensures |TagsAt(tags, head)| == 0 <==> r == Ok(None)
    ensures |TagsAt(tags, head)| == 1 <==> r.Ok? && r.value.Some?
    ensures r.Ok? && r.value.Some? ==> exists t :: t in tags && t.commit == head && t.name == r.value.value
    ensures |TagsAt(tags, head)| > 1 ==>
              r == Err(RuntimeError("Multiple tags found for HEAD: " + Join(Names(TagsAt(tags, head)), ", ")))
  {
    var matching := TagsAt(tags, head);
    if |matching| == 0 then Ok(None)
    else if |matching| > 1 then Err(RuntimeError("Multiple tags found for HEAD: " + Join(Names(matching), ", ")))
    else
      assert matching[0] in matching;
      Ok(Some(matching[0].name))
  }

  const VersionPrefixChars: set<char> := {'v', 'V'}

  /** `git_tag_to_version_hint`: strip the leading `v`s, keep the first two
      dot-separated segments. */
  function GitTagToVersionHint(tag: string): (r: Result<string, ScriptError>)
    ensures r.Ok? <==> '.' in LStrip(tag, VersionPrefixChars)
    ensures r.Err? ==> r.error == RuntimeError("Git tag '" + tag + "' is not a valid version.")
    ensures r.Ok? ==> |r.value| > 0
  {
    var segments := Split(LStrip(tag, VersionPrefixChars), '.');
    if |segments| < 2 then Err(RuntimeError("Git tag '" + tag + "' is not a valid version."))
    else Ok(Join(segments[..2], "."))
  }

  /** For a tag made of a `v` prefix, a major and a minor segment and any
      further segments, the hint is `major.minor`. */
  lemma VersionHintOfTag(prefix: string, major: string, minor: string, rest: string)
    requires forall i :: 0 <= i < |prefix| ==> prefix[i] in VersionPrefixChars
    requires '.' !in major && '.' !in minor
    requires |major| > 0 ==> major[0] !in VersionPrefixChars
    requires |rest| == 0 || rest[0] == '.'
    ensures GitTagToVersionHint(prefix + major + "." + minor + rest) == Ok(major + "." + minor)
  {
    var version := major + "." + minor + rest;
    assert prefix + major + "." + minor + rest == prefix + version;
    assert version[0] !in VersionPrefixChars by {
      if |major| == 0 {
        assert version[0] == '.';
      } else {
        assert version[0] == major[0];
      }
    }
    LStripPrefix(prefix, version, VersionPrefixChars);
    SplitMajorMinor(major, minor, rest);
    assert Join([major, minor], ".") == major + "." + minor;
  }

  /** `validate_version_hint`: at least two segments, every one a non-empty
      run of digits. */
  function ValidateVersionHint(hint: string): (r: Result<Unit, ScriptError>)
    ensures r.Err? ==>
              r.error == RuntimeError("Version hint '" + hint + "' is not valid. Provide a value like '1.22'.")
  {
    var segments := Split(hint, '.');
    if |segments| < 2 || !(forall i :: 0 <= i < |segments| ==> IsDigits(segments[i])) then
      Err(RuntimeError("Version hint '" + hint + "' is not valid. Provide a value like '1.22'."))
    else Ok(Unit)
  }

  /** The same acceptance, stated on characters: digits and dots only, at
      least one dot, and no dot at either end or next to another dot. */
  predicate IsVersionHint(h: string) {
    && '.' in h && h[0] != '.' && h[|h| - 1] != '.'
    && (forall i :: 0 <= i < |h| ==> IsDigitChar(h[i]) || h[i] == '.')
    && (forall i :: 0 <= i < |h| - 1 ==> !(h[i] == '.' && h[i + 1] == '.'))
  }

  /** Dots and digits, not ending in a dot, no two dots together (a leading
      dot allowed). */
  predicate DottedDigits(s: string) {
    DigitsOrDots(s) && !EndsInDot(s) && NoDoubleDot(s)
  }

  predicate DigitsOrDots(s: string) {
    forall i :: 0 <= i < |s| ==> IsDigitChar(s[i]) || s[i] == '.'
  }

  predicate EndsInDot(s: string) {
    |s| > 0 && s[|s| - 1] == '.'
  }

  predicate NoDoubleDot(s: string) {
    forall i :: 0 <= i < |s| - 1 ==> !(s[i] == '.' && s[i + 1] == '.')
  }

  /** Every piece after the first is digits; the first is digits or empty. */
  predicate DigitPieces(s: string) {
    PiecesOk(Split(s, '.'))
  }

  predicate PiecesOk(p: seq<string>) {
    && |p| > 0
    && (forall i :: 0 <= i < |p[0]| ==> IsDigitChar(p[0][i]))
    && (forall k :: 1 <= k < |p| ==> IsDigits(p[k]))
  }

  /** A leading dot adds an empty first piece: the old first piece must now
      be a non-empty run of digits. */
  lemma PiecesOkDot(pt: seq<string>)
    requires |pt| > 0
    ensures PiecesOk([""] + pt) <==> |pt[0]| > 0 && PiecesOk(pt)
  {
    var ps := [""] + pt;
    assert forall k :: 1 <= k < |ps| ==> ps[k] == pt[k - 1];
    assert forall k :: 0 <= k < |pt| ==> pt[k] == ps[k + 1];
    assert |ps[0]| == 0;
    if PiecesOk(ps) {
      assert IsDigits(ps[1]);
    }
    if |pt[0]| > 0 && PiecesOk(pt) {
      assert IsDigits(pt[0]);
    }
  }

  /** A leading non-dot character joins the first piece. */
  lemma PiecesOkChar(c: char, pt: seq<string>)
    requires |pt| > 0
    ensures PiecesOk([[c] + pt[0]] + pt[1..]) <==> IsDigitChar(c) && PiecesOk(pt)
  {
    var ps := [[c] + pt[0]] + pt[1..];
    assert forall k :: 1 <= k < |ps| ==> ps[k] == pt[k];
    assert ps[0][0] == c;
    assert forall i :: 0 <= i < |pt[0]| ==> ps[0][i + 1] == pt[0][i];
    if IsDigitChar(c) && PiecesOk(pt) {
      forall i | 0 <= i < |ps[0]|
        ensures IsDigitChar(ps[0][i])
      {
        if i > 0 {
          assert ps[0][i] == pt[0][i - 1];
        }
      }
    }
  }

  /** The first piece of a split is empty exactly at a leading separator. */
  lemma FirstPieceEmpty(s: string)
    ensures |Split(s, '.')[0]| == 0 <==> |s| == 0 || s[0] == '.'
  {
    if |s| > 0 && s[0] != '.' {
      assert Split(s, '.')[0] == [s[0]] + Split(s[1..], '.')[0];
    }
  }

  lemma DottedDigitsCons(c: char, t: string)
    ensures c != '.' ==> (DottedDigits([c] + t) <==> IsDigitChar(c) && DottedDigits(t))
    ensures c == '.' ==> (DottedDigits([c] + t) <==> |t| > 0 && t[0] != '.' && DottedDigits(t))
  {
    DigitsOrDotsCons(c, t);
    EndsInDotCons(c, t);
    NoDoubleDotCons(c, t);
  }

  lemma DigitsOrDotsCons(c: char, t: string)
    ensures DigitsOrDots([c] + t) <==> (IsDigitChar(c) || c == '.') && DigitsOrDots(t)
  {
    var s := [c] + t;
    assert forall i :: 0 <= i < |t| ==> t[i] == s[i + 1];
    assert s[0] == c;
    if (IsDigitChar(c) || c == '.') && DigitsOrDots(t) {
      forall i | 0 <= i < |s|
        ensures IsDigitChar(s[i]) || s[i] == '.'
      {
        if i > 0 {
          assert s[i] == t[i - 1];
        }
      }
    }
  }

  lemma EndsInDotCons(c: char, t: string)
    ensures EndsInDot([c] + t) <==> if |t| == 0 then c == '.' else EndsInDot(t)
  {
    var s := [c] + t;
    if |t| > 0 {
      assert t[|t| - 1] == s[|s| - 1];
    }
  }

  lemma NoDoubleDotCons(c: char, t: string)
    ensures NoDoubleDot([c] + t) <==> !(c == '.' && |t| > 0 && t[0] == '.') && NoDoubleDot(t)
  {
    var s := [c] + t;
    assert forall i :: 0 <= i < |t| ==> t[i] == s[i + 1];
    if NoDoubleDot(t) && !(c == '.' && |t| > 0 && t[0] == '.') {
      forall i | 0 <= i < |s| - 1
        ensures !(s[i] == '.' && s[i + 1] == '.')
      {
        if i > 0 {
          assert s[i] == t[i - 1] && s[i + 1] == t[i];
        }
      }
    }
    if NoDoubleDot(s) {
      forall i | 0 <= i < |t| - 1
        ensures !(t[i] == '.' && t[i + 1] == '.')
      {
        assert s[i + 1] == t[i] && s[i + 2] == t[i + 1];
      }
      if c == '.' && |t| > 0 {
        assert s[0] == '.' && s[1] == t[0];
      }
    }
  }

  lemma DigitPiecesCons(c: char, t: string)
    ensures c != '.' ==> (DigitPieces([c] + t) <==> IsDigitChar(c) && DigitPieces(t))
    ensures c == '.' ==> (DigitPieces([c] + t) <==> |t| > 0 && t[0] != '.' && DigitPieces(t))
  {
    SplitCons(c, t, '.');
    FirstPieceEmpty(t);
    if c == '.' {
      PiecesOkDot(Split(t, '.'));
    } else {
      PiecesOkChar(c, Split(t, '.'));
    }
  }

  lemma {:induction false} DigitPiecesChars(s: string)
    ensures DigitPieces(s) <==> DottedDigits(s)
    decreases |s|
  {
    if |s| > 0 {
      DigitPiecesChars(s[1..]);
      assert s == [s[0]] + s[1..];
      DigitPiecesCons(s[0], s[1..]);
      DottedDigitsCons(s[0], s[1..]);
    }
  }

  /** `validate_version_hint` accepts exactly the character-level version hints. */
  lemma ValidateVersionHintChars(h: string)
    ensures ValidateVersionHint(h).Ok? <==> IsVersionHint(h)
  {
    var p := Split(h, '.');
    DigitPiecesChars(h);
    if |h| > 0 && h[0] != '.' {
      assert p[0] == [h[0]] + Split(h[1..], '.')[0];
    }
    if |h| > 0 && h[0] == '.' {
      assert p[0] == "";
    }
  }

  // ---------------------------------------------------------------------
  // Choosing the release and the asset

  /** A Python truth test on an optional string. */
  predicate Truthy(s: Option<string>) {
    s.Some? && |s.value| > 0
  }

  predicate HasAssetFor(rel: GitHubRelease, arch: string) {
    exists j :: 0 <= j < |rel.assets| && StartsWith(rel.assets[j].name, "onnxruntime-" + arch + "-")
  }

  /** The two tests of the `find_release` loop. */
  predicate Qualifies(rel: GitHubRelease, hint: Option<string>) {
    && (Truthy(hint) ==> StartsWith(LStrip(rel.tagName, VersionPrefixChars), hint.value))
    && forall k :: 0 <= k < |RequiredArchitectures| ==> HasAssetFor(rel, RequiredArchitectures[k])
  }

  /** The search of `find_release` from index `i` on. */
  function FindReleaseFrom(releases: seq<GitHubRelease>, hint: Option<string>, i: nat): (r: Result<nat, ScriptError>)
    requires i <= |releases|
    ensures r.Ok? ==> i <= r.value < |releases| && Qualifies(releases[r.value], hint)
                      && forall j :: i <= j < r.value ==> !Qualifies(releases[j], hint)
    ensures r.Err? <==> forall j :: i <= j < |releases| ==> !Qualifies(releases[j], hint)
    ensures r.Err? ==> r.error == RuntimeError("No valid package found.")
    decreases |releases| - i
  {
    if i == |releases| then Err(RuntimeError("No valid package found."))
    else if Qualifies(releases[i], hint) then Ok(i)
    else FindReleaseFrom(releases, hint, i + 1)
  }

  /** `find_release`: the first release, in the order given, that matches the
      hint (when there is one) and carries a package for every required
      architecture. */
  function FindRelease(releases: seq<GitHubRelease>, hint: Option<string>): (r: Result<GitHubRelease, ScriptError>)
    ensures r.Ok? ==> exists i :: 0 <= i < |releases| && releases[i] == r.value && Qualifies(r.value, hint)
                                  && forall j :: 0 <= j < i ==> !Qualifies(releases[j], hint)
    ensures r.Err? <==> forall j :: 0 <= j < |releases| ==> !Qualifies(releases[j], hint)
    ensures r.Err? ==> r.error == RuntimeError("No valid package found.")
  {
    var i :- FindReleaseFrom(releases, hint, 0);
    Ok(releases[i])
  }

  /** An empty hint is no hint. */
  lemma EmptyHintIsNoHint(releases: seq<GitHubRelease>)
    ensures FindRelease(releases, Some("")) == FindRelease(releases, None)
  {
    assert forall rel :: Qualifies(rel, Some("")) == Qualifies(rel, None);
  }

  /** The hint is matched as text, not segment by segment: a release whose
      tag is `v` + hint + anything qualifies, so hint `1.2` selects release
      `v1.22.0` (anything = `2.0`). */
  lemma HintIsTextPrefix(rel: GitHubRelease, hint: string, more: string)
    requires rel.tagName == "v" + hint + more
    requires |hint| > 0 && hint[0] !in VersionPrefixChars
    requires forall k :: 0 <= k < |RequiredArchitectures| ==> HasAssetFor(rel, RequiredArchitectures[k])
    ensures FindRelease([rel], Some(hint)) == Ok(rel)
  {
    assert rel.tagName == "v" + (hint + more);
    LStripPrefix("v", hint + more, VersionPrefixChars);
    assert StartsWith(hint + more, hint);
    assert Qualifies(rel, Some(hint));
  }

  /** `get_host_architecture`: two dictionary lookups, the system first. */
  function HostArchitecture(system: string, machine: string): (r: Result<string, ScriptError>)
    ensures system != "Windows" ==> r == Err(KeyError(system))
    ensures r.Ok? <==> system == "Windows" && machine in {"AMD64", "x86_64", "ARM64", "aarch64"}
    ensures r.Ok? ==> r.value in RequiredArchitectures
    ensures r.Ok? ==> (r.value == RequiredArchitectures[0] <==> machine in {"AMD64", "x86_64"})
  {
    if system != "Windows" then Err(KeyError(system))
    else if machine == "AMD64" || machine == "x86_64" then Ok(RequiredArchitectures[0])
    else if machine == "ARM64" || machine == "aarch64" then Ok(RequiredArchitectures[1])
    else Err(KeyError(machine))
  }

  /** `find_host_asset`: the first asset of the release for the host. */
  function FindHostAsset(rel: GitHubRelease, system: string, machine: string): (r: Result<GitHubAsset, ScriptError>)
    ensures HostArchitecture(system, machine).Err? ==> r == Err(HostArchitecture(system, machine).error)
    ensures HostArchitecture(system, machine).Ok? ==>
              var arch := HostArchitecture(system, machine).value;
              (r.Ok? <==> HasAssetFor(rel, arch))
              && (r.Err? ==> r.error == RuntimeError("No package found for host architecture '" + arch
                                                     + "' in release '" + rel.tagName + "'."))
              && (r.Ok? ==> exists i :: 0 <= i < |rel.assets| && rel.assets[i] == r.value
                              && StartsWith(r.value.name, "onnxruntime-" + arch + "-")
                              && forall j :: 0 <= j < i ==> !StartsWith(rel.assets[j].name, "onnxruntime-" + arch + "-"))
  {
    var arch :- HostArchitecture(system, machine);
    var i := FirstWithPrefix(rel.assets, "onnxruntime-" + arch + "-");
    if i == |rel.assets| then
      Err(RuntimeError("No package found for host architecture '" + arch + "' in release '" + rel.tagName + "'."))
    else Ok(rel.assets[i])
  }

  function FirstWithPrefix(assets: seq<GitHubAsset>, prefix: string): (i: nat)
    ensures i <= |assets|
    ensures i < |assets| ==> StartsWith(assets[i].name, prefix)
    ensures forall j :: 0 <= j < i ==> !StartsWith(assets[j].name, prefix)
    decreases |assets|
  {
    if |assets| == 0 then 0
    else if StartsWith(assets[0].name, prefix) then 0
    else
      var i := FirstWithPrefix(assets[1..], prefix);
      assert forall j :: 1 <= j < |assets| ==> assets[1..][j - 1] == assets[j];
      1 + i
  }

  /** A release `find_release` picks always has a package for a supported
      host, so on such a host the asset lookup cannot fail. */
  lemma ChosenReleaseServesHost(releases: seq<GitHubRelease>, hint: Option<string>, system: string, machine: string)
    requires FindRelease(releases, hint).Ok? && HostArchitecture(system, machine).Ok?
    ensures FindHostAsset(FindRelease(releases, hint).value, system, machine).Ok?
  {
    var arch := HostArchitecture(system, machine).value;
    var rel := FindRelease(releases, hint).value;
    assert Qualifies(rel, hint);
    var k := if arch == RequiredArchitectures[0] then 0 else 1;
    assert RequiredArchitectures[k] == arch;
  }

  // ---------------------------------------------------------------------
  // The script's main flow

  /** The hint the script uses: `--version`, or else one derived from the tag
      at HEAD (the repository is only consulted when no usable `--version` is
      given); a hint that is used is validated. */
  function ResolveHint(argVersion: Option<string>, tags: seq<GitTag>, head: nat): (r: Result<Option<string>, ScriptError>)
    ensures Truthy(argVersion) ==> r == (if ValidateVersionHint(argVersion.value).Ok? then Ok(argVersion) else
                                          Err(ValidateVersionHint(argVersion.value).error))
    ensures r.Ok? && Truthy(r.value) ==> IsVersionHint(r.value.value)
    ensures r.Ok? && !Truthy(r.value) ==> !Truthy(argVersion)
    ensures !Truthy(argVersion) && TryGetGitTag(tags, head).Err? ==> r == Err(TryGetGitTag(tags, head).error)
    ensures !Truthy(argVersion) && TryGetGitTag(tags, head).Ok? && !Truthy(TryGetGitTag(tags, head).value) ==>
              r == Ok(argVersion)
    ensures !Truthy(argVersion) && TryGetGitTag(tags, head).Ok? && Truthy(TryGetGitTag(tags, head).value) ==>
              var h := GitTagToVersionHint(TryGetGitTag(tags, head).value.value);
              && (h.Err? ==> r == Err(h.error))
              && (h.Ok? ==> r == (if ValidateVersionHint(h.value).Ok? then Ok(Some(h.value))
                                  else Err(ValidateVersionHint(h.value).error)))
  {
    var hint :-
      if Truthy(argVersion) then Ok(argVersion)
      else
        var tag :- TryGetGitTag(tags, head);
        if Truthy(tag) then
          var h :- GitTagToVersionHint(tag.value);
          Ok(Some(h))
        else Ok(argVersion);
    if Truthy(hint) then
      ValidateVersionHintChars(hint.value);
      var _ :- ValidateVersionHint(hint.value);
      Ok(hint)
    else Ok(hint)
  }

  /** With no `--version`, a single tag `v…major.minor…` at HEAD, with digit
      segments, yields the hint `major.minor`. */
  lemma TagAtHeadGivesHint(tags: seq<GitTag>, head: nat, prefix: string, major: string, minor: string, rest: string)
    requires |TagsAt(tags, head)| == 1 && TagsAt(tags, head)[0].name == prefix + major + "." + minor + rest
    requires forall i :: 0 <= i < |prefix| ==> prefix[i] in VersionPrefixChars
    requires IsDigits(major) && IsDigits(minor)
    requires |rest| == 0 || rest[0] == '.'
    ensures ResolveHint(None, tags, head) == Ok(Some(major + "." + minor))
  {
    var name := prefix + major + "." + minor + rest;
    DigitsHaveNoDot(major);
    DigitsHaveNoDot(minor);
    assert major[0] !in VersionPrefixChars;
    VersionHintOfTag(prefix, major, minor, rest);
    assert TryGetGitTag(tags, head) == Ok(Some(name));
    assert Truthy(Some(name));
    TwoDigitSegmentsValid(major, minor);
  }

  /** `major.minor` with digit segments is a valid hint. */
  lemma TwoDigitSegmentsValid(major: string, minor: string)
    requires IsDigits(major) && IsDigits(minor)
    ensures ValidateVersionHint(major + "." + minor).Ok?
  {
    DigitsHaveNoDot(major);
    DigitsHaveNoDot(minor);
    SplitPrefix(major, minor, '.');
    SplitOfSeparatorFree(minor, '.');
    assert major + "." + minor == major + ['.'] + minor;
    assert Split(major + "." + minor, '.') == [major, minor];
  }

  /** The whole script up to the download: which asset it extracts. It is
      the host's asset of the first qualifying release in the response, and
      once the hint resolves, the response parses, a release qualifies and
      the host is supported, extraction cannot fail. */
  function SelectAsset(argVersion: Option<string>, tags: seq<GitTag>, head: nat, response: PyObj,
                       system: string, machine: string): (r: Result<GitHubAsset, ScriptError>)
    ensures ResolveHint(argVersion, tags, head).Err? ==> r == Err(ResolveHint(argVersion, tags, head).error)
    ensures r.Ok? <==>
              && ResolveHint(argVersion, tags, head).Ok?
              && ParseReleases(response).Ok?
              && FindRelease(ParseReleases(response).value, ResolveHint(argVersion, tags, head).value).Ok?
              && HostArchitecture(system, machine).Ok?
    ensures r.Ok? ==>
              var rel := FindRelease(ParseReleases(response).value, ResolveHint(argVersion, tags, head).value).value;
              FindHostAsset(rel, system, machine) == Ok(r.value)
    ensures r.Ok? ==>
              && ResolveHint(argVersion, tags, head).Ok?
              && HostArchitecture(system, machine).Ok?
              && StartsWith(r.value.name, "onnxruntime-" + HostArchitecture(system, machine).value + "-")
    ensures r.Ok? ==>
              var hint := ResolveHint(argVersion, tags, head).value;
              exists rel :: Qualifies(rel, hint) && r.value in rel.assets
  {
    var hint :- ResolveHint(argVersion, tags, head);
    var releases :- ParseReleases(response);
    var rel :- FindRelease(releases, hint);
    assert HostArchitecture(system, machine).Ok? ==> FindHostAsset(rel, system, machine).Ok? by {
      if HostArchitecture(system, machine).Ok? {
        ChosenReleaseServesHost(releases, hint, system, machine);
      }
    }
    var asset :- FindHostAsset(rel, system, machine);
    assert asset in rel.assets;
    Ok(asset)
  }
}

=== FILE: get_version.dfy ===
/** The package version script: the version string of a build and the
    dependency on the native library package. The git queries and the
    library's `VERSION_NUMBER` file are parameters. */
module GetVersion {
  import opened Wrappers
  import opened PyStrings
  import opened ScriptErrors
  import GetOnnxruntime

  /** `major.minor` of a dotted version: its first two segments; indexing the
      second segment of a version without a dot raises. */
  function MajorMinor(version: string): (r: Result<string, ScriptError>)
    ensures r.Ok? <==> '.' in version
    ensures r.Err? ==> r.error == IndexError
    ensures r.Ok? ==> exists a, b :: '.' !in a && '.' !in b && r.value == a + "." + b
                                     && |r.value| <= |version| && version[..|r.value|] == r.value
                                     && (|version| == |r.value| || version[|r.value|] == '.')
  {
    var parts := Split(version, '.');
    if |parts| < 2 then Err(IndexError)
    else
      SplitHead2(version);
      Ok(parts[0] + "." + parts[1])
  }

  /** `version` begins with its first two pieces and a separator or its end. */
  lemma SplitHead2(version: string)
    requires '.' in version
    ensures var p := Split(version, '.');
            var mm := p[0] + "." + p[1];
            |mm| <= |version| && version[..|mm|] == mm && (|version| == |mm| || version[|mm|] == '.')
  {
    JoinHead2(Split(version, '.'), '.');
  }

  /** The major.minor of a version built from them. */
  lemma MajorMinorOf(major: string, minor: string, rest: string)
    requires '.' !in major && '.' !in minor
    requires |rest| == 0 || rest[0] == '.'
    ensures MajorMinor(major + "." + minor + rest) == Ok(major + "." + minor)
  {
    SplitMajorMinor(major, minor, rest);
    var p := Split(major + "." + minor + rest, '.');
    assert p[0] == major && p[1] == minor by {
      assert p[..2] == [major, minor];
    }
  }

  /** `get_version`: an exact tag at HEAD with at least two segments is the
      version, provided its major.minor is the library's; otherwise a
      development version of the library's major.minor, tagged with the
      commit id. */
  function GetVersion(tag: Option<string>, commitId: Option<string>, libVersion: string): (r: Result<string, ScriptError>)
    ensures tag.Some? && '.' in tag.value && MajorMinor(libVersion).Ok? ==>
              r == (if MajorMinor(tag.value) == MajorMinor(libVersion) then Ok(tag.value)
                    else Err(ValueError("Tag '" + tag.value + "' does not match library version '" + libVersion + "'")))
    ensures (tag.None? || '.' !in tag.value) && commitId.None? ==>
              r == Err(RuntimeError("Unable to determine commit ID. Ensure you are in a git repository."))
    ensures (tag.None? || '.' !in tag.value) && commitId.Some? && MajorMinor(libVersion).Ok? ==>
              r == Ok(MajorMinor(libVersion).value + ".dev0+" + commitId.value)
    ensures MajorMinor(libVersion).Err? ==> r.Err?
  {
    if tag.Some? && |Split(tag.value, '.')| >= 2 then
      var tagMajorMinor := MajorMinor(tag.value).value;
      var libMajorMinor :- MajorMinor(libVersion);
      if tagMajorMinor != libMajorMinor then
        Err(ValueError("Tag '" + tag.value + "' does not match library version '" + libVersion + "'"))
      else Ok(tag.value)
    else if commitId.None? then
      Err(RuntimeError("Unable to determine commit ID. Ensure you are in a git repository."))
    else
      var majorMinor :- MajorMinor(libVersion);
      Ok(majorMinor + ".dev0+" + commitId.value)
  }

  /** Every version the script produces carries the library's major.minor. */
  lemma VersionKeepsMajorMinor(tag: Option<string>, commitId: Option<string>, libVersion: string)
    requires GetVersion(tag, commitId, libVersion).Ok?
    ensures MajorMinor(GetVersion(tag, commitId, libVersion).value) == MajorMinor(libVersion)
  {
    var mm := MajorMinor(libVersion).value;
    if !(tag.Some? && '.' in tag.value) {
      var a, b :| '.' !in a && '.' !in b && mm == a + "." + b;
      AppendAssoc(mm, ".dev0+", commitId.value);
      MajorMinorOf(a, b, ".dev0+" + commitId.value);
    }
  }

  /** Only the first two segments of the library version matter. */
  lemma VersionIgnoresPatch(tag: Option<string>, commitId: Option<string>, lib1: string, lib2: string)
    requires MajorMinor(lib1) == MajorMinor(lib2)
    ensures GetVersion(tag, commitId, lib1).Ok? <==> GetVersion(tag, commitId, lib2).Ok?
    ensures GetVersion(tag, commitId, lib1).Ok? ==> GetVersion(tag, commitId, lib1) == GetVersion(tag, commitId, lib2)
    ensures GetDependencyString(lib1) == GetDependencyString(lib2)
  {
    if tag.Some? && '.' in tag.value {
      TaggedVersionIgnoresPatch(tag.value, commitId, lib1, lib2);
    } else {
      UntaggedVersionIgnoresPatch(tag, commitId, lib1, lib2);
    }
  }

  lemma UntaggedVersionIgnoresPatch(tag: Option<string>, commitId: Option<string>, lib1: string, lib2: string)
    requires MajorMinor(lib1) == MajorMinor(lib2) && !(tag.Some? && '.' in tag.value)
    ensures GetVersion(tag, commitId, lib1) == GetVersion(tag, commitId, lib2)
  {
  }

  lemma TaggedVersionIgnoresPatch(tag: string, commitId: Option<string>, lib1: string, lib2: string)
    requires MajorMinor(lib1) == MajorMinor(lib2) && '.' in tag
    ensures GetVersion(Some(tag), commitId, lib1).Ok? <==> GetVersion(Some(tag), commitId, lib2).Ok?
    ensures GetVersion(Some(tag), commitId, lib1).Ok? ==> GetVersion(Some(tag), commitId, lib1) == Ok(tag)
    ensures GetVersion(Some(tag), commitId, lib2).Ok? ==> GetVersion(Some(tag), commitId, lib2) == Ok(tag)
  {
  }

  /** `get_dependency_string`: a compatible-release pin on the library's
      major.minor. */
  function GetDependencyString(libVersion: string): (r: Result<string, ScriptError>)
    ensures r.Ok? <==> MajorMinor(libVersion).Ok?
    ensures r.Err? ==> r.error == IndexError
    ensures r.Ok? ==> r.value == "pyort_lib~=" + MajorMinor(libVersion).value + ".0"
  {
    var majorMinor :- MajorMinor(libVersion);
    Ok("pyort_lib~=" + majorMinor + ".0")
  }

  /** The pin admits exactly the library's major.minor: the dependency string
      of a version `M.m.p` is `pyort_lib~=M.m.0`. */
  lemma DependencyOfVersion(major: string, minor: string, rest: string)
    requires '.' !in major && '.' !in minor
    requires |rest| == 0 || rest[0] == '.'
    ensures GetDependencyString(major + "." + minor + rest) == Ok("pyort_lib~=" + (major + "." + minor) + ".0")
  {
    var lib := major + "." + minor + rest;
    MajorMinorOf(major, minor, rest);
    DependencyOfMajorMinor(lib, major + "." + minor);
  }

  lemma DependencyOfMajorMinor(lib: string, mm: string)
    requires MajorMinor(lib) == Ok(mm)
    ensures GetDependencyString(lib) == Ok("pyort_lib~=" + mm + ".0")
  {
  }

  /** The download script reads a tag `v<major>.<minor>...` as version hint
      `<major>.<minor>`, while this script compares the raw tag's major.minor,
      `v<major>.<minor>`, with the library's and refuses the tag: the two
      scripts expect different tag conventions. */
  lemma TagConventionsDisagree(major: string, minor: string, rest: string, commitId: Option<string>)
    requires IsDigits(major) && '.' !in minor
    requires |rest| == 0 || rest[0] == '.'
    ensures GetOnnxruntime.GitTagToVersionHint("v" + major + "." + minor + rest) == Ok(major + "." + minor)
    ensures var tag := "v" + major + "." + minor + rest;
            var lib := major + "." + minor + rest;
            GetVersion(Some(tag), commitId, lib)
            == Err(ValueError("Tag '" + tag + "' does not match library version '" + lib + "'"))
  {
    PrefixedDigitsHaveNoDot(major);
    assert major[0] !in GetOnnxruntime.VersionPrefixChars by {
      assert IsDigitChar(major[0]);
    }
    assert "v" + major + "." + minor + rest == ("v" + major) + "." + minor + rest;
    GetOnnxruntime.VersionHintOfTag("v", major, minor, rest);
    PrefixedTagRefused(major, minor, rest, commitId);
  }

  lemma PrefixedDigitsHaveNoDot(major: string)
    requires IsDigits(major)
    ensures '.' !in major && '.' !in "v" + major
  {
    DigitsHaveNoDot(major);
    forall i | 0 <= i < |"v" + major| ensures ("v" + major)[i] != '.' {
      if i > 0 {
        assert ("v" + major)[i] == major[i - 1];
      }
    }
  }

  /** The tag-comparison half of `TagConventionsDisagree`. */
  lemma PrefixedTagRefused(major: string, minor: string, rest: string, commitId: Option<string>)
    requires '.' !in major && '.' !in "v" + major && '.' !in minor
    requires |rest| == 0 || rest[0] == '.'
    ensures var tag := "v" + major + "." + minor + rest;
            var lib := major + "." + minor + rest;
            GetVersion(Some(tag), commitId, lib)
            == Err(ValueError("Tag '" + tag + "' does not match library version '" + lib + "'"))
  {
    var tag := "v" + major + "." + minor + rest;
    MajorMinorOf("v" + major, minor, rest);
    MajorMinorOf(major, minor, rest);
    assert |"v" + major + "." + minor| != |major + "." + minor|;
    assert '.' in tag by { assert tag[|"v" + major|] == '.'; }
  }
}

=== FILE: key_value.dfy ===
/** `KeyValuePairsToMap`: copying a native key/value table into a string map.
    The native table may be null, and any key or value in it may be null. */
module KeyValue {
  import opened Wrappers

  /** One row of the native table; `None` is a null C string. */
  datatype RawPair = RawPair(key: Option<string>, value: Option<string>)

  /** The native `OrtKeyValuePairs*`: `None` is a null pointer. */
  type RawTable = Option<seq<RawPair>>

  /** Rows with a null key or a null value are skipped. */
  predicate Valid(p: RawPair) {
    p.key.Some? && p.value.Some?
  }

  /** The loop over the table: assign `map[key] = value` for each valid row,
      in order, so a later row overwrites an earlier one with the same key. */
  function Fold(acc: map<string, string>, rows: seq<RawPair>): map<string, string>
    decreases |rows|
  {
    if |rows| == 0 then acc
    else
      var p := rows[0];
      Fold(if Valid(p) then acc[p.key.value := p.value.value] else acc, rows[1..])
  }

  /** `KeyValuePairsToMap`: a null table gives the empty map. */
  function KeyValuePairsToMap(table: RawTable): (m: map<string, string>)
    ensures table.None? ==> m == map[]
  {
    match table
    case None => map[]
    case Some(rows) => Fold(map[], rows)
  }

  // ---------------------------------------------------------------------
  // Reference semantics: the last valid row for each key wins

  predicate HasValidRow(rows: seq<RawPair>, k: string) {
    exists i :: 0 <= i < |rows| && Valid(rows[i]) && rows[i].key.value == k
  }

  /** The value of the last valid row whose key is `k`. */
  function LastValue(rows: seq<RawPair>, k: string): (v: string)
    requires HasValidRow(rows, k)
    ensures exists i :: 0 <= i < |rows| && Valid(rows[i]) && rows[i].key.value == k
                        && rows[i].value.value == v
                        && forall j :: i < j < |rows| && Valid(rows[j]) ==> rows[j].key.value != k
    decreases |rows|
  {
    var p := rows[|rows| - 1];
    if Valid(p) && p.key.value == k then p.value.value
    else
      var front := rows[..|rows| - 1];
      assert HasValidRow(front, k) by {
        var i :| 0 <= i < |rows| && Valid(rows[i]) && rows[i].key.value == k;
        assert i < |rows| - 1 && front[i] == rows[i];
      }
      var v := LastValue(front, k);
      assert forall i :: 0 <= i < |front| ==> front[i] == rows[i];
      v
  }

  /** The folded map holds exactly the keys of valid rows (and of the start
      map), each bound to its last valid value. */
  lemma {:induction false} FoldSpec(acc: map<string, string>, rows: seq<RawPair>, k: string)
    ensures k in Fold(acc, rows) <==> k in acc || HasValidRow(rows, k)
    ensures HasValidRow(rows, k) ==> Fold(acc, rows)[k] == LastValue(rows, k)
    ensures !HasValidRow(rows, k) && k in acc ==> Fold(acc, rows)[k] == acc[k]
    decreases |rows|
  {
    if |rows| > 0 {
      var p := rows[0];
      var acc' := if Valid(p) then acc[p.key.value := p.value.value] else acc;
      var tail := rows[1..];
      FoldSpec(acc', tail, k);
      HasValidRowCons(rows, k);
      if HasValidRow(rows, k) {
        if HasValidRow(tail, k) {
          LastValueCons(rows, k);
        } else {
          LastValueIsHead(rows, k);
        }
      }
    }
  }

  /** A valid row for `k` is the head row or a valid row of the tail. */
  lemma HasValidRowCons(rows: seq<RawPair>, k: string)
    requires |rows| > 0
    ensures HasValidRow(rows, k) <==>
              (Valid(rows[0]) && rows[0].key.value == k) || HasValidRow(rows[1..], k)
  {
    if HasValidRow(rows[1..], k) {
      var i :| 0 <= i < |rows[1..]| && Valid(rows[1..][i]) && rows[1..][i].key.value == k;
      assert rows[i + 1] == rows[1..][i];
    }
    if HasValidRow(rows, k) && !(Valid(rows[0]) && rows[0].key.value == k) {
      var i :| 0 <= i < |rows| && Valid(rows[i]) && rows[i].key.value == k;
      assert rows[1..][i - 1] == rows[i];
    }
  }

  /** When the tail has a valid row for `k`, the last one is the tail's. */
  lemma LastValueCons(rows: seq<RawPair>, k: string)
    requires |rows| > 0 && HasValidRow(rows[1..], k)
    ensures HasValidRow(rows, k)
    ensures LastValue(rows, k) == LastValue(rows[1..], k)
  {
    HasValidRowCons(rows, k);
    var tail := rows[1..];
    var i :| 0 <= i < |rows| && Valid(rows[i]) && rows[i].key.value == k
             && rows[i].value.value == LastValue(rows, k)
             && forall j :: i < j < |rows| && Valid(rows[j]) ==> rows[j].key.value != k;
    var i2 :| 0 <= i2 < |tail| && Valid(tail[i2]) && tail[i2].key.value == k
              && tail[i2].value.value == LastValue(tail, k)
              && forall j :: i2 < j < |tail| && Valid(tail[j]) ==> tail[j].key.value != k;
    assert rows[i2 + 1] == tail[i2];
    if i < i2 + 1 {
      assert false;
    } else if i > i2 + 1 {
      assert false;
    }
  }

  /** When only the head row is valid for `k`, its value is the last one. */
  lemma LastValueIsHead(rows: seq<RawPair>, k: string)
    requires |rows| > 0 && Valid(rows[0]) && rows[0].key.value == k
    requires !HasValidRow(rows[1..], k)
    ensures HasValidRow(rows, k)
    ensures LastValue(rows, k) == rows[0].value.value
  {
    var i :| 0 <= i < |rows| && Valid(rows[i]) && rows[i].key.value == k
             && rows[i].value.value == LastValue(rows, k)
             && forall j :: i < j < |rows| && Valid(rows[j]) ==> rows[j].key.value != k;
    if i > 0 {
      assert false;
    }
  }

  /** The converted map: its keys are the keys of the valid rows, each bound to
      the value of the last valid row with that key. */
  lemma KeyValuePairsToMapSpec(rows: seq<RawPair>, k: string)
    ensures k in KeyValuePairsToMap(Some(rows)) <==> HasValidRow(rows, k)
    ensures HasValidRow(rows, k) ==> KeyValuePairsToMap(Some(rows))[k] == LastValue(rows, k)
  {
    FoldSpec(map[], rows, k);
  }

  /** Rows with a null key or value change nothing. */
  lemma {:induction false} InvalidRowsIgnored(rows: seq<RawPair>, p: RawPair)
    requires !Valid(p)
    ensures KeyValuePairsToMap(Some([p] + rows)) == KeyValuePairsToMap(Some(rows))
  {
    assert ([p] + rows)[1..] == rows;
  }
}

=== FILE: nb_value.dfy ===
/** The nanobind binding's `Value`: a native tensor plus, when the tensor was
    made by the runtime or by the binding, a host array view of its data. */
module NbValue {
  import opened Wrappers
  import opened Errors
  import opened ElementTypes
  import opened Status
  import opened ByteSize
  import opened Tensors

  /** A host (numpy) array as the binding sees it: dtype, shape, data address
      and the contents of its buffer. */
  datatype HostArray = HostArray(dtype: DType, shape: seq<nat>, data: nat, bytes: seq<int>)

  /** `State`: the native tensor (null for an empty value) and the stored view. */
  datatype Value = Value(tensor: Option<NativeTensor>, view: Option<HostArray>)

  const EmptyValue := Value(None, None)

  /** `static_cast<size_t>` of each `int64_t` dimension: a dimension in
      `size_t` range is kept, a negative one wraps to its two's-complement
      reading, and every result is a `size_t`. */
  function ToSizeShape(shape: seq<int>): (r: seq<nat>)
    ensures |r| == |shape|
    ensures forall i :: 0 <= i < |shape| ==> r[i] < SizeModulus
    ensures forall i :: 0 <= i < |shape| && 0 <= shape[i] < SizeModulus ==> r[i] == shape[i]
    ensures forall i :: 0 <= i < |shape| && shape[i] < 0 <= shape[i] + SizeModulus ==> r[i] == shape[i] + SizeModulus
  {
    seq(|shape|, i requires 0 <= i < |shape| => shape[i] % SizeModulus)
  }

  /** The cast keeps every dimension a real tensor can have. */
  lemma ToSizeShapeKeepsValidDims(shape: seq<int>)
    requires forall i :: 0 <= i < |shape| ==> 0 <= shape[i] < SizeModulus
    ensures ToSizeShape(shape) == shape
  {
  }

  /** The view the constructors build over a native tensor's data. */
  function ViewOf(t: NativeTensor): (r: Result<HostArray, Error>)
    ensures r.Ok? <==> t.elementType in SupportedElementTypes && t.data != 0
    ensures t.elementType !in SupportedElementTypes ==> r == Err(UnsupportedElementType(t.elementType))
    ensures r.Ok? ==> NpTypeToOrtType(r.value.dtype) == Ok(t.elementType)
    ensures r.Ok? ==> r.value.data == t.data && r.value.bytes == t.bytes && r.value.shape == ToSizeShape(t.shape)
  {
    var dtype :- OrtTypeToNpType(t.elementType);
    if t.data == 0 then Err(NoTensorData) else Ok(HostArray(dtype, ToSizeShape(t.shape), t.data, t.bytes))
  }

  /** `Value(OrtValue*)`: null makes an empty value; otherwise the value owns
      the tensor and stores a view of its data. */
  function FromOrtValue(p: Option<NativeTensor>): (r: Result<Value, Error>)
    ensures p.None? ==> r == Ok(EmptyValue)
    ensures p.Some? ==> (r.Ok? <==> ViewOf(p.value).Ok?)
    ensures p.Some? && r.Ok? ==> r.value.tensor == p && r.value.view.Some?
    ensures p.Some? && r.Err? ==> r.error == ViewOf(p.value).error
  {
    if p.None? then Ok(EmptyValue)
    else
      var view :- ViewOf(p.value);
      Ok(Value(p, Some(view)))
  }

  /** `Value(const NpArray&)`: the dtype check, then the `MemoryInfo`
      constructor (`memStatus` is what `CreateCpuMemoryInfo` returns), then
      the native tensor is created over the array's own buffer (`created` is
      what the runtime hands back). The array itself is not kept. */
  function FromHostArray(a: HostArray, memStatus: StatusPtr, createStatus: StatusPtr, created: nat)
    : (r: Result<Value, Error>)
    ensures NpTypeToOrtType(a.dtype).Err? ==> r == Err(NpTypeToOrtType(a.dtype).error)
    ensures NpTypeToOrtType(a.dtype).Ok? && !Succeeded(memStatus) ==> r == Err(NativeError(memStatus.value.message))
    ensures NpTypeToOrtType(a.dtype).Ok? && Succeeded(memStatus) && !Succeeded(createStatus) ==>
              r == Err(NativeError(createStatus.value.message))
    ensures r.Ok? <==> NpTypeToOrtType(a.dtype).Ok? && Succeeded(memStatus) && Succeeded(createStatus)
    ensures r.Ok? ==> r.value.tensor == Some(NativeTensor(created, NpTypeToOrtType(a.dtype).value, a.shape, a.data, a.bytes))
    ensures r.Ok? ==> r.value.view.None?
  {
    var ortType :- NpTypeToOrtType(a.dtype);
    var _ :- Check(memStatus);
    var _ :- Check(createStatus);
    Ok(Value(Some(NativeTensor(created, ortType, a.shape, a.data, a.bytes)), None))
  }

  /** `Value(shape, type)`: `GetAllocator()` first (`allocStatus` is what
      `GetAllocatorWithDefaultOptions` returns on the call that fills the
      cached allocator, null once it is cached), then the runtime allocates,
      so both statuses take precedence over the dtype check; then the view is
      built. */
  function FromShape(shape: seq<int>, t: ElementType, allocStatus: StatusPtr, createStatus: StatusPtr, created: nat,
                     data: nat, bytes: seq<int>)
    : (r: Result<Value, Error>)
    ensures !Succeeded(allocStatus) ==> r == Err(NativeError(allocStatus.value.message))
    ensures Succeeded(allocStatus) && !Succeeded(createStatus) ==> r == Err(NativeError(createStatus.value.message))
    ensures Succeeded(allocStatus) && Succeeded(createStatus) && t !in SupportedElementTypes ==>
              r == Err(UnsupportedElementType(t))
    ensures r.Ok? <==> Succeeded(allocStatus) && Succeeded(createStatus) && t in SupportedElementTypes && data != 0
    ensures r.Ok? ==> r.value.tensor == Some(NativeTensor(created, t, shape, data, bytes))
  {
    var _ :- Check(allocStatus);
    var _ :- Check(createStatus);
    FromOrtValue(Some(NativeTensor(created, t, shape, data, bytes)))
  }

  /** `operator NpArray`: the stored view, or an error when there is none. */
  function ToArray(v: Value): (r: Result<HostArray, Error>)
    ensures r.Ok? <==> v.view.Some?
    ensures r.Err? ==> r.error == NoNumpyArray
    ensures r.Ok? ==> r.value == v.view.value
  {
    if v.view.Some? then Ok(v.view.value) else Err(NoNumpyArray)
  }

  /** `operator OrtValue*`: the tensor handle, null for an empty value. */
  function AsOrtValue(v: Value): (r: Option<nat>)
    ensures r.Some? <==> v.tensor.Some?
    ensures r.Some? ==> r.value == v.tensor.value.handle
  {
    if v.tensor.Some? then Some(v.tensor.value.handle) else None
  }

  /** A value built from a native tensor converts to an array of the matching
      dtype and shape over the same memory: the host and native views agree. */
  lemma NativeValueViewAgrees(p: NativeTensor)
    requires FromOrtValue(Some(p)).Ok?
    ensures var v := FromOrtValue(Some(p)).value;
            ToArray(v).Ok? && GetType(v.tensor).Ok?
            && NpTypeToOrtType(ToArray(v).value.dtype) == GetType(v.tensor)
            && ToArray(v).value.shape == ToSizeShape(GetShape(v.tensor).value)
            && ToArray(v).value.data == GetData(v.tensor).value
  {
  }

  /** A value built from a host array hands the runtime that array's buffer,
      dtype and shape, but cannot be converted back to an array. */
  lemma HostValueIsNotConvertible(a: HostArray, memStatus: StatusPtr, createStatus: StatusPtr, created: nat)
    requires FromHostArray(a, memStatus, createStatus, created).Ok?
    ensures var v := FromHostArray(a, memStatus, createStatus, created).value;
            GetData(v.tensor) == (if a.data != 0 then Ok(a.data) else Err(NoTensorData))
            && GetShape(v.tensor) == Ok(a.shape)
            && OrtTypeToNpType(GetType(v.tensor).value) == Ok(a.dtype)
            && ToArray(v) == Err(NoNumpyArray)
  {
    HostRoundTrip(a.dtype);
  }

  /** Every accessor of an empty value refuses, except the handle, which is null. */
  lemma EmptyValueRefuses()
    ensures GetType(EmptyValue.tensor) == Err(ValueIsEmpty) && GetShape(EmptyValue.tensor) == Err(ValueIsEmpty)
    ensures GetSize(EmptyValue.tensor) == Err(ValueIsEmpty) && GetData(EmptyValue.tensor) == Err(ValueIsEmpty)
    ensures ToArray(EmptyValue) == Err(NoNumpyArray) && AsOrtValue(EmptyValue).None?
  {
  }

  /** Every constructor's value hands back, as `OrtValue*`, the handle the
      runtime created; only a value built over a native tensor converts to an
      array, and that array is the view of the very tensor it owns. */
  lemma ConstructedValuesConvert(p: NativeTensor, a: HostArray, shape: seq<int>, t: ElementType,
                                 memStatus: StatusPtr, allocStatus: StatusPtr, createStatus: StatusPtr,
                                 created: nat, data: nat, bytes: seq<int>)
    ensures FromOrtValue(Some(p)).Ok? ==>
              var v := FromOrtValue(Some(p)).value;
              AsOrtValue(v) == Some(p.handle) && ToArray(v) == ViewOf(p)
    ensures FromHostArray(a, memStatus, createStatus, created).Ok? ==>
              var v := FromHostArray(a, memStatus, createStatus, created).value;
              AsOrtValue(v) == Some(created) && ToArray(v) == Err(NoNumpyArray)
    ensures FromShape(shape, t, allocStatus, createStatus, created, data, bytes).Ok? ==>
              var v := FromShape(shape, t, allocStatus, createStatus, created, data, bytes).value;
              && AsOrtValue(v) == Some(created)
              && ToArray(v) == ViewOf(NativeTensor(created, t, shape, data, bytes))
              && NpTypeToOrtType(ToArray(v).value.dtype) == Ok(t)
              && ToArray(v).value.shape == ToSizeShape(shape)
              && ToArray(v).value.data == data && ToArray(v).value.bytes == bytes
  {
  }
}

=== FILE: numpy_types.dfy ===
/** Element-type tables of the pybind11 binding, keyed by numpy type kinds.
    Which numpy kind `pybind11::dtype::of<intN_t>()` yields depends on the C
    data model of the platform (how wide `long` is), so that is a parameter. */
module NumpyTypes {
  import opened Wrappers
  import opened Errors
  import opened ElementTypes

  /** The numpy type kinds the binding names; `NpyOther` is any other type
      number (complex, string, object, ...). */
  datatype NpyType =
    | NpyBool | NpyByte | NpyUByte | NpyShort | NpyUShort
    | NpyInt | NpyUInt | NpyLong | NpyULong | NpyLongLong | NpyULongLong
    | NpyFloat | NpyDouble | NpyHalf
    | NpyOther(typeNum: int)

  /** LLP64: `long` is 32 bits (64-bit Windows). LP64: `long` is 64 bits
      (64-bit Linux and macOS). */
  datatype DataModel = LLP64 | LP64

  /** `Value::NpTypeToOrtType` as written: a switch on the numpy type number
      that sends both `int` and `long` to INT32, whatever the platform. */
  function NpTypeToOrtType(n: NpyType): (r: Result<ElementType, Error>)
    ensures r.Ok? <==> !n.NpyOther?
    ensures r.Err? ==> r.error == UnsupportedNumpyType(n.typeNum)
    ensures r.Ok? ==> r.value in SupportedElementTypes
    ensures n in {NpyInt, NpyLong} ==> r == Ok(ElemInt32)
    ensures n in {NpyUInt, NpyULong} ==> r == Ok(ElemUint32)
    ensures n == NpyHalf ==> r == Ok(ElemFloat16)
  {
    match n
    case NpyBool => Ok(ElemBool)
    case NpyByte => Ok(ElemInt8)
    case NpyUByte => Ok(ElemUint8)
    case NpyShort => Ok(ElemInt16)
    case NpyUShort => Ok(ElemUint16)
    case NpyInt => Ok(ElemInt32)
    case NpyLong => Ok(ElemInt32)
    case NpyUInt => Ok(ElemUint32)
    case NpyULong => Ok(ElemUint32)
    case NpyLongLong => Ok(ElemInt64)
    case NpyULongLong => Ok(ElemUint64)
    case NpyFloat => Ok(ElemFloat)
    case NpyDouble => Ok(ElemDouble)
    case NpyHalf => Ok(ElemFloat16)
    case NpyOther(k) => Err(UnsupportedNumpyType(k))
  }

  /** `pybind11::dtype::of<std::int32_t>()` and friends: the first of
      `long`, `int` whose width matches, as pybind11 resolves it. */
  function Int32Kind(dm: DataModel): NpyType {
    if dm == LLP64 then NpyLong else NpyInt
  }

  function Uint32Kind(dm: DataModel): NpyType {
    if dm == LLP64 then NpyULong else NpyUInt
  }

  function Int64Kind(dm: DataModel): NpyType {
    if dm == LLP64 then NpyLongLong else NpyLong
  }

  function Uint64Kind(dm: DataModel): NpyType {
    if dm == LLP64 then NpyULongLong else NpyULong
  }

  /** `Value::OrtTypeToNpType`: defined on exactly the twelve supported tags. */
  function OrtTypeToNpType(dm: DataModel, t: ElementType): (r: Result<NpyType, Error>)
    ensures r.Ok? <==> t in SupportedElementTypes
    ensures r.Err? ==> r.error == UnsupportedElementType(t)
    ensures r.Ok? ==> !r.value.NpyOther?
  {
    if t == ElemFloat then Ok(NpyFloat)
    else if t == ElemUint8 then Ok(NpyUByte)
    else if t == ElemInt8 then Ok(NpyByte)
    else if t == ElemUint16 then Ok(NpyUShort)
    else if t == ElemInt16 then Ok(NpyShort)
    else if t == ElemInt32 then Ok(Int32Kind(dm))
    else if t == ElemInt64 then Ok(Int64Kind(dm))
    else if t == ElemBool then Ok(NpyBool)
    else if t == ElemFloat16 then Ok(NpyHalf)
    else if t == ElemDouble then Ok(NpyDouble)
    else if t == ElemUint32 then Ok(Uint32Kind(dm))
    else if t == ElemUint64 then Ok(Uint64Kind(dm))
    else Err(UnsupportedElementType(t))
  }

  /** On Windows the as-written table is a left inverse of `OrtTypeToNpType`:
      native -> host -> native is the identity on the twelve tags. */
  lemma NativeRoundTripOnWindows(t: ElementType)
    requires t in SupportedElementTypes
    ensures NpTypeToOrtType(OrtTypeToNpType(LLP64, t).value) == Ok(t)
  {
  }

  /** The table is many-to-one, so host -> native -> host is not the identity:
      a C `int` array comes back as a `long` array on Windows. */
  lemma HostRoundTripNotIdentity()
    ensures NpTypeToOrtType(NpyInt) == NpTypeToOrtType(NpyLong)
    ensures NpTypeToOrtType(NpyUInt) == NpTypeToOrtType(NpyULong)
    ensures OrtTypeToNpType(LLP64, NpTypeToOrtType(NpyInt).value) == Ok(NpyLong)
    ensures OrtTypeToNpType(LLP64, NpTypeToOrtType(NpyUInt).value) == Ok(NpyULong)
  {
  }

  /** As written, on an LP64 platform a 64-bit integer array (numpy `long`)
      is handed to the runtime as INT32, and an INT64 output does not map back. */
  lemma Lp64RoundTripFails()
    ensures OrtTypeToNpType(LP64, ElemInt64) == Ok(NpyLong)
    ensures NpTypeToOrtType(NpyLong) == Ok(ElemInt32)
    ensures NpTypeToOrtType(OrtTypeToNpType(LP64, ElemInt64).value) != Ok(ElemInt64)
    ensures NpTypeToOrtType(OrtTypeToNpType(LP64, ElemUint64).value) != Ok(ElemUint64)
  {
  }

  /** Exactly when the as-written table maps an output's kind back to the
      output's tag: always on Windows, and on LP64 for every tag but the two
      64-bit integers, which come back as their 32-bit counterparts. */
  lemma WrittenRoundTripExactly(dm: DataModel, t: ElementType)
    requires t in SupportedElementTypes
    ensures NpTypeToOrtType(OrtTypeToNpType(dm, t).value) == Ok(t)
            <==> dm == LLP64 || (t != ElemInt64 && t != ElemUint64)
    ensures dm == LP64 && t == ElemInt64 ==> NpTypeToOrtType(OrtTypeToNpType(dm, t).value) == Ok(ElemInt32)
    ensures dm == LP64 && t == ElemUint64 ==> NpTypeToOrtType(OrtTypeToNpType(dm, t).value) == Ok(ElemUint32)
  {
  }

  /** The evidently intended table: `long` maps by its width on the platform. */
  function HostToNative(dm: DataModel, n: NpyType): (r: Result<ElementType, Error>)
    ensures r.Ok? <==> !n.NpyOther?
    ensures r.Err? ==> r.error == UnsupportedNumpyType(n.typeNum)
    ensures r.Ok? ==> r.value in SupportedElementTypes
    ensures dm == LLP64 ==> r == NpTypeToOrtType(n)
  {
    match n
    case NpyLong => if dm == LLP64 then Ok(ElemInt32) else Ok(ElemInt64)
    case NpyULong => if dm == LLP64 then Ok(ElemUint32) else Ok(ElemUint64)
    case _ => NpTypeToOrtType(n)
  }

  /** With the intended table native -> host -> native is the identity on
      every platform. */
  lemma NativeRoundTripFor(dm: DataModel, t: ElementType)
    requires t in SupportedElementTypes
    ensures OrtTypeToNpType(dm, t).Ok?
    ensures HostToNative(dm, OrtTypeToNpType(dm, t).value) == Ok(t)
  {
  }

  /** Byte width of one element of a host kind, as numpy defines it. */
  function KindWidth(dm: DataModel, n: NpyType): nat {
    match n
    case NpyBool => 1
    case NpyByte => 1
    case NpyUByte => 1
    case NpyShort => 2
    case NpyUShort => 2
    case NpyInt => 4
    case NpyUInt => 4
    case NpyLong => if dm == LLP64 then 4 else 8
    case NpyULong => if dm == LLP64 then 4 else 8
    case NpyLongLong => 8
    case NpyULongLong => 8
    case NpyFloat => 4
    case NpyDouble => 8
    case NpyHalf => 2
    case NpyOther(_) => 0
  }

  /** The intended table preserves element width on every platform; the
      as-written one does not on LP64 (8-byte `long` tagged as 4-byte INT32). */
  lemma HostToNativeKeepsWidth(dm: DataModel, n: NpyType)
    requires !n.NpyOther?
    ensures GetSizeOfOrtType(HostToNative(dm, n).value) == Ok(KindWidth(dm, n))
    ensures GetSizeOfOrtType(NpTypeToOrtType(NpyLong).value) != Ok(KindWidth(LP64, NpyLong))
  {
  }
}

=== FILE: ownership.dfy ===
/** `OrtTypeWrapper<T, Derived>`: the move-only owner of one native handle that
    every native object class derives from (identical in both bindings).

    The model is a world of live wrapper objects, each holding a native handle
    or null, plus the log of `ReleaseOrtType` calls. Copying is deleted in the
    source, so the only operations are construction, destruction and the two
    moves. */
module Ownership {
  import opened Wrappers

  /** The `_ptr` member: null or a native handle. */
  datatype Ptr = Null | Handle(id: nat)

  /** `slots` maps each live wrapper object to its `_ptr`; `released` logs
      `ReleaseOrtType` calls in order; handles `0 .. next-1` have been created
      by the native API so far. */
  datatype World = World(slots: map<nat, Ptr>, released: seq<nat>, next: nat)

  const Empty := World(map[], [], 0)

  datatype Op =
    | Construct(obj: nat, nonNull: bool)  // `OrtTypeWrapper(T* ptr)` with a fresh handle, or null
    | Destroy(obj: nat)                   // `~OrtTypeWrapper()`
    | MoveConstruct(dst: nat, src: nat)   // `OrtTypeWrapper(OrtTypeWrapper&&)`
    | MoveAssign(dst: nat, src: nat)      // `operator=(OrtTypeWrapper&&)`

  /** An operation on a live object, or a construction into a fresh one. */
  predicate Enabled(w: World, op: Op) {
    match op
    case Construct(o, _) => o !in w.slots
    case Destroy(o) => o in w.slots
    case MoveConstruct(d, s) => d !in w.slots && s in w.slots
    case MoveAssign(d, s) => d in w.slots && s in w.slots
  }

  /** The release a destructor or a move assignment performs on what it held. */
  function ReleaseOf(p: Ptr): seq<nat> {
    if p.Handle? then [p.id] else []
  }

  function Step(w: World, op: Op): (r: World)
    requires Enabled(w, op)
    ensures r.next >= w.next && w.released <= r.released
  {
    match op
    case Construct(o, nonNull) =>
      if nonNull then World(w.slots[o := Handle(w.next)], w.released, w.next + 1)
      else World(w.slots[o := Null], w.released, w.next)
    case Destroy(o) =>
      World(w.slots - {o}, w.released + ReleaseOf(w.slots[o]), w.next)
    case MoveConstruct(d, s) =>
      World(w.slots[d := w.slots[s]][s := Null], w.released, w.next)
    case MoveAssign(d, s) =>
      if d == s then w
      else World(w.slots[d := w.slots[s]][s := Null], w.released + ReleaseOf(w.slots[d]), w.next)
  }

  /** Runs a sequence of operations; `None` if one of them touches a dead
      object or constructs into a live one. */
  function Replay(w: World, ops: seq<Op>): Option<World>
    decreases |ops|
  {
    if |ops| == 0 then Some(w)
    else if !Enabled(w, ops[0]) then None
    else Replay(Step(w, ops[0]), ops[1..])
  }

  // ---------------------------------------------------------------------
  // The ownership invariant

  predicate Held(w: World, h: nat) {
    exists o :: o in w.slots && w.slots[o] == Handle(h)
  }

  predicate NoDuplicates(s: seq<nat>) {
    forall i, j :: 0 <= i < j < |s| ==> s[i] != s[j]
  }

  /** Every created handle is owned by exactly one live wrapper or has been
      released exactly once, never both. */
  predicate Inv(w: World) {
    && (forall o :: o in w.slots && w.slots[o].Handle? ==>
          w.slots[o].id < w.next && w.slots[o].id !in w.released)
    && (forall o1, o2 :: o1 in w.slots && o2 in w.slots && o1 != o2 && w.slots[o1].Handle? ==>
          w.slots[o1] != w.slots[o2])
    && (forall i :: 0 <= i < |w.released| ==> w.released[i] < w.next)
    && NoDuplicates(w.released)
    && (forall h :: 0 <= h < w.next ==> h in w.released || Held(w, h))
  }

  lemma InvEmpty()
    ensures Inv(Empty)
  {
  }

  /** Every wrapper operation keeps the invariant. */
  lemma StepPreservesInv(w: World, op: Op)
    requires Inv(w) && Enabled(w, op)
    ensures Inv(Step(w, op))
  {
    match op
    case Construct(o, nonNull) => ConstructPreservesInv(w, o, nonNull);
    case Destroy(o) => DestroyPreservesInv(w, o);
    case MoveConstruct(d, s) => MoveConstructPreservesInv(w, d, s);
    case MoveAssign(d, s) => MoveAssignPreservesInv(w, d, s);
  }

  lemma ConstructPreservesInv(w: World, o: nat, nonNull: bool)
    requires Inv(w) && Enabled(w, Construct(o, nonNull))
    ensures Inv(Step(w, Construct(o, nonNull)))
  {
    var r := Step(w, Construct(o, nonNull));
    forall h | 0 <= h < r.next
      ensures h in r.released || Held(r, h)
    {
      if h == w.next {
        assert r.slots[o] == Handle(h);
      } else if h !in w.released {
        var o2 :| o2 in w.slots && w.slots[o2] == Handle(h);
        assert r.slots[o2] == Handle(h);
      }
    }
  }

  /** Releasing what a live wrapper holds keeps the log free of duplicates
      and within the created handles. */
  lemma ReleaseKeepsLog(w: World, o: nat)
    requires Inv(w) && o in w.slots
    ensures var log := w.released + ReleaseOf(w.slots[o]);
            NoDuplicates(log) && forall i :: 0 <= i < |log| ==> log[i] < w.next
  {
    var log := w.released + ReleaseOf(w.slots[o]);
    assert forall i :: 0 <= i < |w.released| ==> log[i] == w.released[i];
  }

  lemma DestroyPreservesInv(w: World, o: nat)
    requires Inv(w) && Enabled(w, Destroy(o))
    ensures Inv(Step(w, Destroy(o)))
  {
    var r := Step(w, Destroy(o));
    ReleaseKeepsLog(w, o);
    forall h | 0 <= h < r.next
      ensures h in r.released || Held(r, h)
    {
      if h !in w.released && w.slots[o] != Handle(h) {
        var o2 :| o2 in w.slots && w.slots[o2] == Handle(h);
        assert o2 != o && r.slots[o2] == Handle(h);
      }
    }
  }

  lemma MoveConstructPreservesInv(w: World, d: nat, s: nat)
    requires Inv(w) && Enabled(w, MoveConstruct(d, s))
    ensures Inv(Step(w, MoveConstruct(d, s)))
  {
    var r := Step(w, MoveConstruct(d, s));
    forall h | 0 <= h < r.next
      ensures h in r.released || Held(r, h)
    {
      if h !in w.released {
        var o2 :| o2 in w.slots && w.slots[o2] == Handle(h);
        if o2 == s {
          assert r.slots[d] == Handle(h);
        } else {
          assert r.slots[o2] == Handle(h);
        }
      }
    }
  }

  lemma MoveAssignPreservesInv(w: World, d: nat, s: nat)
    requires Inv(w) && Enabled(w, MoveAssign(d, s))
    ensures Inv(Step(w, MoveAssign(d, s)))
  {
    if d != s {
      var r := Step(w, MoveAssign(d, s));
      ReleaseKeepsLog(w, d);
      assert r.slots == w.slots[d := w.slots[s]][s := Null];
      forall h | 0 <= h < r.next
        ensures h in r.released || Held(r, h)
      {
        if h !in w.released && w.slots[d] != Handle(h) {
          var o2 :| o2 in w.slots && w.slots[o2] == Handle(h);
          if o2 == s {
            assert r.slots[d] == Handle(h);
          } else {
            assert o2 != d && r.slots[o2] == Handle(h);
          }
        }
      }
    }
  }

  lemma {:induction false} ReplayPreservesInv(w: World, ops: seq<Op>)
    requires Inv(w)
    ensures Replay(w, ops).Some? ==> Inv(Replay(w, ops).value)
    decreases |ops|
  {
    if |ops| > 0 && Enabled(w, ops[0]) {
      StepPreservesInv(w, ops[0]);
      ReplayPreservesInv(Step(w, ops[0]), ops[1..]);
    }
  }

  /** The ownership theorem: in any run of wrapper operations, no handle is
      ever released twice, and once every wrapper has been destroyed each
      created handle has been released exactly once. */
  lemma ReleasedExactlyOnce(ops: seq<Op>)
    requires Replay(Empty, ops).Some?
    ensures NoDuplicates(Replay(Empty, ops).value.released)
    ensures var w := Replay(Empty, ops).value;
            w.slots == map[] ==> forall h :: h in w.released <==> 0 <= h < w.next
  {
    InvEmpty();
    ReplayPreservesInv(Empty, ops);
  }

  /** A run of two parts is the second part replayed from where the first
      left off. */
  lemma {:induction false} ReplayAppend(w: World, a: seq<Op>, b: seq<Op>)
    ensures Replay(w, a + b) == if Replay(w, a).None? then None else Replay(Replay(w, a).value, b)
    decreases |a|
  {
    if |a| > 0 {
      assert (a + b)[0] == a[0];
      assert (a + b)[1..] == a[1..] + b;
      if Enabled(w, a[0]) {
        ReplayAppend(Step(w, a[0]), a[1..], b);
      }
    } else {
      assert a + b == b;
    }
  }

  // ---------------------------------------------------------------------
  // Single operations

  /** After a move construction the source is null, the destination owns what
      the source owned, nothing is released, and every other wrapper is
      untouched. */
  lemma MoveConstructTransfers(w: World, d: nat, s: nat)
    requires Enabled(w, MoveConstruct(d, s))
    ensures Step(w, MoveConstruct(d, s)).slots[d] == w.slots[s]
    ensures Step(w, MoveConstruct(d, s)).slots[s] == Null
    ensures Step(w, MoveConstruct(d, s)).released == w.released
    ensures Step(w, MoveConstruct(d, s)).slots.Keys == w.slots.Keys + {d}
    ensures forall o :: o in w.slots && o != s ==> Step(w, MoveConstruct(d, s)).slots[o] == w.slots[o]
  {
  }

  /** A move assignment releases exactly what the destination held before,
      takes the source's pointer and nulls the source, and leaves every other
      wrapper untouched; a self-assignment changes nothing. */
  lemma MoveAssignReleasesOld(w: World, d: nat, s: nat)
    requires Inv(w) && Enabled(w, MoveAssign(d, s))
    ensures d == s ==> Step(w, MoveAssign(d, s)) == w
    ensures d != s ==> Step(w, MoveAssign(d, s)).released == w.released + ReleaseOf(w.slots[d])
    ensures d != s ==> Step(w, MoveAssign(d, s)).slots[d] == w.slots[s]
    ensures d != s ==> Step(w, MoveAssign(d, s)).slots[s] == Null
    ensures Step(w, MoveAssign(d, s)).slots.Keys == w.slots.Keys
    ensures forall o :: o in w.slots && o != d && o != s ==> Step(w, MoveAssign(d, s)).slots[o] == w.slots[o]
    ensures d != s && w.slots[s].Handle? ==> w.slots[s] != w.slots[d]
  {
  }

  /** Destroying a moved-from (null) wrapper releases nothing. */
  lemma DestroyNullReleasesNothing(w: World, o: nat)
    requires o in w.slots && w.slots[o] == Null
    ensures Step(w, Destroy(o)).released == w.released
  {
  }

  /** `operator T*`: the pointer a live wrapper lends out is never one that has
      been released. */
  function Borrow(w: World, o: nat): (p: Ptr)
    requires Inv(w) && o in w.slots
    ensures p.Handle? ==> p.id !in w.released && p.id < w.next
  {
    w.slots[o]
  }
}

=== FILE: py_strings.dfy ===
/** The few Python `str` operations the build scripts rely on, with the
    semantics CPython gives them for a one-character separator. */
module PyStrings {

  /** `sep.join(parts)` for a non-empty list of parts. */
  function Join(parts: seq<string>, sep: string): string
    requires |parts| >= 1
    decreases |parts|
  {
    if |parts| == 1 then parts[0] else parts[0] + sep + Join(parts[1..], sep)
  }

  /** Text joined from two or more pieces starts with the first two and a
      separator between them, followed by its end or another separator. */
  lemma JoinHead2(parts: seq<string>, sep: char)
    requires |parts| >= 2
    ensures var s := Join(parts, [sep]);
            var mm := parts[0] + [sep] + parts[1];
            |mm| <= |s| && s[..|mm|] == mm && (|s| == |mm| || s[|mm|] == sep)
  {
    var mm := parts[0] + [sep] + parts[1];
    var tail: string := if |parts| == 2 then [] else [sep] + Join(parts[2..], [sep]);
    assert Join(parts[1..], [sep]) == parts[1] + tail by {
      assert parts[1..][0] == parts[1];
      if |parts| > 2 {
        assert parts[1..][1..] == parts[2..];
      }
    }
    assert Join(parts, [sep]) == mm + tail;
  }

  /** `s.split(sep)`: the maximal pieces between separators; `"".split(".")`
      is `[""]`, so there is always at least one piece. */
  function Split(s: string, sep: char): (r: seq<string>)
    ensures |r| >= 1
    ensures forall i :: 0 <= i < |r| ==> sep !in r[i]
    ensures Join(r, [sep]) == s
    ensures |r| >= 2 <==> sep in s
    decreases |s|
  {
    if |s| == 0 then [""]
    else if s[0] == sep then
      var rest := Split(s[1..], sep);
      assert s == [sep] + s[1..];
      [""] + rest
    else
      var rest := Split(s[1..], sep);
      assert s == [s[0]] + s[1..];
      JoinExtend(s[0], rest, [sep]);
      [[s[0]] + rest[0]] + rest[1..]
  }

  /** Extending the first piece extends the joined text. */
  lemma JoinExtend(c: char, parts: seq<string>, sep: string)
    requires |parts| >= 1
    ensures Join([[c] + parts[0]] + parts[1..], sep) == [c] + Join(parts, sep)
  {
    var ext := [[c] + parts[0]] + parts[1..];
    if |parts| >= 2 {
      assert ext[1..] == parts[1..];
    }
  }

  /** Splitting the joined text of separator-free pieces gives the pieces back. */
  lemma {:induction false} SplitJoin(parts: seq<string>, sep: char)
    requires |parts| >= 1
    requires forall i :: 0 <= i < |parts| ==> sep !in parts[i]
    ensures Split(Join(parts, [sep]), sep) == parts
    decreases |parts|
  {
    if |parts| == 1 {
      SplitOfSeparatorFree(parts[0], sep);
    } else {
      SplitJoin(parts[1..], sep);
      SplitPrefix(parts[0], Join(parts[1..], [sep]), sep);
      assert parts == [parts[0]] + parts[1..];
    }
  }

  /** Text without a separator is a single piece. */
  lemma {:induction false} SplitOfSeparatorFree(s: string, sep: char)
    requires sep !in s
    ensures Split(s, sep) == [s]
  {
  }

  /** One step of the split: a leading separator closes an empty piece,
      any other character extends the first piece. */
  lemma SplitCons(c: char, t: string, sep: char)
    ensures c == sep ==> Split([c] + t, sep) == [""] + Split(t, sep)
    ensures c != sep ==> Split([c] + t, sep) == [[c] + Split(t, sep)[0]] + Split(t, sep)[1..]
  {
    assert ([c] + t)[1..] == t;
  }

  /** A separator-free head followed by a separator splits off as the first piece. */
  lemma {:induction false} SplitPrefix(head: string, tail: string, sep: char)
    requires sep !in head
    ensures Split(head + [sep] + tail, sep) == [head] + Split(tail, sep)
    decreases |head|
  {
    if |head| == 0 {
      assert head + [sep] + tail == [sep] + tail;
      SplitCons(sep, tail, sep);
    } else {
      var t := head[1..] + [sep] + tail;
      assert head + [sep] + tail == [head[0]] + t;
      SplitPrefix(head[1..], tail, sep);
      SplitCons(head[0], t, sep);
      assert [head[0]] + head[1..] == head;
    }
  }

  /** The first two pieces of `major.minor` followed by more segments. */
  lemma SplitMajorMinor(major: string, minor: string, rest: string)
    requires '.' !in major && '.' !in minor
    requires |rest| == 0 || rest[0] == '.'
    ensures |Split(major + "." + minor + rest, '.')| >= 2
    ensures Split(major + "." + minor + rest, '.')[..2] == [major, minor]
  {
    var t := minor + rest;
    assert major + "." + minor + rest == major + ['.'] + t;
    SplitPrefix(major, t, '.');
    FirstPiece(minor, rest, '.');
  }

  /** A separator-free text followed by nothing or a separator is the first piece. */
  lemma FirstPiece(head: string, rest: string, sep: char)
    requires sep !in head
    requires |rest| == 0 || rest[0] == sep
    ensures Split(head + rest, sep)[0] == head
  {
    if |rest| == 0 {
      assert head + rest == head;
      SplitOfSeparatorFree(head, sep);
    } else {
      assert head + rest == head + [sep] + rest[1..];
      SplitPrefix(head, rest[1..], sep);
    }
  }

  /** `s.lstrip(chars)`: drop every leading character that is in `chars`. */
  function LStrip(s: string, chars: set<char>): (r: string)
    ensures |r| <= |s| && r == s[|s| - |r|..]
    ensures |r| > 0 ==> r[0] !in chars
    ensures forall i :: 0 <= i < |s| - |r| ==> s[i] in chars
    decreases |s|
  {
    if |s| > 0 && s[0] in chars then LStrip(s[1..], chars) else s
  }

  /** Stripping removes exactly a leading run of stripped characters when
      what follows it does not start with one. */
  lemma {:induction false} LStripPrefix(p: string, x: string, chars: set<char>)
    requires forall i :: 0 <= i < |p| ==> p[i] in chars
    requires |x| == 0 || x[0] !in chars
    ensures LStrip(p + x, chars) == x
    decreases |p|
  {
    if |p| > 0 {
      assert (p + x)[1..] == p[1..] + x;
      LStripPrefix(p[1..], x, chars);
    }
  }

  /** Concatenation regroups: the step that joins `major.minor` to a suffix. */
  lemma AppendAssoc(x: string, y: string, z: string)
    ensures x + y + z == x + (y + z)
  {
  }

  /** `s.startswith(prefix)`. */
  predicate StartsWith(s: string, prefix: string) {
    prefix <= s
  }

  predicate IsDigitChar(c: char) {
    '0' <= c <= '9'
  }

  /** `s.isdigit()` restricted to ASCII digits: true iff non-empty and all digits. */
  predicate IsDigits(s: string) {
    |s| > 0 && forall i :: 0 <= i < |s| ==> IsDigitChar(s[i])
  }

  /** A run of digits contains no dot. */
  lemma DigitsHaveNoDot(s: string)
    requires IsDigits(s)
    ensures '.' !in s
  {
    assert forall i :: 0 <= i < |s| ==> s[i] != '.';
  }

  /** `str(n)` / `std::to_string(n)` of an integer, in decimal. */
  function DecimalString(n: int): string
    decreases if n < 0 then -n + 1 else n
  {
    if n < 0 then "-" + DecimalString(-n)
    else if n < 10 then [DigitChar(n)]
    else DecimalString(n / 10) + [DigitChar(n % 10)]
  }

  function DigitChar(d: int): char
    requires 0 <= d < 10
  {
    ['0', '1', '2', '3', '4', '5', '6', '7', '8', '9'][d]
  }
}

=== FILE: py_value.dfy ===
/** The pybind11 binding's `Value`: an owned native tensor plus a cached host
    array. Converting a runtime-made tensor copies its data into a new array
    once and caches it; a value made from an array caches that array. */
module PyValue {
  import opened Wrappers
  import opened Errors
  import ET = ElementTypes
  import opened NumpyTypes
  import opened Status
  import opened ByteSize
  import opened Tensors

  /** A numpy array: identity, kind, shape, the buffer address
      (`mutable_data()`), whether numpy lets it be written, and the buffer
      contents. */
  datatype PyArray = PyArray(id: nat, kind: NpyType, shape: seq<int>, data: nat, writeable: bool, bytes: seq<int>)

  /** `_ptr` (null for an empty value) and `_npArray`. */
  datatype Value = Value(tensor: Option<NativeTensor>, cache: Option<PyArray>)

  /** The first `size` bytes of the tensor buffer, as `memcpy` reads them. */
  function CopyOut(t: NativeTensor, size: nat): seq<int> {
    if size <= |t.bytes| then t.bytes[..size] else t.bytes
  }

  /** `operator pybind11::array`: the cached array if there is one; otherwise
      a new array of the matching kind and shape (numpy refuses a negative
      dimension) filled with a copy of the tensor data, which becomes the
      cache. `newId` and `newData` are the identity and buffer address numpy
      gives the new array. */
  function ToArray(dm: DataModel, v: Value, newId: nat, newData: nat): (r: Result<(Value, PyArray), Error>)
    ensures v.cache.Some? ==> r == Ok((v, v.cache.value))
    ensures v.cache.None? && v.tensor.None? ==> r == Err(ValueIsEmpty)
    ensures v.cache.None? && v.tensor.Some? ==>
              (r.Ok? <==> WellTyped(v.tensor.value) && v.tensor.value.data != 0)
    ensures v.cache.None? && v.tensor.Some? && v.tensor.value.elementType !in ET.SupportedElementTypes ==>
              r == Err(UnsupportedElementType(v.tensor.value.elementType))
    ensures v.cache.None? && r.Ok? ==>
              var t := v.tensor.value;
              && r.value.1 == PyArray(newId, OrtTypeToNpType(dm, t.elementType).value, t.shape, newData, true,
                                      CopyOut(t, GetSize(v.tensor).value))
              && r.value.0 == Value(v.tensor, Some(r.value.1))
  {
    if v.cache.Some? then Ok((v, v.cache.value))
    else
      var shape :- GetShape(v.tensor);
      var t := v.tensor.value;
      var npType :- OrtTypeToNpType(dm, t.elementType);
      if !AllNonNegative(shape) then Err(NegativeArrayDimension)
      else
        var data :- GetData(v.tensor);
        var size := ByteCount(t.elementType, shape).value;
        var a := PyArray(newId, npType, shape, newData, true, CopyOut(t, size));
        Ok((Value(v.tensor, Some(a)), a))
  }

  /** The tensor can be given a host array at all. */
  predicate WellTyped(t: NativeTensor) {
    t.elementType in ET.SupportedElementTypes && AllNonNegative(t.shape)
  }

  /** Converting twice gives the same array object, and the second call
      changes nothing. */
  lemma ToArrayIdempotent(dm: DataModel, v: Value, newId1: nat, newData1: nat, newId2: nat, newData2: nat)
    requires ToArray(dm, v, newId1, newData1).Ok?
    ensures var (v1, a1) := ToArray(dm, v, newId1, newData1).value;
            ToArray(dm, v1, newId2, newData2) == Ok((v1, a1))
  {
  }

  /** The copy is the whole tensor buffer, and the new array has exactly the
      byte size of the tensor: element widths agree on every platform. */
  lemma ToArrayCopiesContents(dm: DataModel, v: Value, newId: nat, newData: nat)
    requires v.cache.None? && v.tensor.Some? && WellFormed(v.tensor.value) && v.tensor.value.data != 0
    ensures ToArray(dm, v, newId, newData).Ok?
    ensures var a := ToArray(dm, v, newId, newData).value.1;
            a.bytes == v.tensor.value.bytes
            && KindWidth(dm, a.kind) == ET.GetSizeOfOrtType(v.tensor.value.elementType).value
  {
    var t := v.tensor.value;
    assert GetSize(v.tensor) == Ok(|t.bytes|);
    assert t.bytes[..|t.bytes|] == t.bytes;
  }

  /** `Value(const pybind11::array&)`: the kind goes through the as-written
      table, then the `MemoryInfo` constructor runs (`memStatus` is what
      `CreateCpuMemoryInfo` returns), then `mutable_data()` refuses a
      read-only array, then a tensor is created over the array's buffer; the
      array is kept as the cache. `created` is the handle of the new tensor. */
  function FromArray(a: PyArray, memStatus: StatusPtr, createStatus: StatusPtr, created: nat)
    : (r: Result<Value, Error>)
    ensures a.kind.NpyOther? ==> r == Err(UnsupportedNumpyType(a.kind.typeNum))
    ensures !a.kind.NpyOther? && !Succeeded(memStatus) ==> r == Err(NativeError(memStatus.value.message))
    ensures !a.kind.NpyOther? && Succeeded(memStatus) && !a.writeable ==> r == Err(ArrayNotWriteable)
    ensures !a.kind.NpyOther? && Succeeded(memStatus) && a.writeable && !Succeeded(createStatus) ==>
              r == Err(NativeError(createStatus.value.message))
    ensures r.Ok? <==> !a.kind.NpyOther? && Succeeded(memStatus) && a.writeable && Succeeded(createStatus)
    ensures r.Ok? ==> r.value.cache == Some(a)
    ensures r.Ok? ==>
              r.value.tensor == Some(NativeTensor(created, NpTypeToOrtType(a.kind).value, a.shape, a.data, a.bytes))
  {
    var ortType :- NpTypeToOrtType(a.kind);
    var _ :- Check(memStatus);
    if !a.writeable then Err(ArrayNotWriteable)
    else
      var _ :- Check(createStatus);
      Ok(Value(Some(NativeTensor(created, ortType, a.shape, a.data, a.bytes)), Some(a)))
  }

  /** Host -> value -> host gives back the very same array object. */
  lemma ArrayRoundTrip(dm: DataModel, a: PyArray, memStatus: StatusPtr, createStatus: StatusPtr, created: nat,
                       newId: nat, newData: nat)
    requires FromArray(a, memStatus, createStatus, created).Ok?
    ensures var v := FromArray(a, memStatus, createStatus, created).value;
            ToArray(dm, v, newId, newData) == Ok((v, a))
  {
  }

  /** Feeding an output array (a new array, so writeable) back as an input:
      as written the tensor gets the output's tag back exactly when the
      platform is Windows or the tag is not a 64-bit integer. */
  lemma WrittenOutputRoundTrip(dm: DataModel, t: ET.ElementType, a: PyArray, memStatus: StatusPtr,
                               createStatus: StatusPtr, created: nat)
    requires t in ET.SupportedElementTypes && Succeeded(memStatus) && Succeeded(createStatus)
    requires a.kind == OrtTypeToNpType(dm, t).value && a.writeable
    ensures FromArray(a, memStatus, createStatus, created).Ok?
    ensures FromArray(a, memStatus, createStatus, created).value.tensor.value.elementType == t
            <==> dm == LLP64 || (t != ET.ElemInt64 && t != ET.ElemUint64)
  {
    WrittenRoundTripExactly(dm, t);
  }

  /** On LP64 a one-element 64-bit integer array (numpy `long`, 8 bytes) is
      tagged INT32 as written, so the tensor's byte size disagrees with its
      buffer; the intended table tags it INT64 and the sizes agree. */
  lemma LongArrayMislabelled()
    ensures var a := PyArray(0, NpyLong, [1], 1, true, [0, 0, 0, 0, 0, 0, 0, 0]);
            && KindWidth(LP64, a.kind) == |a.bytes|
            && FromArray(a, None, None, 1).Ok?
            && FromArray(a, None, None, 1).value.tensor.value.elementType == ET.ElemInt32
            && !WellFormed(FromArray(a, None, None, 1).value.tensor.value)
            && FromArrayIntended(LP64, a, None, None, 1).Ok?
            && FromArrayIntended(LP64, a, None, None, 1).value.tensor.value.elementType == ET.ElemInt64
            && WellFormed(FromArrayIntended(LP64, a, None, None, 1).value.tensor.value)
  {
    assert Product([1]) == 1 by { assert [1][1..] == []; }
  }

  /** The evidently intended constructor: the kind goes through the table that
      maps `long` by its platform width. */
  function FromArrayIntended(dm: DataModel, a: PyArray, memStatus: StatusPtr, createStatus: StatusPtr, created: nat)
    : (r: Result<Value, Error>)
    ensures r.Ok? <==> !a.kind.NpyOther? && Succeeded(memStatus) && a.writeable && Succeeded(createStatus)
    ensures dm == LLP64 ==> r == FromArray(a, memStatus, createStatus, created)
    ensures r.Ok? ==> r.value.cache == Some(a)
    ensures r.Ok? ==> r.value.tensor.Some? && r.value.tensor.value.bytes == a.bytes
    ensures r.Ok? ==> ET.GetSizeOfOrtType(r.value.tensor.value.elementType) == Ok(KindWidth(dm, a.kind))
  {
    var ortType :- HostToNative(dm, a.kind);
    HostToNativeKeepsWidth(dm, a.kind);
    var _ :- Check(memStatus);
    if !a.writeable then Err(ArrayNotWriteable)
    else
      var _ :- Check(createStatus);
      Ok(Value(Some(NativeTensor(created, ortType, a.shape, a.data, a.bytes)), Some(a)))
  }

  /** With the intended table an output array fed back as an input always gets
      the output's tag back. */
  lemma IntendedOutputRoundTrip(dm: DataModel, t: ET.ElementType, a: PyArray, memStatus: StatusPtr,
                                createStatus: StatusPtr, created: nat)
    requires t in ET.SupportedElementTypes && Succeeded(memStatus) && Succeeded(createStatus)
    requires a.kind == OrtTypeToNpType(dm, t).value && a.writeable
    ensures FromArrayIntended(dm, a, memStatus, createStatus, created).Ok?
    ensures FromArrayIntended(dm, a, memStatus, createStatus, created).value.tensor.value.elementType == t
  {
    NativeRoundTripFor(dm, t);
  }

  /** `Value(shape, type)`: the type is checked first, then numpy allocates the
      array (identity `newId`, its buffer at address `data` holding `fill`),
      then the `MemoryInfo` constructor runs (`memStatus`), then the runtime
      wraps that buffer. */
  function FromShape(dm: DataModel, shape: seq<int>, t: ET.ElementType, newId: nat, fill: seq<int>,
                     memStatus: StatusPtr, createStatus: StatusPtr, created: nat, data: nat)
    : (r: Result<Value, Error>)
    ensures t !in ET.SupportedElementTypes ==> r == Err(UnsupportedElementType(t))
    ensures t in ET.SupportedElementTypes && !AllNonNegative(shape) ==> r == Err(NegativeArrayDimension)
    ensures t in ET.SupportedElementTypes && AllNonNegative(shape) && !Succeeded(memStatus) ==>
              r == Err(NativeError(memStatus.value.message))
    ensures r.Ok? <==> t in ET.SupportedElementTypes && AllNonNegative(shape) && Succeeded(memStatus)
                       && Succeeded(createStatus)
    ensures r.Ok? ==> r.value.tensor == Some(NativeTensor(created, t, shape, data, fill))
    ensures r.Ok? ==> r.value.cache == Some(PyArray(newId, OrtTypeToNpType(dm, t).value, shape, data, true, fill))
  {
    var npType :- OrtTypeToNpType(dm, t);
    if !AllNonNegative(shape) then Err(NegativeArrayDimension)
    else
      var a := PyArray(newId, npType, shape, data, true, fill);
      var _ :- Check(memStatus);
      var _ :- Check(createStatus);
      Ok(Value(Some(NativeTensor(created, t, shape, a.data, a.bytes)), Some(a)))
  }

  /** A value made from a shape hands the host the array the runtime writes
      into; its kind maps back to the tensor's type through the as-written
      table except for 64-bit integers on LP64. */
  lemma FromShapeSharesBuffer(dm: DataModel, shape: seq<int>, t: ET.ElementType, newId: nat, fill: seq<int>,
                              memStatus: StatusPtr, createStatus: StatusPtr, created: nat, data: nat,
                              newId2: nat, newData2: nat)
    requires FromShape(dm, shape, t, newId, fill, memStatus, createStatus, created, data).Ok?
    ensures var v := FromShape(dm, shape, t, newId, fill, memStatus, createStatus, created, data).value;
            var (_, a) := ToArray(dm, v, newId2, newData2).value;
            a.id == newId && a.data == v.tensor.value.data && a.bytes == v.tensor.value.bytes
            && (NpTypeToOrtType(a.kind) == Ok(t) <==> dm == LLP64 || (t != ET.ElemInt64 && t != ET.ElemUint64))
  {
    WrittenRoundTripExactly(dm, t);
  }
}

=== FILE: script_errors.dfy ===
/** The Python exceptions the build scripts raise, with their messages. */
module ScriptErrors {
  datatype ScriptError =
    | ValueError(message: string)
    | KeyError(key: string)     // a missing dictionary key
    | RuntimeError(message: string)
    | IndexError                // indexing past the end of a list
}

=== FILE: session.dfy ===
/** `Session`: input/output descriptions and `Run`, for both bindings. The
    native session is a parameter: `Runtime` is what `OrtApi::Run` does with
    the names and tensors it is given. */
module Session {
  import opened Wrappers
  import opened Errors
  import opened ElementTypes
  import opened Status
  import opened Tensors
  import NbValue
  import PyValue
  import NumpyTypes
  import Ownership

  // ---------------------------------------------------------------------
  // Tensor descriptions

  /** One dimension of a declared input or output: its size (-1 when not
      fixed) and its symbolic name, which may be null. */
  datatype RawDim = RawDim(size: int, symbol: Option<string>)

  /** What the type-info queries report for one input or output. */
  datatype RawTypeInfo = RawTypeInfo(dims: seq<RawDim>, elementType: ElementType)

  /** `TensorInfo` of the nanobind binding. */
  datatype TensorInfo = TensorInfo(shape: seq<int>, dimensions: seq<string>, dtype: DType)

  /** `TensorInfo(const TypeInfo&)`: sizes, symbolic names (null read as ""),
      and the host dtype of the element type, which must be supported. */
  function MakeTensorInfo(t: RawTypeInfo): (r: Result<TensorInfo, Error>)
    ensures r.Ok? <==> t.elementType in SupportedElementTypes
    ensures r.Err? ==> r.error == UnsupportedElementType(t.elementType)
    ensures r.Ok? ==> |r.value.shape| == |t.dims| && |r.value.dimensions| == |t.dims|
    ensures r.Ok? ==> forall j :: 0 <= j < |t.dims| ==>
              r.value.shape[j] == t.dims[j].size
              && r.value.dimensions[j] == (if t.dims[j].symbol.Some? then t.dims[j].symbol.value else "")
    ensures r.Ok? ==> NpTypeToOrtType(r.value.dtype) == Ok(t.elementType)
  {
    var dtype :- OrtTypeToNpType(t.elementType);
    Ok(TensorInfo(
      seq(|t.dims|, j requires 0 <= j < |t.dims| => t.dims[j].size),
      seq(|t.dims|, j requires 0 <= j < |t.dims| =>
            if t.dims[j].symbol.Some? then t.dims[j].symbol.value else ""),
      dtype))
  }

  /** `TensorInfo` of the pybind11 binding: the same, with a numpy kind. */
  datatype PyTensorInfo = PyTensorInfo(shape: seq<int>, dimensions: seq<string>, kind: NumpyTypes.NpyType)

  function MakePyTensorInfo(dm: NumpyTypes.DataModel, t: RawTypeInfo): (r: Result<PyTensorInfo, Error>)
    ensures r.Ok? <==> MakeTensorInfo(t).Ok?
    ensures r.Err? ==> r.error == MakeTensorInfo(t).error
    ensures r.Ok? ==> r.value.shape == MakeTensorInfo(t).value.shape
                      && r.value.dimensions == MakeTensorInfo(t).value.dimensions
    ensures r.Ok? ==> r.value.kind == NumpyTypes.OrtTypeToNpType(dm, t.elementType).value
    ensures r.Ok? ==> (NumpyTypes.NpTypeToOrtType(r.value.kind) == Ok(t.elementType)
                       <==> dm == NumpyTypes.LLP64 || (t.elementType != ElemInt64 && t.elementType != ElemUint64))
  {
    var kind :- NumpyTypes.OrtTypeToNpType(dm, t.elementType);
    NumpyTypes.WrittenRoundTripExactly(dm, t.elementType);
    var info := MakeTensorInfo(t).value;
    Ok(PyTensorInfo(info.shape, info.dimensions, kind))
  }

  /** `GetInputInfo` / `GetOutputInfo`: each entry's description is built in
      order by `make` (the first failure throws; a duplicate name's
      description is still built) and `emplace` keeps the first entry of a
      name. */
  function CollectInfo<I>(make: RawTypeInfo -> Result<I, Error>, acc: map<string, I>,
                          entries: seq<(string, RawTypeInfo)>)
    : (r: Result<map<string, I>, Error>)
    ensures r.Ok? <==> forall i :: 0 <= i < |entries| ==> make(entries[i].1).Ok?
    decreases |entries|
  {
    if |entries| == 0 then Ok(acc)
    else
      var (name, raw) := entries[0];
      var info :- make(raw);
      var r := CollectInfo(make, if name in acc then acc else acc[name := info], entries[1..]);
      assert forall i :: 1 <= i < |entries| ==> entries[1..][i - 1] == entries[i];
      r
  }

  /** The nanobind `GetInputInfo` / `GetOutputInfo`. */
  function GetIoInfo(entries: seq<(string, RawTypeInfo)>): Result<map<string, TensorInfo>, Error> {
    CollectInfo(MakeTensorInfo, map[], entries)
  }

  /** The pybind11 `GetInputInfo` / `GetOutputInfo`. */
  function PyGetIoInfo(dm: NumpyTypes.DataModel, entries: seq<(string, RawTypeInfo)>)
    : Result<map<string, PyTensorInfo>, Error>
  {
    CollectInfo(t => MakePyTensorInfo(dm, t), map[], entries)
  }

  predicate Named(entries: seq<(string, RawTypeInfo)>, name: string) {
    exists i :: 0 <= i < |entries| && entries[i].0 == name
  }

  /** The index of the first entry called `name`. */
  function FirstNamed(entries: seq<(string, RawTypeInfo)>, name: string): (i: nat)
    requires Named(entries, name)
    ensures i < |entries| && entries[i].0 == name
    ensures forall j :: 0 <= j < i ==> entries[j].0 != name
    decreases |entries|
  {
    if entries[0].0 == name then 0
    else
      assert Named(entries[1..], name) by {
        var i :| 0 <= i < |entries| && entries[i].0 == name;
        assert entries[1..][i - 1] == entries[i];
      }
      1 + FirstNamed(entries[1..], name)
  }

  /** The collected map has exactly the entries' names as keys, each bound to
      the description of its first entry. */
  lemma {:induction false} CollectInfoSpec<I>(make: RawTypeInfo -> Result<I, Error>, acc: map<string, I>,
                                              entries: seq<(string, RawTypeInfo)>, name: string)
    requires CollectInfo(make, acc, entries).Ok?
    ensures name in CollectInfo(make, acc, entries).value <==> name in acc || Named(entries, name)
    ensures name in acc ==> CollectInfo(make, acc, entries).value[name] == acc[name]
    ensures name !in acc && Named(entries, name) ==>
              Ok(CollectInfo(make, acc, entries).value[name]) == make(entries[FirstNamed(entries, name)].1)
    decreases |entries|
  {
    if |entries| > 0 {
      var (n0, raw) := entries[0];
      var info := make(raw).value;
      var acc' := if n0 in acc then acc else acc[n0 := info];
      var tail := entries[1..];
      CollectInfoSpec(make, acc', tail, name);
      NamedCons(entries, name);
      if name !in acc && Named(entries, name) && n0 != name {
        assert FirstNamed(entries, name) == 1 + FirstNamed(tail, name);
        assert tail[FirstNamed(tail, name)] == entries[FirstNamed(entries, name)];
      }
    }
  }

  lemma NamedCons(entries: seq<(string, RawTypeInfo)>, name: string)
    requires |entries| > 0
    ensures Named(entries, name) <==> entries[0].0 == name || Named(entries[1..], name)
  {
    if Named(entries[1..], name) {
      var i :| 0 <= i < |entries[1..]| && entries[1..][i].0 == name;
      assert entries[i + 1] == entries[1..][i];
    }
    if Named(entries, name) && entries[0].0 != name {
      var i :| 0 <= i < |entries| && entries[i].0 == name;
      assert entries[1..][i - 1] == entries[i];
    }
  }

  lemma GetIoInfoSpec(entries: seq<(string, RawTypeInfo)>, name: string)
    requires GetIoInfo(entries).Ok?
    ensures name in GetIoInfo(entries).value <==> Named(entries, name)
    ensures Named(entries, name) ==>
              Ok(GetIoInfo(entries).value[name]) == MakeTensorInfo(entries[FirstNamed(entries, name)].1)
  {
    CollectInfoSpec(MakeTensorInfo, map[], entries, name);
  }

  /** A session whose declared types are all supported describes itself in
      both bindings, with the same shapes and symbolic dimensions. */
  lemma BindingsDescribeAlike(dm: NumpyTypes.DataModel, entries: seq<(string, RawTypeInfo)>, name: string)
    requires GetIoInfo(entries).Ok? && Named(entries, name)
    ensures PyGetIoInfo(dm, entries).Ok?
    ensures name in GetIoInfo(entries).value && name in PyGetIoInfo(dm, entries).value
    ensures var nb := GetIoInfo(entries).value[name];
            var py := PyGetIoInfo(dm, entries).value[name];
            nb.shape == py.shape && nb.dimensions == py.dimensions
  {
    var make := t => MakePyTensorInfo(dm, t);
    assert forall i :: 0 <= i < |entries| ==> make(entries[i].1).Ok?;
    CollectInfoSpec(MakeTensorInfo, map[], entries, name);
    CollectInfoSpec(make, map[], entries, name);
  }

  // ---------------------------------------------------------------------
  // Run

  /** What the native `Run` reports: its status and the output slots it
      filled, in the order of the requested output names. */
  datatype NativeRun = NativeRun(status: StatusPtr, outputs: seq<Option<NativeTensor>>)

  /** The native session: input names, input tensors, output names. */
  type Runtime = (seq<string>, seq<NativeTensor>, seq<string>) -> NativeRun

  /** The output slot `i` after the call: a slot the runtime did not fill
      keeps the null it was initialised with. */
  function Slot(nr: NativeRun, i: nat): Option<NativeTensor> {
    if i < |nr.outputs| then nr.outputs[i] else None
  }

  function Slots(nr: NativeRun, n: nat): (r: seq<Option<NativeTensor>>)
    ensures |r| == n && forall i :: 0 <= i < n ==> r[i] == Slot(nr, i)
  {
    seq(n, i requires 0 <= i < n => Slot(nr, i))
  }

  /** The input loop of `Run` (nanobind): one `Value` per input, in the
      dict's order; the runtime-created tensor `i` gets handle `i`. */
  function NbInputs(inputs: seq<(string, NbValue.HostArray)>, memStatus: NbValue.HostArray -> StatusPtr,
                    createStatus: NbValue.HostArray -> StatusPtr, base: nat)
    : (r: Result<seq<NativeTensor>, Error>)
    ensures r.Ok? ==> |r.value| == |inputs|
    ensures r.Ok? ==> forall i :: 0 <= i < |inputs| ==>
              var a := inputs[i].1;
              var t := r.value[i];
              t.handle == base + i && Ok(t.elementType) == NpTypeToOrtType(a.dtype)
              && t.shape == a.shape && t.data == a.data && t.bytes == a.bytes
    ensures r.Ok? <==> forall i :: 0 <= i < |inputs| ==>
              NbValue.FromHostArray(inputs[i].1, memStatus(inputs[i].1), createStatus(inputs[i].1), base + i).Ok?
    decreases |inputs|
  {
    if |inputs| == 0 then Ok([])
    else
      var v :- NbValue.FromHostArray(inputs[0].1, memStatus(inputs[0].1), createStatus(inputs[0].1), base);
      var rest := NbInputs(inputs[1..], memStatus, createStatus, base + 1);
      assert forall i :: 1 <= i < |inputs| ==> inputs[1..][i - 1] == inputs[i];
      if rest.Err? then Err(rest.error) else Ok([v.tensor.value] + rest.value)
  }

  /** Output conversion of the nanobind `Run`: each slot becomes a `Value`
      (which builds its view), then each `Value` becomes a host array. */
  function NbOutputs(slots: seq<Option<NativeTensor>>): (r: Result<seq<NbValue.HostArray>, Error>)
    ensures r.Ok? ==> |r.value| == |slots|
    ensures r.Ok? <==> forall i :: 0 <= i < |slots| ==> slots[i].Some? && NbValue.ViewOf(slots[i].value).Ok?
    ensures r.Ok? ==> forall i :: 0 <= i < |slots| ==> r.value[i] == NbValue.ViewOf(slots[i].value).value
  {
    var values :- NbWrapAll(slots);
    NbToArrays(values)
  }

  function NbWrapAll(slots: seq<Option<NativeTensor>>): (r: Result<seq<NbValue.Value>, Error>)
    ensures r.Ok? ==> |r.value| == |slots|
    ensures r.Ok? <==> forall i :: 0 <= i < |slots| ==> NbValue.FromOrtValue(slots[i]).Ok?
    ensures r.Ok? ==> forall i :: 0 <= i < |slots| ==> Ok(r.value[i]) == NbValue.FromOrtValue(slots[i])
    decreases |slots|
  {
    if |slots| == 0 then Ok([])
    else
      var v :- NbValue.FromOrtValue(slots[0]);
      var rest := NbWrapAll(slots[1..]);
      assert forall i :: 1 <= i < |slots| ==> slots[1..][i - 1] == slots[i];
      if rest.Err? then Err(rest.error) else Ok([v] + rest.value)
  }

  function NbToArrays(values: seq<NbValue.Value>): (r: Result<seq<NbValue.HostArray>, Error>)
    ensures r.Ok? ==> |r.value| == |values|
    ensures r.Ok? <==> forall i :: 0 <= i < |values| ==> values[i].view.Some?
    ensures r.Ok? ==> forall i :: 0 <= i < |values| ==> r.value[i] == values[i].view.value
    decreases |values|
  {
    if |values| == 0 then Ok([])
    else
      var a :- NbValue.ToArray(values[0]);
      var rest := NbToArrays(values[1..]);
      assert forall i :: 1 <= i < |values| ==> values[1..][i - 1] == values[i];
      if rest.Err? then Err(rest.error) else Ok([a] + rest.value)
  }

  predicate DistinctNames(names: seq<string>) {
    forall i, j :: 0 <= i < j < |names| ==> names[i] != names[j]
  }

  /** Pairs each output name with its array. */
  function Zip<V>(names: seq<string>, arrays: seq<V>): (m: map<string, V>)
    requires |names| == |arrays| && DistinctNames(names)
    ensures m.Keys == set n | n in names
    ensures forall i :: 0 <= i < |names| ==> m[names[i]] == arrays[i]
  {
    map i | 0 <= i < |names| :: names[i] := arrays[i]
  }

  /** The names of a sequence of named items, in order: the input names of
      `Run` and its requested output names. */
  function NamesOf<V>(items: seq<(string, V)>): (r: seq<string>)
    ensures |r| == |items| && forall i :: 0 <= i < |items| ==> r[i] == items[i].0
  {
    seq(|items|, i requires 0 <= i < |items| => items[i].0)
  }

  /** The nanobind result map: every declared output name is a key, bound
      to the host view of the tensor in that output's slot. */
  lemma NbResultMap(nr: NativeRun, outputs: seq<(string, RawTypeInfo)>)
    requires DistinctNames(NamesOf(outputs))
    requires NbOutputs(Slots(nr, |outputs|)).Ok?
    ensures var m := Zip(NamesOf(outputs), NbOutputs(Slots(nr, |outputs|)).value);
            && m.Keys == set n | n in NamesOf(outputs)
            && forall i :: 0 <= i < |outputs| ==>
                 Slot(nr, i).Some?
                 && Ok(m[outputs[i].0]) == NbValue.ViewOf(Slot(nr, i).value)
                 && NpTypeToOrtType(m[outputs[i].0].dtype) == Ok(Slot(nr, i).value.elementType)
  {
    var slots := Slots(nr, |outputs|);
    var arrays := NbOutputs(slots).value;
    var m := Zip(NamesOf(outputs), arrays);
    forall i | 0 <= i < |outputs|
      ensures Slot(nr, i).Some? && Ok(m[outputs[i].0]) == NbValue.ViewOf(Slot(nr, i).value)
    {
      assert slots[i] == Slot(nr, i);
      assert m[NamesOf(outputs)[i]] == arrays[i];
    }
  }

  /** `Session::Run` of the nanobind binding. `outputs` are the session's
      declared outputs in the order the output-info map is iterated. Inputs
      are wrapped first (their errors come first), then the output
      descriptions are built, then the runtime runs (its status is checked),
      then the outputs are converted. The result maps every declared output
      name to a host view of the tensor the runtime produced for it. */
  function NbRun(inputs: seq<(string, NbValue.HostArray)>, outputs: seq<(string, RawTypeInfo)>,
                 memStatus: NbValue.HostArray -> StatusPtr, createStatus: NbValue.HostArray -> StatusPtr,
                 runtime: Runtime)
    : (r: Result<map<string, NbValue.HostArray>, Error>)
    requires DistinctNames(NamesOf(outputs))
    ensures NbInputs(inputs, memStatus, createStatus, 0).Err? ==> r == Err(NbInputs(inputs, memStatus, createStatus, 0).error)
    ensures NbInputs(inputs, memStatus, createStatus, 0).Ok? && GetIoInfo(outputs).Err? ==> r == Err(GetIoInfo(outputs).error)
    ensures r.Ok? ==> r.value.Keys == set n | n in NamesOf(outputs)
    ensures r.Ok? ==>
              var nr := runtime(NamesOf(inputs),
                                NbInputs(inputs, memStatus, createStatus, 0).value, NamesOf(outputs));
              Succeeded(nr.status)
              && forall i :: 0 <= i < |outputs| ==>
                   Slot(nr, i).Some?
                   && Ok(r.value[outputs[i].0]) == NbValue.ViewOf(Slot(nr, i).value)
                   && NpTypeToOrtType(r.value[outputs[i].0].dtype) == Ok(Slot(nr, i).value.elementType)
    ensures NbInputs(inputs, memStatus, createStatus, 0).Ok? && GetIoInfo(outputs).Ok? ==>
              var nr := runtime(NamesOf(inputs),
                                NbInputs(inputs, memStatus, createStatus, 0).value, NamesOf(outputs));
              && (!Succeeded(nr.status) ==> r == Err(NativeError(nr.status.value.message)))
              && (Succeeded(nr.status) ==>
                    (r.Ok? <==> forall i :: 0 <= i < |outputs| ==>
                                  Slot(nr, i).Some? && NbValue.ViewOf(Slot(nr, i).value).Ok?))
              && (Succeeded(nr.status) && NbOutputs(Slots(nr, |outputs|)).Err? ==>
                    r == Err(NbOutputs(Slots(nr, |outputs|)).error))
  {
    var tensors :- NbInputs(inputs, memStatus, createStatus, 0);
    var _ :- GetIoInfo(outputs);
    var names := NamesOf(inputs);
    var outputNames := NamesOf(outputs);
    var nr := runtime(names, tensors, outputNames);
    var _ :- Check(nr.status);
    assert forall i :: 0 <= i < |outputs| ==> Slots(nr, |outputNames|)[i] == Slot(nr, i);
    var arrays :- NbOutputs(Slots(nr, |outputNames|));
    NbResultMap(nr, outputs);
    Ok(Zip(outputNames, arrays))
  }

  // ---------------------------------------------------------------------
  // Releasing outputs when a conversion fails

  function HandlesOf(slots: seq<Option<NativeTensor>>): (r: set<nat>)
    ensures forall h :: h in r <==> exists i :: 0 <= i < |slots| && slots[i].Some? && slots[i].value.handle == h
  {
    set i | 0 <= i < |slots| && slots[i].Some? :: slots[i].value.handle
  }

  /** Output handles released while `Run` unwinds from a failed wrap, as
      written in the nanobind binding: each slot is converted as it is
      wrapped, so the failing slot `k` is released by its own `State`, the
      earlier ones by their `Value`s, and the later ones are never wrapped.
      (Taken with the intended `State` lifetime, see `ValueLifetime`.) */
  function NbWrapReleases(slots: seq<Option<NativeTensor>>): (r: set<nat>)
    ensures r <= HandlesOf(slots)
    decreases |slots|
  {
    if |slots| == 0 then {}
    else if NbValue.FromOrtValue(slots[0]).Err? then HandlesOf(slots[..1])
    else
      var rest := NbWrapReleases(slots[1..]);
      assert forall h :: h in HandlesOf(slots[1..]) ==> h in HandlesOf(slots) by {
        forall h | h in HandlesOf(slots[1..]) ensures h in HandlesOf(slots) {
          var i :| 0 <= i < |slots[1..]| && slots[1..][i].Some? && slots[1..][i].value.handle == h;
          assert slots[i + 1] == slots[1..][i];
        }
      }
      HandlesOf(slots[..1]) + rest
  }

  /** The first slot the nanobind wrap loop fails on. */
  function FirstUnwrappable(slots: seq<Option<NativeTensor>>): (k: nat)
    requires NbWrapAll(slots).Err?
    ensures k < |slots| && NbValue.FromOrtValue(slots[k]).Err?
    ensures forall j :: 0 <= j < k ==> NbValue.FromOrtValue(slots[j]).Ok?
    decreases |slots|
  {
    if NbValue.FromOrtValue(slots[0]).Err? then 0
    else
      assert NbWrapAll(slots[1..]).Err? by {
        assert forall i :: 1 <= i < |slots| ==> slots[1..][i - 1] == slots[i];
      }
      1 + FirstUnwrappable(slots[1..])
  }

  /** As written, a slot after the first unconvertible one is never released. */
  lemma {:induction false} NbLeaksLaterOutputs(slots: seq<Option<NativeTensor>>, j: nat)
    requires NbWrapAll(slots).Err?
    requires FirstUnwrappable(slots) < j < |slots| && slots[j].Some?
    requires forall i :: 0 <= i < |slots| && i != j && slots[i].Some? ==> slots[i].value.handle != slots[j].value.handle
    ensures slots[j].value.handle !in NbWrapReleases(slots)
    decreases |slots|
  {
    var h := slots[j].value.handle;
    assert h !in HandlesOf(slots[..1]);
    if NbValue.FromOrtValue(slots[0]).Ok? {
      WrapAllTail(slots);
      var tail := slots[1..];
      assert forall i :: 0 <= i < |tail| ==> tail[i] == slots[i + 1];
      NbLeaksLaterOutputs(tail, j - 1);
    }
  }

  /** One step of the wrap loop past a slot that wraps. */
  lemma WrapAllTail(slots: seq<Option<NativeTensor>>)
    requires NbWrapAll(slots).Err? && NbValue.FromOrtValue(slots[0]).Ok?
    ensures NbWrapAll(slots[1..]).Err?
    ensures FirstUnwrappable(slots) == 1 + FirstUnwrappable(slots[1..])
    ensures NbWrapReleases(slots) == HandlesOf(slots[..1]) + NbWrapReleases(slots[1..])
  {
  }

  /** Concrete case: two float outputs, the first of which comes back with a
      null data pointer (an empty tensor): the second is never released. */
  lemma NbLeakExample()
    ensures var slots := [Some(NativeTensor(1, ElemFloat, [0], 0, [])),
                          Some(NativeTensor(2, ElemFloat, [1], 200, [0, 0, 0, 0]))];
            NbWrapAll(slots).Err? && NbWrapReleases(slots) == {1} && 2 !in NbWrapReleases(slots)
  {
    var slots := [Some(NativeTensor(1, ElemFloat, [0], 0, [])),
                  Some(NativeTensor(2, ElemFloat, [1], 200, [0, 0, 0, 0]))];
    assert slots[..1] == [slots[0]];
    assert HandlesOf(slots[..1]) == {1};
  }

  /** The evident intent ("safe guard the raw values first"), which the
      pybind11 binding follows: every slot is wrapped before any conversion,
      so unwinding from a failed conversion destroys one wrapper per slot.
      The function is that ordering written down, so the lemma below holds
      by construction; the contrast with `NbWrapReleases` is the point. */
  function WrapFirstReleases(slots: seq<Option<NativeTensor>>): (r: set<nat>)
    ensures r <= HandlesOf(slots)
    decreases |slots|
  {
    if |slots| == 0 then {}
    else
      var rest := WrapFirstReleases(slots[1..]);
      assert forall h :: h in HandlesOf(slots[1..]) ==> h in HandlesOf(slots) by {
        forall h | h in HandlesOf(slots[1..]) ensures h in HandlesOf(slots) {
          var i :| 0 <= i < |slots[1..]| && slots[1..][i].Some? && slots[1..][i].value.handle == h;
          assert slots[i + 1] == slots[1..][i];
        }
      }
      HandlesOf(slots[..1]) + rest
  }

  /** With wrapping first, no output handle is left unreleased on failure
      (true by construction of `WrapFirstReleases`). */
  lemma {:induction false} WrapFirstReleasesEverything(slots: seq<Option<NativeTensor>>, j: nat)
    requires j < |slots| && slots[j].Some?
    ensures slots[j].value.handle in WrapFirstReleases(slots)
    decreases |slots|
  {
    if j == 0 {
      assert slots[..1][0] == slots[0];
    } else {
      assert slots[1..][j - 1] == slots[j];
      WrapFirstReleasesEverything(slots[1..], j - 1);
    }
  }

  /** The wrapper operations of the pybind11 order: wrapper `from + i` is
      constructed over slot `i`, owning a fresh handle exactly when the slot
      is non-null. */
  function WrapOps(slots: seq<Option<NativeTensor>>, from: nat): (r: seq<Ownership.Op>)
    ensures |r| == |slots|
    decreases |slots|
  {
    if |slots| == 0 then []
    else [Ownership.Construct(from, slots[0].Some?)] + WrapOps(slots[1..], from + 1)
  }

  /** Unwinding destroys the wrappers `from .. from + n - 1`. */
  function UnwindOps(from: nat, n: nat): (r: seq<Ownership.Op>)
    ensures |r| == n
    decreases n
  {
    if n == 0 then [] else [Ownership.Destroy(from)] + UnwindOps(from + 1, n - 1)
  }

  /** The number of non-null output slots. */
  function NonNullCount(slots: seq<Option<NativeTensor>>): nat
    decreases |slots|
  {
    if |slots| == 0 then 0 else (if slots[0].Some? then 1 else 0) + NonNullCount(slots[1..])
  }

  /** Wrapping slots into fresh objects adds exactly those objects, creates
      one handle per non-null slot and releases nothing. */
  lemma {:induction false} WrapOpsRun(w: Ownership.World, slots: seq<Option<NativeTensor>>, from: nat)
    requires forall o :: o in w.slots ==> o < from
    ensures Ownership.Replay(w, WrapOps(slots, from)).Some?
    ensures var w' := Ownership.Replay(w, WrapOps(slots, from)).value;
            && (forall o :: o in w'.slots <==> o in w.slots || from <= o < from + |slots|)
            && w'.released == w.released && w'.next == w.next + NonNullCount(slots)
    decreases |slots|
  {
    if |slots| > 0 {
      var ops := WrapOps(slots, from);
      assert ops[0] == Ownership.Construct(from, slots[0].Some?);
      assert ops[1..] == WrapOps(slots[1..], from + 1);
      WrapOpsRun(Ownership.Step(w, ops[0]), slots[1..], from + 1);
    }
  }

  /** Destroying every live object, numbered `from .. from + n - 1`, leaves
      none and creates nothing. */
  lemma {:induction false} UnwindOpsRun(w: Ownership.World, from: nat, n: nat)
    requires forall o :: o in w.slots <==> from <= o < from + n
    ensures Ownership.Replay(w, UnwindOps(from, n)).Some?
    ensures Ownership.Replay(w, UnwindOps(from, n)).value.slots == map[]
    ensures Ownership.Replay(w, UnwindOps(from, n)).value.next == w.next
    decreases n
  {
    if n == 0 {
      assert w.slots.Keys == {};
    } else {
      var ops := UnwindOps(from, n);
      assert ops[0] == Ownership.Destroy(from);
      assert ops[1..] == UnwindOps(from + 1, n - 1);
      UnwindOpsRun(Ownership.Step(w, ops[0]), from + 1, n - 1);
    }
  }

  /** The pybind11 order as a run of wrapper operations: every output slot is
      wrapped before any conversion, and a failed conversion unwinds them all.
      The run is valid and, by the ownership invariant, releases each of the
      handles it owned exactly once, one per non-null slot. */
  lemma WrapFirstUnwindReleasesAll(slots: seq<Option<NativeTensor>>)
    ensures var ops := WrapOps(slots, 0) + UnwindOps(0, |slots|);
            && Ownership.Replay(Ownership.Empty, ops).Some?
            && var w := Ownership.Replay(Ownership.Empty, ops).value;
               && w.slots == map[] && w.next == NonNullCount(slots)
               && Ownership.NoDuplicates(w.released)
               && forall h :: h in w.released <==> 0 <= h < NonNullCount(slots)
  {
    var wrap, unwind := WrapOps(slots, 0), UnwindOps(0, |slots|);
    WrapOpsRun(Ownership.Empty, slots, 0);
    var wrapped := Ownership.Replay(Ownership.Empty, wrap).value;
    assert wrapped.next == NonNullCount(slots);
    assert forall o :: o in wrapped.slots <==> 0 <= o < |slots|;
    UnwindOpsRun(wrapped, 0, |slots|);
    Ownership.ReplayAppend(Ownership.Empty, wrap, unwind);
    var w := Ownership.Replay(wrapped, unwind).value;
    assert Ownership.Replay(Ownership.Empty, wrap + unwind) == Some(w);
    assert w.slots == map[] && w.next == NonNullCount(slots);
    Ownership.ReleasedExactlyOnce(wrap + unwind);
    assert forall h :: h in w.released <==> 0 <= h < w.next;
  }

  // ---------------------------------------------------------------------
  // Run of the pybind11 binding

  /** The input loop of the pybind11 `Run`: each array becomes a `Value`
      through the as-written type table. */
  function PyInputs(inputs: seq<(string, PyValue.PyArray)>, memStatus: PyValue.PyArray -> StatusPtr,
                    createStatus: PyValue.PyArray -> StatusPtr, base: nat)
    : (r: Result<seq<NativeTensor>, Error>)
    ensures r.Ok? <==> forall i :: 0 <= i < |inputs| ==>
              var a := inputs[i].1;
              !a.kind.NpyOther? && Succeeded(memStatus(a)) && a.writeable && Succeeded(createStatus(a))
    ensures r.Ok? ==> |r.value| == |inputs|
    ensures r.Ok? ==> forall i :: 0 <= i < |inputs| ==>
              var a := inputs[i].1;
              r.value[i].handle == base + i && r.value[i].shape == a.shape
              && r.value[i].data == a.data && r.value[i].bytes == a.bytes
              && Ok(r.value[i].elementType) == NumpyTypes.NpTypeToOrtType(a.kind)
    decreases |inputs|
  {
    if |inputs| == 0 then Ok([])
    else
      var a := inputs[0].1;
      var v :- PyValue.FromArray(a, memStatus(a), createStatus(a), base);
      var rest := PyInputs(inputs[1..], memStatus, createStatus, base + 1);
      assert forall i :: 1 <= i < |inputs| ==> inputs[1..][i - 1] == inputs[i];
      if rest.Err? then Err(rest.error) else Ok([v.tensor.value] + rest.value)
  }

  /** Output conversion of the pybind11 `Run`: every slot is wrapped first
      (wrapping cannot fail), then each is copied into a new array; `base`
      numbers the new arrays and `alloc` gives the buffer address numpy
      allocates for the array with each number. */
  function PyOutputs(dm: NumpyTypes.DataModel, slots: seq<Option<NativeTensor>>, base: nat, alloc: nat -> nat)
    : (r: Result<seq<PyValue.PyArray>, Error>)
    ensures r.Ok? <==> forall i :: 0 <= i < |slots| ==> Convertible(slots[i])
    ensures r.Ok? ==> |r.value| == |slots|
    ensures r.Ok? ==> forall i :: 0 <= i < |slots| ==>
              Ok(r.value[i]) == PyOutput(dm, slots[i], base + i, alloc(base + i))
  {
    var numbered: seq<(Option<NativeTensor>, nat)> := seq(|slots|, i requires 0 <= i < |slots| => (slots[i], base + i));
    var r := MapResult(numbered, (p: (Option<NativeTensor>, nat)) => PyOutput(dm, p.0, p.1, alloc(p.1)));
    assert forall i :: 0 <= i < |slots| ==> numbered[i] == (slots[i], base + i);
    r
  }

  /** A slot the pybind11 binding can copy out: filled, of a supported type
      and shape, with a data pointer. */
  predicate Convertible(slot: Option<NativeTensor>) {
    slot.Some? && PyValue.WellTyped(slot.value) && slot.value.data != 0
  }

  /** One output of the pybind11 `Run`: wrap the slot, copy it out. The copy
      has the slot's shape, the host kind of its tag and the bytes the tensor
      holds (all of them, for a well-formed tensor); the kind maps back to the
      tag through the as-written table except for 64-bit integers on LP64. */
  function PyOutput(dm: NumpyTypes.DataModel, slot: Option<NativeTensor>, id: nat, data: nat)
    : (r: Result<PyValue.PyArray, Error>)
    ensures r.Ok? <==> Convertible(slot)
    ensures r.Ok? ==>
              var t := slot.value;
              && r.value.id == id && r.value.data == data && r.value.shape == t.shape
              && r.value.kind == NumpyTypes.OrtTypeToNpType(dm, t.elementType).value
              && r.value.bytes == PyValue.CopyOut(t, GetSize(slot).value)
              && (WellFormed(t) ==> r.value.bytes == t.bytes)
              && (NumpyTypes.NpTypeToOrtType(r.value.kind) == Ok(t.elementType)
                  <==> dm == NumpyTypes.LLP64 || (t.elementType != ElemInt64 && t.elementType != ElemUint64))
  {
    var v := PyValue.Value(slot, None);
    var conv :- PyValue.ToArray(dm, v, id, data);
    NumpyTypes.WrittenRoundTripExactly(dm, slot.value.elementType);
    if WellFormed(slot.value) then
      PyValue.ToArrayCopiesContents(dm, v, id, data);
      Ok(conv.1)
    else Ok(conv.1)
  }

  /** The pybind11 result map: every declared output name is a key, bound
      to the copy of that output's slot. */
  lemma PyResultMap(dm: NumpyTypes.DataModel, nr: NativeRun, outputs: seq<(string, RawTypeInfo)>, base: nat, alloc: nat -> nat)
    requires DistinctNames(NamesOf(outputs))
    requires PyOutputs(dm, Slots(nr, |outputs|), base, alloc).Ok?
    ensures var m := Zip(NamesOf(outputs), PyOutputs(dm, Slots(nr, |outputs|), base, alloc).value);
            && m.Keys == set n | n in NamesOf(outputs)
            && forall i :: 0 <= i < |outputs| ==> Ok(m[outputs[i].0]) == PyOutput(dm, Slot(nr, i), base + i, alloc(base + i))
  {
    var slots := Slots(nr, |outputs|);
    var arrays := PyOutputs(dm, slots, base, alloc).value;
    var m := Zip(NamesOf(outputs), arrays);
    forall i | 0 <= i < |outputs|
      ensures Ok(m[outputs[i].0]) == PyOutput(dm, Slot(nr, i), base + i, alloc(base + i))
    {
      assert slots[i] == Slot(nr, i);
      assert m[NamesOf(outputs)[i]] == arrays[i];
    }
  }

  /** `Session::Run` of the pybind11 binding: the same order as the nanobind
      one, with copied outputs. */
  function PyRun(dm: NumpyTypes.DataModel, inputs: seq<(string, PyValue.PyArray)>, outputs: seq<(string, RawTypeInfo)>,
                 memStatus: PyValue.PyArray -> StatusPtr, createStatus: PyValue.PyArray -> StatusPtr,
                 runtime: Runtime, base: nat, alloc: nat -> nat)
    : (r: Result<map<string, PyValue.PyArray>, Error>)
    requires DistinctNames(NamesOf(outputs))
    ensures PyInputs(inputs, memStatus, createStatus, 0).Err? ==> r == Err(PyInputs(inputs, memStatus, createStatus, 0).error)
    ensures PyInputs(inputs, memStatus, createStatus, 0).Ok? && PyGetIoInfo(dm, outputs).Err? ==>
              r == Err(PyGetIoInfo(dm, outputs).error)
    ensures PyInputs(inputs, memStatus, createStatus, 0).Ok? && PyGetIoInfo(dm, outputs).Ok? ==>
              var nr := runtime(NamesOf(inputs), PyInputs(inputs, memStatus, createStatus, 0).value, NamesOf(outputs));
              && (!Succeeded(nr.status) ==> r == Err(NativeError(nr.status.value.message)))
              && (Succeeded(nr.status) ==> (r.Ok? <==> forall i :: 0 <= i < |outputs| ==> Convertible(Slot(nr, i))))
              && (Succeeded(nr.status) && PyOutputs(dm, Slots(nr, |outputs|), base, alloc).Err? ==>
                    r == Err(PyOutputs(dm, Slots(nr, |outputs|), base, alloc).error))
    ensures r.Ok? ==> r.value.Keys == set n | n in NamesOf(outputs)
    ensures r.Ok? ==>
              var nr := runtime(NamesOf(inputs), PyInputs(inputs, memStatus, createStatus, 0).value, NamesOf(outputs));
              Succeeded(nr.status)
              && forall i :: 0 <= i < |outputs| ==>
                   Ok(r.value[outputs[i].0]) == PyOutput(dm, Slot(nr, i), base + i, alloc(base + i))
                   && r.value[outputs[i].0].shape == Slot(nr, i).value.shape
                   && (WellFormed(Slot(nr, i).value) ==> r.value[outputs[i].0].bytes == Slot(nr, i).value.bytes)
  {
    var tensors :- PyInputs(inputs, memStatus, createStatus, 0);
    var _ :- PyGetIoInfo(dm, outputs);
    PyAfterRun(dm, runtime(NamesOf(inputs), tensors, NamesOf(outputs)), outputs, base, alloc)
  }

  /** The part of the pybind11 `Run` after the runtime returns: the status
      check, then the copies of the outputs. */
  function PyAfterRun(dm: NumpyTypes.DataModel, nr: NativeRun, outputs: seq<(string, RawTypeInfo)>, base: nat, alloc: nat -> nat)
    : (r: Result<map<string, PyValue.PyArray>, Error>)
    requires DistinctNames(NamesOf(outputs))
    ensures !Succeeded(nr.status) ==> r == Err(NativeError(nr.status.value.message))
    ensures Succeeded(nr.status) ==> (r.Ok? <==> forall i :: 0 <= i < |outputs| ==> Convertible(Slot(nr, i)))
    ensures Succeeded(nr.status) && PyOutputs(dm, Slots(nr, |outputs|), base, alloc).Err? ==>
              r == Err(PyOutputs(dm, Slots(nr, |outputs|), base, alloc).error)
    ensures r.Ok? ==> Succeeded(nr.status) && r.value.Keys == set n | n in NamesOf(outputs)
    ensures r.Ok? ==> forall i :: 0 <= i < |outputs| ==>
              Ok(r.value[outputs[i].0]) == PyOutput(dm, Slot(nr, i), base + i, alloc(base + i))
              && r.value[outputs[i].0].shape == Slot(nr, i).value.shape
              && (WellFormed(Slot(nr, i).value) ==> r.value[outputs[i].0].bytes == Slot(nr, i).value.bytes)
  {
    var _ :- Check(nr.status);
    assert forall i :: 0 <= i < |outputs| ==> Slots(nr, |outputs|)[i] == Slot(nr, i);
    var arrays :- PyOutputs(dm, Slots(nr, |outputs|), base, alloc);
    PyResultMap(dm, nr, outputs, base, alloc);
    Ok(Zip(NamesOf(outputs), arrays))
  }
}

=== FILE: status.dfy ===
/** `Status`: the owning wrapper of a native `OrtStatus*`, and `Check`, the one
    place a native failure becomes a host exception. */
module Status {
  import opened Wrappers
  import opened Errors

  const OrtOk: int := 0
  const OrtFail: int := 1

  /** The native status object: an error code and a message. */
  datatype NativeStatus = NativeStatus(code: int, message: string)

  /** `OrtStatus*`: a null pointer is how the native API reports success. */
  type StatusPtr = Option<NativeStatus>

  /** `Status::GetErrorCode`: a null status reads as OK. */
  function GetErrorCode(s: StatusPtr): int {
    if s.None? then OrtOk else s.value.code
  }

  /** `Status::GetErrorMessage`: a null status has the empty message. */
  function GetErrorMessage(s: StatusPtr): string {
    if s.None? then "" else s.value.message
  }

  predicate Succeeded(s: StatusPtr) {
    s.None? || s.value.code == OrtOk
  }

  /** `Status::Check`: throws exactly when the status carries a non-OK code,
      and the exception's text is the native message. */
  function Check(s: StatusPtr): (r: Result<Unit, Error>)
    ensures r.Ok? <==> Succeeded(s)
    ensures r.Err? ==> s.Some? && r.error == NativeError(s.value.message)
    ensures r.Err? ==> What(r.error) == s.value.message
  {
    if GetErrorCode(s) != OrtOk then Err(NativeError(GetErrorMessage(s))) else Ok(Unit)
  }

  /** The status the selection trampoline hands back when it fails
      (`CreateStatus(ORT_FAIL, message)`). */
  function FailStatus(message: string): StatusPtr {
    Some(NativeStatus(OrtFail, message))
  }

  /** A host exception reported through a native status and re-checked on
      the host side surfaces with the same text. */
  lemma FailStatusRoundTrip(e: Error)
    ensures Check(FailStatus(What(e))) == Err(NativeError(What(e)))
    ensures What(Check(FailStatus(What(e))).error) == What(e)
  {
  }
}

=== FILE: tensors.dfy ===
/** A native tensor (`OrtValue*`) as the binding queries it, and the four
    queries both bindings' `Value` classes run on it. A null handle makes every
    query throw "Value is empty". */
module Tensors {
  import opened Wrappers
  import opened Errors
  import opened ElementTypes
  import opened ByteSize

  /** `data` is the address `GetTensorMutableData` yields (0 is null) and
      `bytes` the contents of the buffer there. */
  datatype NativeTensor = NativeTensor(
    handle: nat, elementType: ElementType, shape: seq<int>, data: nat, bytes: seq<int>)

  /** A tensor as the runtime builds it: dimensions non-negative and a buffer
      of exactly the byte size. */
  predicate WellFormed(t: NativeTensor) {
    t.elementType in SupportedElementTypes && AllNonNegative(t.shape)
    && ByteCount(t.elementType, t.shape) == Ok(|t.bytes|)
  }

  /** `GetType`. */
  function GetType(p: Option<NativeTensor>): (r: Result<ElementType, Error>)
    ensures r.Ok? <==> p.Some?
    ensures r.Err? ==> r.error == ValueIsEmpty
    ensures r.Ok? ==> r.value == p.value.elementType
  {
    if p.None? then Err(ValueIsEmpty) else Ok(p.value.elementType)
  }

  /** `GetShape`. */
  function GetShape(p: Option<NativeTensor>): (r: Result<seq<int>, Error>)
    ensures r.Ok? <==> p.Some?
    ensures r.Err? ==> r.error == ValueIsEmpty
    ensures r.Ok? ==> r.value == p.value.shape
  {
    if p.None? then Err(ValueIsEmpty) else Ok(p.value.shape)
  }

  /** `GetSize`: the empty check, then the byte count. */
  function GetSize(p: Option<NativeTensor>): (r: Result<nat, Error>)
    ensures p.None? ==> r == Err(ValueIsEmpty)
    ensures p.Some? ==> r == ByteCount(p.value.elementType, p.value.shape)
    ensures p.Some? && WellFormed(p.value) ==> r == Ok(|p.value.bytes|)
  {
    if p.None? then Err(ValueIsEmpty) else ByteCount(p.value.elementType, p.value.shape)
  }

  /** `GetData`: the data address; a null one throws. */
  function GetData(p: Option<NativeTensor>): (r: Result<nat, Error>)
    ensures p.None? ==> r == Err(ValueIsEmpty)
    ensures p.Some? ==> (r.Ok? <==> p.value.data != 0)
    ensures r.Ok? ==> r.value == p.value.data
    ensures r.Err? && p.Some? ==> r.error == NoTensorData
  {
    if p.None? then Err(ValueIsEmpty)
    else if p.value.data == 0 then Err(NoTensorData)
    else Ok(p.value.data)
  }

  /** The four queries describe one tensor consistently: an empty value makes
      each throw "Value is empty"; otherwise type and shape always succeed,
      the byte size is computed from exactly what they report (the buffer
      length for a well-formed tensor), and the data query fails only on a
      null data pointer. */
  lemma QueriesAgree(p: Option<NativeTensor>)
    ensures p.None? ==> GetType(p) == Err(ValueIsEmpty) && GetShape(p) == Err(ValueIsEmpty)
                        && GetSize(p) == Err(ValueIsEmpty) && GetData(p) == Err(ValueIsEmpty)
    ensures p.Some? ==> GetType(p).Ok? && GetShape(p).Ok?
                        && GetSize(p) == ByteCount(GetType(p).value, GetShape(p).value)
    ensures p.Some? && WellFormed(p.value) ==> GetSize(p) == Ok(|p.value.bytes|)
    ensures p.Some? ==> (GetData(p).Err? <==> GetData(p) == Err(NoTensorData))
    ensures GetData(p).Ok? ==> GetType(p).Ok? && GetData(p).value != 0
  {
  }
}

=== FILE: value_lifetime.dfy ===
/** Lifetime of the nanobind binding's `Value::State`, the block a `Value`
    shares through `std::shared_ptr` and whose destructor releases the native
    `OrtValue`.

    A `Value` made from a native tensor builds a host array view of the tensor
    data whose owner capsule holds one more `shared_ptr<State>`. The view is
    stored in `State::npArray` itself, and every array handed to the host
    shares that view's handle, which keeps the capsule alive. So the State is
    referenced by: the `Value` objects sharing it, plus one reference from the
    capsule for as long as the stored view or any host array is alive.

    `AsWritten` is that arrangement. `Intended` is the evident design: the
    capsule of every exported view keeps the State alive, and the State does
    not hold a view of itself. */
module ValueLifetime {
  import opened Wrappers

  datatype Design = AsWritten | Intended

  /** Reference holders of one State block; `released` counts calls of the
      State destructor (each releases the native value once). */
  datatype Life = Life(values: nat, hostArrays: nat, selfView: bool, released: nat)

  datatype Event =
    | CopyValue    // a `Value` copied: one more `shared_ptr<State>`
    | DropValue    // a `Value` destroyed
    | ExportArray  // `operator NpArray`: one more host array sharing the view
    | DropArray    // the host drops one of those arrays

  /** The `shared_ptr<State>` use count. */
  function Refs(d: Design, l: Life): nat {
    match d
    case AsWritten => l.values + (if l.selfView || l.hostArrays > 0 then 1 else 0)
    case Intended => l.values + l.hostArrays
  }

  /** Right after `Value(OrtValue*)` or `Value(shape, type)` returns. */
  function Created(d: Design): (l: Life)
    ensures Refs(d, l) > 0 && l.released == 0
  {
    Life(1, 0, d == AsWritten, 0)
  }

  predicate Alive(l: Life) {
    l.released == 0
  }

  predicate Enabled(l: Life, e: Event) {
    Alive(l) &&
    match e
    case CopyValue => l.values > 0
    case DropValue => l.values > 0
    case ExportArray => l.values > 0
    case DropArray => l.hostArrays > 0
  }

  /** One event; when the use count reaches zero the State is destroyed, which
      releases the native value and drops the stored view. */
  function Step(d: Design, l: Life, e: Event): (r: Life)
    requires Enabled(l, e)
    ensures r.released == (if Refs(d, r) == 0 then 1 else 0)
  {
    var l' := match e
      case CopyValue => l.(values := l.values + 1)
      case DropValue => l.(values := l.values - 1)
      case ExportArray => l.(hostArrays := l.hostArrays + 1)
      case DropArray => l.(hostArrays := l.hostArrays - 1);
    if Refs(d, l') == 0 then l'.(released := 1, selfView := false) else l'
  }

  function Replay(d: Design, l: Life, es: seq<Event>): Option<Life>
    decreases |es|
  {
    if |es| == 0 then Some(l)
    else if !Enabled(l, es[0]) then None
    else Replay(d, Step(d, l, es[0]), es[1..])
  }

  /** Under the intended design the native value is released exactly when the
      last `Value` and the last host array are gone, never earlier (no host
      array can see freed data) and never twice. */
  lemma {:induction false} IntendedReleasesAtLastDrop(l: Life, es: seq<Event>)
    requires l.released <= 1
    requires l.released == 1 <==> Refs(Intended, l) == 0
    requires !l.selfView
    ensures Replay(Intended, l, es).Some? ==>
              var r := Replay(Intended, l, es).value;
              r.released <= 1 && (r.released == 1 <==> r.values == 0 && r.hostArrays == 0)
    decreases |es|
  {
    if |es| > 0 && Enabled(l, es[0]) {
      IntendedReleasesAtLastDrop(Step(Intended, l, es[0]), es[1..]);
    }
  }

  lemma IntendedValueIsReleased(es: seq<Event>)
    requires Replay(Intended, Created(Intended), es).Some?
    ensures var r := Replay(Intended, Created(Intended), es).value;
            r.released <= 1 && (r.released == 1 <==> r.values == 0 && r.hostArrays == 0)
  {
    IntendedReleasesAtLastDrop(Created(Intended), es);
  }

  /** As written, the stored view keeps the capsule alive and the capsule
      keeps the State alive: the use count never reaches zero, so whatever the
      host and the binding do, the native value is never released. This
      holds by construction of the model: the self-reference counts as one
      extra holder that no event removes, and `OutputLeaks` shows what it
      costs on a concrete run. */
  lemma {:induction false} AsWrittenNeverReleases(l: Life, es: seq<Event>)
    requires l.selfView && l.released == 0
    ensures Replay(AsWritten, l, es).Some? ==>
              Replay(AsWritten, l, es).value.released == 0
              && Replay(AsWritten, l, es).value.selfView
    decreases |es|
  {
    if |es| > 0 && Enabled(l, es[0]) {
      AsWrittenNeverReleases(Step(AsWritten, l, es[0]), es[1..]);
    }
  }

  /** The smallest witness: a session output is converted to one host array,
      the `Value` goes away at the end of `Run`, then the host drops the array.
      Nothing refers to the State any more, yet it was never destroyed; under
      the intended design the same run releases it. */
  lemma OutputLeaks()
    ensures var r := Replay(AsWritten, Created(AsWritten), [ExportArray, DropValue, DropArray]);
            r.Some? && r.value.values == 0 && r.value.hostArrays == 0 && r.value.released == 0
    ensures var r := Replay(Intended, Created(Intended), [ExportArray, DropValue, DropArray]);
            r.Some? && r.value.released == 1
  {
    ReplayExportDropDrop(AsWritten);
    ReplayExportDropDrop(Intended);
  }

  lemma ReplayExportDropDrop(d: Design)
    ensures Replay(d, Created(d), [ExportArray, DropValue, DropArray])
            == Some(if d == AsWritten then Life(0, 0, true, 0) else Life(0, 0, false, 1))
  {
    var es := [ExportArray, DropValue, DropArray];
    var l0 := Created(d);
    var l1 := Life(1, 1, d == AsWritten, 0);
    var l2 := Life(0, 1, d == AsWritten, 0);
    var l3 := if d == AsWritten then Life(0, 0, true, 0) else Life(0, 0, false, 1);
    assert Step(d, l0, ExportArray) == l1;
    assert Step(d, l1, DropValue) == l2;
    assert Step(d, l2, DropArray) == l3;
    assert es[1..] == [DropValue, DropArray];
    assert es[1..][1..] == [DropArray];
    assert [DropArray][1..] == [];
    calc {
      Replay(d, l0, es);
      Replay(d, l1, [DropValue, DropArray]);
      Replay(d, l2, [DropArray]);
      Replay(d, l3, []);
    }
  }
}

=== FILE: wrappers.dfy ===
/** Failure-compatible result types shared by every module of the model.
    `Result` stands for "returns a value or throws"; `Option` for a nullable
    pointer or an optional Python value. */
module Wrappers {

  datatype Option<+T> = None | Some(value: T)

  datatype Result<+T, +E> = Ok(value: T) | Err(error: E) {

    predicate IsFailure() {
      Err?
    }

    function PropagateFailure<U>(): Result<U, E>
      requires Err?
    {
      Err(error)
    }

    function Extract(): T
      requires Ok?
    {
      value
    }
  }

  /** A loop that converts each item in order and stops at the first
      conversion that throws, rethrowing its error. */
  function MapResult<T, U, E>(items: seq<T>, f: T -> Result<U, E>): (r: Result<seq<U>, E>)
    ensures r.Ok? <==> forall i :: 0 <= i < |items| ==> f(items[i]).Ok?
    ensures r.Ok? ==> |r.value| == |items| && forall i :: 0 <= i < |items| ==> Ok(r.value[i]) == f(items[i])
    ensures r.Err? ==> exists i :: 0 <= i < |items| && f(items[i]) == Err(r.error)
                                   && forall j :: 0 <= j < i ==> f(items[j]).Ok?
    decreases |items|
  {
    if |items| == 0 then Ok([])
    else
      var a :- f(items[0]);
      var rest := MapResult(items[1..], f);
      assert forall i :: 1 <= i < |items| ==> items[1..][i - 1] == items[i];
      if rest.Err? then Err(rest.error) else Ok([a] + rest.value)
  }

  /** The result of a `void` operation that may throw. */
  datatype Unit = Unit
}
